=== FILE: README.md ===
# Sentry backend core, modelled in Dafny

This project models six self-contained pieces of Sentry's Python backend and
proves properties of them:

- **Stack-trace enhancement rules** (`src/sentry/grouping/enhancer.py`):
  - the compact config encoding of matchers and actions: the bit-packed
    action integer, and the short-key matcher string with an optional `!`
    negation prefix;
  - the positional meaning of range matchers and of action slices;
  - which rules apply to a frame: the blocklist scan of
    `_iter_matching_rules`, compared with the per-rule `all(...)` check;
  - the way flag actions and variable actions change the grouping
    components;
  - the `max-frames` trimming and the `min-frames` discard.
- **The fallback hierarchy of a stack trace**
  (`src/sentry/grouping/strategies/hierarchical.py`):
  - the choice of the blaming frame;
  - the outward walk of `_accumulate_frame_levels`;
  - the `app-depth-N` levels with their tree labels.
- **Usage-stats bucketing** (`src/sentry/api/endpoints/organization_stats_v2.py`):
  - time buckets aligned to the rollup (`zerofill` on empty data);
  - routing of outcome rows into measure slots;
  - the reason mapper;
  - serialization and the field names of the response.
- **Notification settings**:
  - the parameter validators in `src/sentry/api/validators/notifications.py`;
  - the serializer's `validate`, `serialize` and `get_attrs` in
    `src/sentry/api/serializers/models/notification_setting.py`.
- **Issue subscriptions and mail recipients**:
  - `GroupSubscriptionManager` in `src/sentry/models/groupsubscription.py`;
  - recipient resolution, the digest subject and commit de-duplication in
    `src/sentry/mail/adapter.py`.
- **Key/value wrappers**:
  - the event processing store in `src/sentry/eventstore/processing/base.py`;
  - the codec wrapper in `src/sentry/utils/kvstore/encoding.py`.

Everything is modelled with immutable datatypes and pure functions over
sequences, sets and maps. The few loops are methods with invariants. Where
the source raises an exception, the model returns an error value
(`Result`/`Option` in `wrappers.dfy`). Python's text helpers (`split`,
`join`, `in` on strings, `int()` on decimal text, `str()` of an integer) are
in `text.dfy`. Database queries, helpers defined elsewhere and the
enumeration classes come in as parameters.

Three places where the code does something other than what it evidently
intends are recorded under "## Findings". Each has both an as-written model
and a corrected one. For the matching-rule scan and the outcome routing the
rest of the model uses the corrected one; the config loader follows the
code as written, so an encoded exception matcher does not load.

`zerofill` computes `int(start / rollup) * rollup`, which truncates toward
zero and so differs from flooring for negative timestamps;
`UsageStats.TruncDiv` models the truncation.

## Model

| member | source | states |
|---|---|---|
| EnhancerConfig.KeyOfShort | src/sentry/grouping/enhancer.py:74-87 | the inverse key table maps a short key back to the matcher key that has it |
| EnhancerConfig.ShortKeysUnique | src/sentry/grouping/enhancer.py:74-87 | no two matcher keys share a short key; the inverse table finds every key; no short key is `!` |
| EnhancerConfig.MatcherKey | src/sentry/grouping/enhancer.py:107-125 | a name resolves only when it is one of the fourteen `MATCHERS` names: a frame key by its own name, an exception key by its `error.` name, module, package and function also by their `stack.` name, and path by `stack.abs_path` |
| EnhancerConfig.MatcherKeyNames | src/sentry/grouping/enhancer.py:107-125 | for every key: its own name resolves exactly for frame keys, its `error.` name exactly for exception keys, its `stack.` name exactly for module, package and function, and `stack.abs_path` gives path |
| EnhancerConfig.FromKey | src/sentry/grouping/enhancer.py:181-194 | a frame matcher is built exactly for a known key name, with the key it resolves to; an unknown name is the bare `KeyError` of `MATCHERS[key]`, raised before the constructor's own "Unknown matcher" check, and is the `UnknownMatcher` error here |
| EnhancerConfig.FamilyName | src/sentry/grouping/enhancer.py:69-70 | the reverse family table inverts the family table |
| EnhancerConfig.FamilyLetterName | src/sentry/grouping/enhancer.py:69-70 | every known family name comes back from its letter |
| EnhancerConfig.KnownFamilies | src/sentry/grouping/enhancer.py:159 | the names kept after decoding are all known families |
| EnhancerConfig.FamilyNamesOfLetters | src/sentry/grouping/enhancer.py:227 | encoding family names to letters and decoding the letters gives the known names in order, unknown ones dropped |
| EnhancerConfig.EncodeFrameMatch | src/sentry/grouping/enhancer.py:225-232 | the config string starts with `!` exactly when the matcher is negated, followed by the short key and then the argument |
| EnhancerConfig.DecodeFrameMatch | src/sentry/grouping/enhancer.py:152-163 | a string decodes exactly when it reads as a matcher whose key is not an exception key; `t`, `v` and `M` fail with the key name unknown to `MATCHERS`; a decoded matcher is negated exactly when the string starts with `!` |
| EnhancerConfig.FrameMatchRoundTrip | src/sentry/grouping/enhancer.py:152-163 | decoding an encoded frame matcher succeeds exactly for keys other than the exception keys, which fail with their key name unknown; every key but family and app comes back exactly |
| EnhancerConfig.FrameMatchRoundTripIntended | src/sentry/grouping/enhancer.py:152-163 | reading an encoded matcher back, before the `MATCHERS` look-up, gives its key and negation; its pattern for keys other than family and app; the known family names joined by commas for family; "1", "0" or "" by the rule's boolean for app |
| EnhancerConfig.ExceptionMatcherDoesNotLoad | src/sentry/grouping/enhancer.py:157-163 | `error.type:ValueError` encodes to `tValueError`, which reads as that matcher but fails to decode because `type` is not a `MATCHERS` name |
| EnhancerConfig.ExceptionMatchDoesNotLoad | src/sentry/grouping/enhancer.py:142-163 | an encodable matcher with an exception key at either end does not decode again |
| EnhancerConfig.ActionIndex | src/sentry/grouping/enhancer.py:89 | every action has an index below 4 in `ACTIONS` |
| EnhancerConfig.ActionAt | src/sentry/grouping/enhancer.py:89 | `ACTIONS[i]` exists exactly for -4 <= i < 4, a negative index counting from the end, and is the action at that position; any other index is the `IndexError` |
| EnhancerConfig.FlagCode | src/sentry/grouping/enhancer.py:96-103 | each (flag, range) pair has a code below 6 |
| EnhancerConfig.FlagsOfCode | src/sentry/grouping/enhancer.py:104 | the reverse flag table is defined exactly on 0..5 and inverts the flag table |
| EnhancerConfig.FlagShift | src/sentry/grouping/enhancer.py:90-94 | the flag field starts at bit 4 in version 1 and at bit 8 in version 2 |
| EnhancerConfig.EncodeFlagAction | src/sentry/grouping/enhancer.py:409-412 | the low four bits hold the action index and the bits above the version's bit size hold the flag code |
| EnhancerConfig.EncodeFields | src/sentry/grouping/enhancer.py:409-412 | the two fields of a packed integer do not overlap |
| EnhancerConfig.DecodeFlagAction | src/sentry/grouping/enhancer.py:389-393 | an integer decodes exactly when its flag field is a known code and its low four bits index `ACTIONS`; the fields decode to that action and those flags |
| EnhancerConfig.EncodeAction | src/sentry/grouping/enhancer.py:409-412 | a flag action encodes to an integer and a variable action to a pair; decoding with the same version gives the action back |
| EnhancerConfig.DecodeAction | src/sentry/grouping/enhancer.py:387-393 | a pair always decodes, to the variable action it carries; an integer decodes exactly when its flag field and action index are known, and encoding the result again keeps both fields |
| EnhancerConfig.FlagActionRoundTrip | src/sentry/grouping/enhancer.py:387-412 | for each version, decoding the encoding of a flag action gives back the same key, flag and range |
| EnhancerConfig.EncodeMatch | src/sentry/grouping/enhancer.py:349-355 | a matcher fails to encode exactly when it is a range matcher missing its start or its end; a frame matcher encodes to its string |
| EnhancerConfig.DecodeMatch | src/sentry/grouping/enhancer.py:142-163 | a string decodes as a matcher exactly when it decodes as a frame matcher |
| EnhancerConfig.MatchRoundTrip | src/sentry/grouping/enhancer.py:142-163 | a plain matcher (no family, app or exception key, and a range with both ends) encodes and decodes back to itself |
| EnhancerConfig.EncodeMatches | src/sentry/grouping/enhancer.py:770-774 | fails exactly when some matcher cannot be encoded; otherwise one encoding per matcher, in order |
| EnhancerConfig.DecodeMatches | src/sentry/grouping/enhancer.py:777-781 | fails exactly when some matcher does not decode; otherwise one decoded matcher per entry, in order |
| EnhancerConfig.DecodeActions | src/sentry/grouping/enhancer.py:777-781 | fails exactly when some action does not decode; otherwise one decoded action per entry, in order |
| EnhancerConfig.MatchesRoundTrip | src/sentry/grouping/enhancer.py:770-781 | a list of plain matchers encodes and decodes back to itself |
| EnhancerConfig.ActionsRoundTrip | src/sentry/grouping/enhancer.py:770-781 | a list of actions encodes and decodes back to itself with the same version |
| EnhancerConfig.RuleRoundTrip | src/sentry/grouping/enhancer.py:770-781 | a rule whose matchers are plain encodes and decodes back to itself |
| EnhancerConfig.EncodeRule | src/sentry/grouping/enhancer.py:770-774 | fails exactly when some matcher cannot be encoded; the encoded actions decode back to the rule's actions |
| EnhancerConfig.DecodeRule | src/sentry/grouping/enhancer.py:777-781 | a rule loads exactly when each of its matchers and each of its actions loads, keeping their counts |
| EnhancerConfig.ExceptionRuleDoesNotLoad | src/sentry/grouping/enhancer.py:777-781 | an encoded rule that uses an exception matcher cannot be loaded |
| EnhancerConfig.DecodeRules | src/sentry/grouping/enhancer.py:692-700 | a version other than 1 or 2 is rejected; otherwise the set loads exactly when every rule loads, giving each rule decoded in order |
| EnhancerMatch.FrameMatches | src/sentry/grouping/enhancer.py:214-219 | a frame matcher matches when its positive test differs from its negation flag |
| EnhancerMatch.AnyMatchIn | src/sentry/grouping/enhancer.py:361-371 | the search loop finds a match exactly when some frame in the window matches |
| EnhancerMatch.RangeMatches | src/sentry/grouping/enhancer.py:357-375 | a range matcher holds at idx exactly when a set `end` matches an earlier frame (only idx-1 when neighbouring) and a set `start` matches a later one (only idx+1 when neighbouring) |
| EnhancerMatch.RangeMatchSpec | src/sentry/grouping/enhancer.py:357-375 | a range matcher holds at idx exactly when a set `end` matches an earlier frame (only idx-1 when neighbouring) and a set `start` matches a later frame (only idx+1 when neighbouring); with neither set it always holds |
| EnhancerMatch.Matches | src/sentry/grouping/enhancer.py:214-219 | a frame matcher holds when its positive test differs from its negation; a range with no ends always holds; a range that holds has its `end` matching an earlier frame and its `start` a later one |
| EnhancerMatch.SortedMatchers | src/sentry/grouping/enhancer.py:733-735 | as many matchers, the same ones, with no frame matcher after a range matcher |
| EnhancerMatch.SortedMatchersStable | src/sentry/grouping/enhancer.py:733-735 | the sort is a permutation (equal multisets) that leaves the frame matchers' and the range matchers' sub-sequences as they were, which is what Python's stable `sorted` by that key gives |
| EnhancerMatch.RuleMatchesFrame | src/sentry/grouping/enhancer.py:755-764 | a rule applies to a frame exactly when it has matchers and every one of them matches, whatever the sorted order |
| EnhancerMatch.AllMatchEvery | src/sentry/grouping/enhancer.py:761-764 | the short-circuit `all(...)` over the matchers is true exactly when every matcher matches the frame |
| EnhancerMatch.RuleMatchesFrameInOrder | src/sentry/grouping/enhancer.py:761-764 | a rule applies exactly when it has matchers and the in-order, short-circuit walk over its sorted matchers succeeds |
| EnhancerMatch.MatchingFrameActions | src/sentry/grouping/enhancer.py:751-768 | every pair listed is a frame the rule matches, with one of the rule's actions |
| EnhancerMatch.SliceToRange | src/sentry/grouping/enhancer.py:414-421 | no range gives `[seq[idx]]`, down gives `seq[:idx]`, up gives `seq[idx+1:]` |
| EnhancerMatch.SlicesPartition | src/sentry/grouping/enhancer.py:414-421 | the down slice, the frame itself and the up slice put together are the whole sequence |
| EnhancerRules.IterRules | src/sentry/grouping/enhancer.py:684-689 | the rule set's own rules come last; every other rule comes from a listed base known to the registry |
| EnhancerRules.IterRulesIncludesBases | src/sentry/grouping/enhancer.py:684-689 | every rule of every listed, known base is iterated |
| EnhancerRules.IterRulesAppend | src/sentry/grouping/enhancer.py:684-689 | the rules of earlier bases come before those of later bases, in the order the bases are listed |
| EnhancerRules.IterRulesOne | src/sentry/grouping/enhancer.py:684-689 | a single base contributes its registered rules before the own rules, an unknown base nothing |
| EnhancerRules.MatchingRuleActions | src/sentry/grouping/enhancer.py:579-582 | only actions of rules that apply to the frame are yielded, in rule order |
| EnhancerRules.MatchingRuleActionsComplete | src/sentry/grouping/enhancer.py:579-582 | every action of every rule that applies to the frame is yielded |
| EnhancerRules.IterMatchingRules | src/sentry/grouping/enhancer.py:561-582 | an action paired with a rule position is yielded exactly when that rule applies to the frame and has that action |
| EnhancerRules.MatchingFrameActionsComplete | src/sentry/grouping/enhancer.py:755-768 | the per-rule check lists every frame the rule matches, with each action |
| EnhancerRules.IterMatchesRuleCheck | src/sentry/grouping/enhancer.py:755-766 | the corrected matching-rule walk yields an action of rule i at a frame exactly when the rule's own `all(...)` check lists it |
| EnhancerRules.Flatten | src/sentry/grouping/enhancer.py:552-555 | a matcher is collected exactly when some rule uses it |
| EnhancerRules.Dedup | src/sentry/grouping/enhancer.py:555 | the registered matchers are exactly those that occur and were not registered before, each once |
| EnhancerRules.Filter | src/sentry/grouping/enhancer.py:557 | exactly the matchers of one kind, without duplicates when the input has none |
| EnhancerRules.MatcherOrder | src/sentry/grouping/enhancer.py:549-559 | exactly the matchers some rule uses, each once, every frame matcher before every range matcher |
| EnhancerRules.RulesUsing | src/sentry/grouping/enhancer.py:554 | the rules listed for a matcher all use it |
| EnhancerRules.BlockRules | src/sentry/grouping/enhancer.py:574-577 | blocking puts exactly the listed rules on the blocklist |
| EnhancerRules.ScanMatchers | src/sentry/grouping/enhancer.py:567-577 | the scan only adds to the blocklist |
| EnhancerRules.UnblockedActions | src/sentry/grouping/enhancer.py:579-582 | only actions of rules off the blocklist are yielded |
| EnhancerRules.UnblockedComplete | src/sentry/grouping/enhancer.py:579-582 | every action of a rule with matchers that is off the blocklist is yielded |
| EnhancerRules.IterMatchingRulesAsWritten | src/sentry/grouping/enhancer.py:561-582 | the counting scan yields only actions of rules that have matchers, each paired with its rule |
| EnhancerRules.InitialScan | src/sentry/grouping/enhancer.py:562-566 | the scan starts with an empty blocklist |
| EnhancerRules.ScanBlocksHonestly | src/sentry/grouping/enhancer.py:567-577 | every rule the scan blocks uses a matcher that fails on the frame |
| EnhancerRules.MatcherResultsDecideRule | src/sentry/grouping/enhancer.py:567-580 | asking each matcher object once is enough: a rule matches the frame exactly when it has matchers and every matcher object it refers to gives true |
| EnhancerRules.AsWrittenKeepsMatchingRules | src/sentry/grouping/enhancer.py:561-582 | the counting scan as written never drops a rule that applies to the frame |
| EnhancerRules.CountingScanYieldsFailingRule | src/sentry/grouping/enhancer.py:561-582 | with rules `[a,b,c]`, `[b]`, `[c]` and all three matchers failing, the scan as written yields the rule `[c]`, which the corrected walk does not |
| Enhancer.Contributing | src/sentry/grouping/enhancer.py:639 | the count of contributing components is at most the number of components |
| Enhancer.UpdateComponent | src/sentry/grouping/enhancer.py:448-469 | `group` sets contributes to the flag; `prefix` and `sentinel` set their marks; nothing else changes |
| Enhancer.UpdateAll | src/sentry/grouping/enhancer.py:448 | every component of a slice is updated alike |
| Enhancer.ApplyFlagAction | src/sentry/grouping/enhancer.py:441-469 | components inside the action's slice are updated and the rest are unchanged |
| Enhancer.ApplyFlagActionSlices | src/sentry/grouping/enhancer.py:441-448 | the action's slice of the result is the update of the slice of the input |
| Enhancer.ModifyState | src/sentry/grouping/enhancer.py:500-516 | max-frames, min-frames and invert-stacktrace each set their own variable; a category action leaves the state alone |
| Enhancer.ApplyActions | src/sentry/grouping/enhancer.py:597-599 | without a `group` action no component's contributes changes; max-frames and min-frames are the initial value or one that was set |
| Enhancer.ApplyRules | src/sentry/grouping/enhancer.py:593-599 | over all frames: contributes changes only through `group` actions, and the state variables come from actions that set them |
| Enhancer.TrimToMaxFrames | src/sentry/grouping/enhancer.py:604-619 | with max-frames > 0 exactly min(count, max-frames) components contribute, the survivors are the last ones, and none is switched on; otherwise nothing changes |
| Enhancer.TrimCount | src/sentry/grouping/enhancer.py:606-619 | keeping the last max-frames contributing components leaves min(count, max-frames) contributing |
| Enhancer.UpdateFrameComponentsContributions | src/sentry/grouping/enhancer.py:592-621 | the returned state is the one the rules set; with max-frames > 0 at most max-frames components contribute; prefix and sentinel marks are never removed |
| Enhancer.AssembleStacktraceComponent | src/sentry/grouping/enhancer.py:623-654 | each component contributes exactly when it survives the rules and the max-frames trimming, prefix and sentinel marks kept; the stack trace gets contributes=False exactly when min-frames > 0 and 0 < contributing count < min-frames, and None otherwise; the invert flag comes from the state |
| Hierarchical.BlamingFrameIndex | src/sentry/grouping/strategies/hierarchical.py:11-32 | the blaming frame is the last (first when inverted) contributing in-app frame, else the last (first) contributing frame, else the last (first) index; there is none for an empty trace |
| Hierarchical.NonPrefix | src/sentry/grouping/strategies/hierarchical.py:90-91 | the count of non-prefix components is at most the count of components |
| Hierarchical.AccumulateSound | src/sentry/grouping/strategies/hierarchical.py:75-93 | the walk returns only in-bounds contributing components ahead of its start, in walk order |
| Hierarchical.AccumulateAhead | src/sentry/grouping/strategies/hierarchical.py:81-88 | every returned component is in bounds, contributes and lies ahead in the walking direction |
| Hierarchical.AccumulateOrdered | src/sentry/grouping/strategies/hierarchical.py:81-89 | the returned components are strictly in walking order |
| Hierarchical.AccumulateBudget | src/sentry/grouping/strategies/hierarchical.py:79-91 | at most the budget of non-prefix components are returned; prefix components cost nothing |
| Hierarchical.AccumulateComplete | src/sentry/grouping/strategies/hierarchical.py:81-91 | no contributing component is skipped before the budget runs out |
| Hierarchical.AccumulateFrameLevels | src/sentry/grouping/strategies/hierarchical.py:75-93 | only contributing components, all below the blaming index for direction -1 and above it for +1, in walk order, at most depth-1 of them non-prefix |
| Hierarchical.AccumulateFrameLevelsComplete | src/sentry/grouping/strategies/hierarchical.py:75-93 | every contributing component on the walked side is returned while budget remains |
| Hierarchical.AccumulateGrows | src/sentry/grouping/strategies/hierarchical.py:79-91 | one more unit of depth returns what was returned before and possibly more |
| Hierarchical.AccumulateSettles | src/sentry/grouping/strategies/hierarchical.py:79-91 | once one more unit of depth adds nothing, no further unit adds anything |
| Hierarchical.Reverse | src/sentry/grouping/strategies/hierarchical.py:46 | `frames.reverse()` puts the k-th from the end at position k |
| Hierarchical.LevelFrames | src/sentry/grouping/strategies/hierarchical.py:41-48 | a level holds the blaming frame and in-bounds components in stack order |
| Hierarchical.LevelsSettle | src/sentry/grouping/strategies/hierarchical.py:50-52 | when a level is no larger than the one before, the next level equals it |
| Hierarchical.LabelWalk | src/sentry/grouping/strategies/hierarchical.py:55-63 | a label only grows; its new entries are "..." or a component's own label; no two "..." end up adjacent |
| Hierarchical.BuildLevels | src/sentry/grouping/strategies/hierarchical.py:38-72 | the entries end with the main variant under `app-depth-max` after 5 levels or under the breaking level's key; every earlier entry is a level |
| Hierarchical.LevelAt | src/sentry/grouping/strategies/hierarchical.py:38-67 | entry k is level depth+k under its own key, differing in size from the previous level |
| Hierarchical.LevelLabels | src/sentry/grouping/strategies/hierarchical.py:55-67 | no level's tree label has two adjacent "..." entries when no component is labelled "..." |
| Hierarchical.LevelsBreak | src/sentry/grouping/strategies/hierarchical.py:50-70 | the loop stops before level 6 only at a level as large as the previous one |
| Hierarchical.BuildLevelsLength | src/sentry/grouping/strategies/hierarchical.py:50-70 | the loop goes one level deeper exactly when the level differs in size from the previous one and level 6 is not reached |
| Hierarchical.BuildFallbackTree | src/sentry/grouping/strategies/hierarchical.py:8-72 | the tree is built around the frame `BlamingFrameIndex` chooses (last or first contributing in-app frame, else contributing frame, else end); keys run app-depth-1 up to at most app-depth-5; the main variant is the last entry and appears once; `app-depth-max` appears exactly when no level broke the loop |
| Hierarchical.FallbackTreeShape | src/sentry/grouping/strategies/hierarchical.py:36-72 | the tree starts with a level under `app-depth-1`, has two to six entries, levels up to a final main variant, keyed `app-depth-max` exactly when there are six |
| Hierarchical.FallbackTreeLevels | src/sentry/grouping/strategies/hierarchical.py:36-67 | level d holds the components accumulated at depth d, under `app-depth-d`, and its tree label has no adjacent "..." |
| Hierarchical.FallbackTreeBreak | src/sentry/grouping/strategies/hierarchical.py:50-52 | an early exit happens at a level no larger than the one before, and every deeper level would be the same |
| Hierarchical.KeyTextInjective | src/sentry/grouping/strategies/hierarchical.py:38-40 | distinct level keys have distinct texts |
| UsageStats.TruncDiv | src/sentry/api/endpoints/organization_stats_v2.py:225-226 | `int(a / b)` for a positive divisor is never of the opposite sign to a |
| UsageStats.TruncDivBounds | src/sentry/api/endpoints/organization_stats_v2.py:225-226 | the truncated multiple lies between zero and the dividend, less than one divisor away, and truncation is odd |
| UsageStats.TruncDivMonotone | src/sentry/api/endpoints/organization_stats_v2.py:225-226 | the truncated quotient does not decrease as the dividend grows |
| UsageStats.RateLimitedReasonMapper | src/sentry/api/endpoints/organization_stats_v2.py:210-218 | usage_exceeded and grace_period map to over quota, exactly smart_rate_limit to spike protection, everything else to other |
| UsageStats.RateLimitedReasonName | src/sentry/api/endpoints/organization_stats_v2.py:210-218 | the mapper returns "overQuota", "spikeProtection" or "other" under exactly those conditions |
| UsageStats.StoreDropped | src/sentry/api/endpoints/organization_stats_v2.py:193-201 | over quota stores quantity and times_seen; spike protection and other store the quantity in both |
| UsageStats.UpdateAsWritten | src/sentry/api/endpoints/organization_stats_v2.py:191-208 | the code as written: a rate-limited row with a null reason raises; a reason that is a substring of "smart_rate_limit" goes to spike protection |
| UsageStats.Update | src/sentry/api/endpoints/organization_stats_v2.py:191-208 | accepted sets only accepted, filtered only filtered, other outcomes nothing; a rate-limited row sets the slot the reason mapper names (over quota with times_seen, the others with the quantity twice) and nothing else |
| UsageStats.UpdateAsWrittenAgrees | src/sentry/api/endpoints/organization_stats_v2.py:191-208 | the as-written and corrected updates agree except for rate-limited rows with a null reason or a proper substring of "smart_rate_limit" |
| UsageStats.SubstringReasonMisrouted | src/sentry/api/endpoints/organization_stats_v2.py:196-198 | the reason "rate_limit" goes to spike protection as written, while the mapper and the corrected update send it to other |
| UsageStats.UpdateOverwrites | src/sentry/api/endpoints/organization_stats_v2.py:194-208 | a second row for the same slot replaces the first instead of adding to it |
| UsageStats.Serialize | src/sentry/api/endpoints/organization_stats_v2.py:170-189 | accepted reports its own times_seen; filtered and every dropped slot report their quantity as times_seen |
| UsageStats.Range | src/sentry/api/endpoints/organization_stats_v2.py:234 | the bucket indices run from lo up to hi, excluding hi, in steps of 1 |
| UsageStats.Zerofill | src/sentry/api/endpoints/organization_stats_v2.py:222-241 | a zero rollup is an error; otherwise one empty bucket per multiple of the rollup from the truncated start to the truncated end |
| UsageStats.ZerofillAligned | src/sentry/api/endpoints/organization_stats_v2.py:224-241 | every bucket time is a multiple of the rollup, k steps after the first, and times strictly increase |
| UsageStats.ZerofillLast | src/sentry/api/endpoints/organization_stats_v2.py:224-241 | with start <= end the first bucket is the truncated start and the last the truncated end |
| UsageStats.ZerofillCovers | src/sentry/api/endpoints/organization_stats_v2.py:224-241 | for non-negative times every second from start to end falls in some bucket |
| UsageStats.UpdateSeries | src/sentry/api/endpoints/organization_stats_v2.py:148-149 | a row whose time has no bucket raises; otherwise exactly that bucket is updated |
| UsageStats.NewResponse | src/sentry/api/endpoints/organization_stats_v2.py:112-115 | all three series are the zero-filled buckets |
| UsageStats.UpdateResponse | src/sentry/api/endpoints/organization_stats_v2.py:117-149 | the row updates only its category's series; a category without a series raises |
| UsageStats.UpdateResponseFits | src/sentry/api/endpoints/organization_stats_v2.py:117-149 | a row is taken exactly when its category has a series with a bucket at its time, and taking it keeps every bucket time |
| UsageStats.UpdateSeriesTimes | src/sentry/api/endpoints/organization_stats_v2.py:148-149 | a series takes a row exactly when it has a bucket at the row's time, and its bucket times stay the same |
| UsageStats.UpdateAll | src/sentry/api/endpoints/organization_stats_v2.py:104-106 | the rows are all taken exactly when each one's category has a bucket at its time; the buckets are those of the zero-filled response |
| UsageStats.SerializeSeries | src/sentry/api/endpoints/organization_stats_v2.py:151-152 | one serialized measure per bucket, in bucket order |
| UsageStats.BuildFields | src/sentry/api/endpoints/organization_stats_v2.py:129-140 | the fields are exactly statsErrors, statsTransactions and statsAttachments, each the serialized series |
| UsageStats.AcceptedAndOverQuotaExample | tests/sentry/api/endpoints/test_organization_stats_v2.py:66-79 | one accepted row and one usage_exceeded row of quantity 1 give accepted {1,1} and overQuota {1,1}, every other slot zero |
| NotificationValidators.IntersectDictSet | src/sentry/api/validators/notifications.py:13-16 | exactly the keys of d that are in s are kept, with their values unchanged |
| NotificationValidators.OrganizationsById | src/sentry/api/validators/notifications.py:27-32 | the user's, else the team's organizations are available, by id; none without either |
| NotificationValidators.ProjectsById | src/sentry/api/validators/notifications.py:49-54 | the user's, else the team's projects are available, by id; none without either |
| NotificationValidators.ValidateOrganizations | src/sentry/api/validators/notifications.py:19-38 | an empty request gives {} with no user or team; a non-empty request without either raises; missing ids raise with the missing set; on success the keys are the requested ids |
| NotificationValidators.ValidateProjects | src/sentry/api/validators/notifications.py:41-60 | the same rule over projects: success exactly when the request is empty or a user or team sees every requested project, with the requested ids as keys; otherwise the missing set or the no-actor error |
| NotificationValidators.ValidateOrganizationsSucceeds | src/sentry/api/validators/notifications.py:19-38 | validation succeeds exactly when the request is empty or an actor sees every requested organization |
| NotificationValidators.ValidateProjectsSucceeds | src/sentry/api/validators/notifications.py:41-60 | a project request succeeds exactly when it is empty, or a user or team is given and sees every requested project |
| NotificationValidators.ValidateType | src/sentry/api/validators/notifications.py:71-75 | a known type is accepted as itself; any other raises naming it |
| NotificationValidators.ValidateScopeType | src/sentry/api/validators/notifications.py:78-82 | a scope type is accepted exactly when the enumeration knows its name |
| NotificationValidators.ValidateProvider | src/sentry/api/validators/notifications.py:101-105 | a known provider is accepted as itself; any other raises naming it |
| NotificationValidators.ValidateValue | src/sentry/api/validators/notifications.py:108-118 | a value is accepted exactly when it is known and allowed for the type; an unknown value raises first |
| NotificationValidators.ValidateTypeOption | src/sentry/api/validators/notifications.py:63-64 | None or empty text gives no type; otherwise the type is validated |
| NotificationValidators.ValidateProviderOption | src/sentry/api/validators/notifications.py:67-68 | None or empty text gives no provider; otherwise the provider is validated |
| NotificationValidators.ScopeIdValue | src/sentry/api/validators/notifications.py:91-96 | a number is its own value; text is its integer parse |
| NotificationValidators.ValidateScope | src/sentry/api/validators/notifications.py:85-98 | a user scope with a user given is that user's id whatever was passed; otherwise the id's integer parse, or an error |
| NotificationValidators.ValidateScopeText | src/sentry/api/validators/notifications.py:91-96 | the decimal text of an integer validates to that integer |
| NotificationSettings.LastWins | src/sentry/api/serializers/models/notification_setting.py:142-144 | a key is present exactly when some entry has it, with the value of its last entry |
| NotificationSettings.LastWinsValue | src/sentry/api/serializers/models/notification_setting.py:142-144 | the value kept for a key is the one written last |
| NotificationSettings.ConcatSound | src/sentry/api/serializers/models/notification_setting.py:124-144 | settings collected in two parts of the payload pass their validators together |
| NotificationSettings.ProvidersSound | src/sentry/api/serializers/models/notification_setting.py:138-144 | the settings under one valid scope id passed their provider and value validators and sit under a collected scope |
| NotificationSettings.ValidateProviders | src/sentry/api/serializers/models/notification_setting.py:138-144 | each provider and value is validated; every collected entry passed |
| NotificationSettings.ValidateScopeIds | src/sentry/api/serializers/models/notification_setting.py:130-144 | each scope id is validated; project and organization ids are recorded with their scope type; every entry passed |
| NotificationSettings.ValidateScopeTypes | src/sentry/api/serializers/models/notification_setting.py:127-144 | each scope type is validated; every entry passed |
| NotificationSettings.ValidateTypes | src/sentry/api/serializers/models/notification_setting.py:124-144 | each type is validated; every entry passed; any failure ends validation |
| NotificationSettings.IdsIn | src/sentry/api/serializers/models/notification_setting.py:133-136 | an id is in the look-up set exactly when it was recorded under that scope type |
| NotificationSettings.Tuples | src/sentry/api/serializers/models/notification_setting.py:149-157 | one `(provider, type, scope_type, scope_id, value)` tuple per dictionary entry, and every tuple comes from one |
| NotificationSettings.TuplesUnique | src/sentry/api/serializers/models/notification_setting.py:149-157 | no two returned tuples share a `(type, scope_type, scope_id, provider)` key |
| NotificationSettings.TuplesOfEntries | src/sentry/api/serializers/models/notification_setting.py:142-157 | each returned tuple carries the last value written for its key, and every key written has a tuple |
| NotificationSettings.Validate | src/sentry/api/serializers/models/notification_setting.py:92-157 | an empty payload is rejected; any other is accepted exactly when every entry passes its validators and the project and organization id sets validate; the result is the last value for each key |
| NotificationSettings.ValidateSound | src/sentry/api/serializers/models/notification_setting.py:124-157 | every returned tuple passed its validators, and with a user given a user scope carries the user's id |
| NotificationSettings.Assign | src/sentry/api/serializers/models/notification_setting.py:84-88 | one assignment sets the value at its path and leaves every other path as it was |
| NotificationSettings.Serialize | src/sentry/api/serializers/models/notification_setting.py:84-90 | a path holds a value exactly when some setting has that path, and the last setting's value is at its path |
| NotificationSettings.PathValues | src/sentry/api/serializers/models/notification_setting.py:87-88 | one path and value per setting, in order |
| NotificationSettings.SerializeLastWins | src/sentry/api/serializers/models/notification_setting.py:84-90 | the nested map holds a value at a path exactly when some setting has that path, and it is the last such setting's value |
| NotificationSettings.ActorMapping | src/sentry/api/serializers/models/notification_setting.py:48 | an actor id is a key exactly when some target has it, and it maps to the last target listed with that id |
| NotificationSettings.SettingsOf | src/sentry/api/serializers/models/notification_setting.py:62-64 | the settings, in order, whose target id maps to the target |
| NotificationSettings.Group | src/sentry/api/serializers/models/notification_setting.py:61-66 | every grouped setting maps to the target it is filed under, and no target has an empty list |
| NotificationSettings.GetAttrs | src/sentry/api/serializers/models/notification_setting.py:48-66 | a target has an entry exactly when some setting maps to it, and its entry is its settings in order |
| NotificationSettings.GroupIsFilter | src/sentry/api/serializers/models/notification_setting.py:61-66 | grouping by appending agrees with filtering the settings per target |
| GroupSubscriptions.Subscribe | src/sentry/models/groupsubscription.py:51-62 | a new pair gets an active row with the reason; an existing pair keeps its row; no other row changes |
| GroupSubscriptions.SubscribeIdempotent | src/sentry/models/groupsubscription.py:51-62 | subscribing again, with any reason, changes nothing |
| GroupSubscriptions.Existing | src/sentry/models/groupsubscription.py:87-91 | the requested users with a row for the group in the group's project |
| GroupSubscriptions.BulkSubscribe | src/sentry/models/groupsubscription.py:76-111 | fails exactly when a requested user's row lies under another project; on success returns True, every requested user is subscribed, old rows are untouched, and new rows are active with the reason |
| GroupSubscriptions.BulkIsRepeatedSubscribe | src/sentry/models/groupsubscription.py:76-111 | with every row in the group's project, the bulk call equals subscribing the de-duplicated users one by one |
| GroupSubscriptions.SubscribeAllSpec | src/sentry/models/groupsubscription.py:51-62 | subscribing users in turn adds exactly their pairs, each new row fresh, old rows kept |
| GroupSubscriptions.AsSet | src/sentry/models/groupsubscription.py:81 | `set(user_ids)` holds exactly the listed ids |
| GroupSubscriptions.SubscribeActor | src/sentry/models/groupsubscription.py:64-74 | a user is subscribed alone; a team's members are bulk-subscribed; anything else raises |
| GroupSubscriptions.GetParticipants | src/sentry/models/groupsubscription.py:130-148 | only users the participation test admits appear, with their subscription's reason or implicit (-1) |
| MailRecipients.DisabledUsers | src/sentry/mail/adapter.py:245-267 | exactly the project members whose project-scope setting is NEVER |
| MailRecipients.OwnerUsers | src/sentry/mail/adapter.py:220-222 | the direct user owners |
| MailRecipients.OwnerTeams | src/sentry/mail/adapter.py:223-224 | the owning teams |
| MailRecipients.ActiveMembers | src/sentry/mail/adapter.py:227-233 | the active members of the owning teams |
| MailRecipients.SendToOwners | src/sentry/mail/adapter.py:202-242 | Everyone gives all sendable users; no owners gives nobody; otherwise direct users and owning-team members, minus disabled users |
| MailRecipients.ParseIdentifier | src/sentry/mail/adapter.py:273-292 | `int(target_identifier)`: surrounding whitespace is ignored, an optional sign and ASCII decimal digits with single underscores are read; an error exactly where that reading fails |
| MailRecipients.SendToTeam | src/sentry/mail/adapter.py:269-278 | no identifier gives nobody; otherwise the team's members, never a disabled user |
| MailRecipients.SendToMember | src/sentry/mail/adapter.py:280-300 | no identifier gives nobody; otherwise at most the named user, and only when on the project |
| MailRecipients.MemberIgnoresSettings | src/sentry/mail/adapter.py:280-286 | a member target's recipients do not depend on notification settings |
| MailRecipients.GetSendTo | src/sentry/mail/adapter.py:180-200 | a missing project or one without teams gives nobody; issue owners without an event give everyone sendable; otherwise the target's resolver |
| MailRecipients.DisabledUsersExcluded | src/sentry/mail/adapter.py:235-278 | only a member target can reach a user who disabled the project's alerts |
| MailRecipients.Noun | src/sentry/mail/adapter.py:444 | "alert" exactly for a count of one, else "alerts" |
| MailRecipients.DigestSubject | src/sentry/mail/adapter.py:440-446 | `<short id> - <count> new alert(s) since <date>`: "alert" exactly for one group, otherwise the decimal count of groups and "alerts" |
| MailRecipients.ShortId | src/sentry/mail/adapter.py:368 | the first seven characters of the id, or all of a shorter one |
| MailRecipients.Subject | src/sentry/mail/adapter.py:370 | the message text before the first newline |
| MailRecipients.DedupSound | src/sentry/mail/adapter.py:364-371 | every kept commit is the data of the first occurrence of its id, and ids are distinct |
| MailRecipients.DedupOrigins | src/sentry/mail/adapter.py:364-371 | every kept commit is the data of the first occurrence of an id not seen before |
| MailRecipients.DedupDistinct | src/sentry/mail/adapter.py:364-371 | no commit id is kept twice |
| MailRecipients.DedupComplete | src/sentry/mail/adapter.py:364-371 | every commit id not seen before is kept |
| MailRecipients.DedupKeepsAll | src/sentry/mail/adapter.py:364-371 | every commit id not seen before is kept |
| MailRecipients.DedupCommits | src/sentry/mail/adapter.py:364-371 | no commit id appears twice, and every commit id of every committer appears |
| MailRecipients.DedupCommitsSpec | src/sentry/mail/adapter.py:364-371 | each commit id appears once, with the data of its first occurrence |
| KeyValueStores.StoreGet | src/sentry/utils/kvstore/encoding.py:16 | a key reads as its value, or nothing when absent |
| KeyValueStores.StoreGetMany | src/sentry/utils/kvstore/encoding.py:23 | each pair returned is a present key with its value |
| KeyValueStores.StoreDeleteMany | src/sentry/utils/kvstore/encoding.py:33 | exactly the listed keys are removed |
| KeyValueStores.UnprocessedKey | src/sentry/eventstore/processing/base.py:31-32 | the unprocessed key is the base key plus two characters, so always distinct from it |
| KeyValueStores.UnprocessedKeyInjective | src/sentry/eventstore/processing/base.py:31-32 | different base keys have different unprocessed keys |
| KeyValueStores.ProcessingStore | src/sentry/eventstore/processing/base.py:34-39 | the event goes under the cache key, or its unprocessed key, with the timeout; that key is returned; nothing else changes |
| KeyValueStores.DeleteByKey | src/sentry/eventstore/processing/base.py:46-48 | both slots of the key are removed and nothing else |
| KeyValueStores.ProcessingDelete | src/sentry/eventstore/processing/base.py:50-52 | deleting an event deletes its cache key's slots, after which both read as nothing |
| KeyValueStores.StoreThenGet | src/sentry/eventstore/processing/base.py:34-44 | a processed event is read back under the key `store` returns |
| KeyValueStores.StoreUnprocessedThenGet | src/sentry/eventstore/processing/base.py:34-44 | an unprocessed event is read back by its base key; the returned key with the flag reads the `:u:u` slot |
| KeyValueStores.StoreKeepsOtherSlot | src/sentry/eventstore/processing/base.py:34-39 | storing into one slot leaves the event's other slot as it was |
| KeyValueStores.CodecGet | src/sentry/utils/kvstore/encoding.py:15-20 | nothing exactly when the inner store has nothing, otherwise the decoded inner value |
| KeyValueStores.CodecGetMany | src/sentry/utils/kvstore/encoding.py:22-24 | the inner pairs with keys in the same order and values decoded |
| KeyValueStores.CodecSet | src/sentry/utils/kvstore/encoding.py:26-27 | the encoded value under the same key with the ttl passed on; other keys unchanged |
| KeyValueStores.CodecDelete | src/sentry/utils/kvstore/encoding.py:29-30 | the key then reads as nothing and other keys are unchanged |
| KeyValueStores.CodecDeleteMany | src/sentry/utils/kvstore/encoding.py:32-33 | every listed key then reads as nothing and other keys are unchanged |
| KeyValueStores.GetAfterSet | src/sentry/utils/kvstore/encoding.py:15-27 | get after set gives decode(encode(v)), which is v for a round-tripping codec |
| KeyValueStores.GetAfterDelete | src/sentry/utils/kvstore/encoding.py:15-33 | deleted keys read as nothing through the wrapper |
| Text.JoinSplit | src/sentry/mail/adapter.py:370 | joining the parts of a split with the same separator gives back the text |
| Text.SplitFirst | src/sentry/mail/adapter.py:370 | the first part of a split is a prefix followed by the separator or the end |
| Text.ParseIntText | src/sentry/api/validators/notifications.py:95 | the decimal text of an integer parses back to it |
| Text.ParseIntPadded | src/sentry/api/validators/notifications.py:95 | whitespace around the text does not change what `int()` reads |
| Text.ParseIntExamples | src/sentry/api/validators/notifications.py:95 | " 1_000\n" reads 1000 and "-07" reads -7; "1__0", "_1", "- 1" and blank text are rejected |

## Left out

- The enhancement rule grammar and its visitor (`from_config_string`, `EnhancmentsVisitor`) use an external parser; rule sets are built as values.
- `dumps` and `loads` wrap the config structure in msgpack, zlib and base64, which are foreign calls; only the config structure is modelled.
- `glob_match`, `get_function_name_for_frame`, `get_behavior_family_for_platform`, `get_rule_bool` and the per-class field getters are parameters of the matchers (`Env`, `ruleBool`).
- The base rule-set registry and `_load_configs` read files; `iter_rules` takes the registry as a map.
- `as_dict`, `matcher_description`, `__str__` and the hints on components are display text and are not modelled.
- `apply_modifications_to_frame` changes the frame data (`in_app`, `category`), not the grouping components, and is not modelled.
- The `FrameMatch.instances` memo keys on the key name as written, so `function:f` and `stack.function:f` are two objects. The rule table lists matcher objects by position and allows equal matchers at two positions; the counterexample uses a table with no such pair.
- EnhancerConfig.FrameMatchRoundTrip: family and app patterns do not come back verbatim. Family decodes to the known names joined by commas, and app decodes to "1", "0" or "" as the rule's boolean says. Exception matchers do not decode at all. Only plain matchers round-trip exactly.
- EnhancerConfig.ActionsRoundTrip: decoding carries a variable action's parsed value as is and does not run `VarAction.__init__`'s value parser again. For max-frames, min-frames and category that parser returns an already-parsed value unchanged; for invert-stacktrace it would call `get_rule_bool` on a boolean, which `ruleBool` (defined on text) does not cover.
- EnhancerConfig.VarAction: an invert-stacktrace value is kept as a boolean, so a value `get_rule_bool` cannot read (its `None`, src/sentry/grouping/enhancer.py:478 and 488) is taken as false. Grouping treats the two alike, because the flag's only reader tests its truth (src/sentry/grouping/strategies/hierarchical.py:18-29); a serialised `None` and `false` would differ.
- EnhancerRules.MatcherOrder: does not state that within each kind the matchers keep their order of first use.
- EnhancerConfig.RuleRoundTrip: stated for rules whose matchers are plain. A range matcher missing its start or end cannot be encoded, because the source calls a method on `None`.
- Enhancer.UpdateFrameComponentsContributions: `|cs| == |frames|` is required. The source zips components with frames and would silently drop the extra ones.
- Enhancer.UpdateComponent: the `app` flag action only adds a hint to the component, so it is the identity here.
- Hierarchical.FallbackTreeLevels: the "no adjacent ..." property is stated for components none of which has "..." as its own label. Such a label would make the property false as written.
- Hierarchical.BuildFallbackTree: a level's values are the full assembled list, because `frames` aliases `pre_frames`. Component identity is modelled by position, and `main_variant.update` is not modelled.
- Hierarchical.BuildFallbackTree: an empty stack trace gives nothing; the source fails indexing `components[-1]`.
- UsageStats.Zerofill: only the empty-data path is modelled. The non-empty path concatenates a dict with a list and would raise.
- UsageStats.Zerofill: the datetime conversion (`to_naive_timestamp`, `naiveify_datetime`) is left out; timestamps are integers.
- UsageStats.ZerofillCovers: stated for non-negative timestamps. Truncation toward zero leaves no bucket below a negative start.
- The stats endpoints' request parsing, the outcomes query and the team and project look-ups are not modelled; rows come in as values.
- NotificationValidators: the enumerations (`NotificationSettingTypes`, `NotificationScopeType`, `ExternalProviders`, `NotificationSettingOptionValues`) and `helper_validate` come in as a `Vocabulary`.
- NotificationValidators.ScopeIdValue: `int()` also accepts non-ASCII Unicode decimal digits; the model reads ASCII digits only.
- MailRecipients.ParseIdentifier: `int()` also accepts non-ASCII Unicode decimal digits; the model reads ASCII digits only.
- NotificationSettings.GetAttrs: the query with its `type`/`provider` filter arguments is not modelled. The settings passed in are the query's result.
- GroupSubscriptions.BulkSubscribe: the integrity-error retry loop is concurrency. With one writer every retry sees the same table, so the error is raised on the last try.
- `should_be_participating` and `transform_to_notification_settings_by_user` are defined elsewhere; `GetParticipants` takes the participation test as a parameter.
- MailRecipients: the ORM queries (project members, teams, sendable users, ownership rules) come in as `ProjectData` and `Event`.
- MailRecipients: the one-minute cache of `get_send_to_all_in_project` and its TTL are not modelled.
- Message building, templates, sending, signed links, digests, metrics and logging are not modelled.
- MailRecipients.DigestSubject: the date is passed in already formatted.
- MailRecipients.DedupCommitsSpec: `notify` sorts the de-duplicated commits by descending score when it builds the mail context (src/sentry/mail/adapter.py:385, after the de-duplication modelled here); that sort is not modelled.
- KeyValueStores: TTL expiry is not modelled; the time-to-live is only stored.
- KeyValueStores.CodecGetMany: the inner store's `get_many` is assumed to return the present keys in the order asked.
- The codec interface in `src/sentry/utils/codecs.py` is an abstract encode/decode pair here.

## Findings

| source | as written | input that shows it | evidently intended | confidence | as-written member | corrected member |
|---|---|---|---|---|---|---|
| src/sentry/grouping/enhancer.py:561-582 | a rule blocked by two failing matchers has the counts of its matchers decremented twice, so a third matcher shared with another rule reaches zero and is skipped without being evaluated | rules `[a, b, c]`, `[b]`, `[c]` with `a`, `b`, `c` all failing on the frame: the rule `[c]` is yielded | yield exactly the rules all of whose matchers match, as `get_matching_frame_actions` does | not executed; high | EnhancerRules.CountingScanYieldsFailingRule | EnhancerRules.IterMatchesRuleCheck |
| src/sentry/api/endpoints/organization_stats_v2.py:196-198 | `row["reason"] in "smart_rate_limit"` is a substring test, so any part of that text is counted as spike protection, and a null reason raises | a rate-limited row with reason "rate_limit" and quantity 3 goes to spikeProtection {3, 3} | route by equality, as `rate_limited_reason_mapper` does, so "rate_limit" goes to other | not executed; medium | UsageStats.SubstringReasonMisrouted | UsageStats.Update |
| src/sentry/grouping/enhancer.py:157-163 | an exception matcher encodes with short key `t`, `v` or `M`, which decodes to the key name `type`, `value` or `mechanism`; `FrameMatch.from_key` looks that name up in `MATCHERS`, which only knows the `error.` names, so loading fails | `error.type:ValueError` encodes to `tValueError`, whose loading raises on the unknown name `type` | decode an encoded matcher back to itself, reading the short key as the `error.` name | not executed; high | EnhancerConfig.ExceptionMatcherDoesNotLoad | EnhancerConfig.FrameMatchRoundTripIntended |

=== FILE: enhancer_apply.dfy ===
/** Applying the matching rules of an enhancement rule set to the grouping
    components of a stack trace (`FlagAction.update_frame_components_contributions`,
    `VarAction.modify_stacktrace_state`, `StacktraceState` and
    `Enhancements.update_frame_components_contributions` /
    `assemble_stacktrace_component` in src/sentry/grouping/enhancer.py).
    Hints are human-readable text and are not modelled. */
module Enhancer {
  import opened Wrappers
  import opened EnhancerConfig
  import opened EnhancerMatch
  import opened EnhancerRules

  /** The part of a frame's grouping component the rules change. */
  datatype Component = Component(contributes: bool, isPrefix: bool, isSentinel: bool)

  /** `StacktraceState.vars`; `category` is a frame variable and never
      lands here. */
  datatype StacktraceState = StacktraceState(maxFrames: int, minFrames: int, invert: bool)

  /** `StacktraceState()`: every variable starts at 0. */
  const InitialState := StacktraceState(0, 0, false)

  /** The number of contributing components. */
  function Contributing(cs: seq<Component>): (n: nat)
    ensures n <= |cs|
  {
    if |cs| == 0 then 0 else (if cs[0].contributes then 1 else 0) + Contributing(cs[1..])
  }

  /** What one flag action does to one component of its slice: `group`
      sets the contribution, `prefix` and `sentinel` mark the component,
      and `app` only adds a hint. */
  function UpdateComponent(c: Component, fa: FlagAction): (r: Component)
    ensures r.contributes == (if fa.key == Group then fa.flag else c.contributes)
    ensures r.isPrefix == (c.isPrefix || fa.key == Prefix)
    ensures r.isSentinel == (c.isSentinel || fa.key == Sentinel)
  {
    match fa.key
    case Group => if fa.flag != c.contributes then c.(contributes := fa.flag) else c
    case InApp => c
    case Prefix => c.(isPrefix := true)
    case Sentinel => c.(isSentinel := true)
  }

  function UpdateAll(cs: seq<Component>, fa: FlagAction): (r: seq<Component>)
    ensures |r| == |cs| && forall k :: 0 <= k < |cs| ==> r[k] == UpdateComponent(cs[k], fa)
  {
    if |cs| == 0 then [] else [UpdateComponent(cs[0], fa)] + UpdateAll(cs[1..], fa)
  }

  /** Whether position `k` lies in the slice a range picks around `idx`. */
  predicate InRange(range: Option<Direction>, idx: int, k: int)
  {
    match range
    case None => k == idx
    case Some(Down) => k < idx
    case Some(Up) => k > idx
  }

  /** `FlagAction.update_frame_components_contributions`: the components of
      the action's slice are updated in place, the others are left as they
      are. */
  function ApplyFlagAction(cs: seq<Component>, fa: FlagAction, idx: int): (r: seq<Component>)
    requires 0 <= idx < |cs|
    ensures |r| == |cs|
    ensures forall k :: 0 <= k < |cs| ==>
              r[k] == if InRange(fa.range, idx, k) then UpdateComponent(cs[k], fa) else cs[k]
  {
    match fa.range
    case None => cs[idx := UpdateComponent(cs[idx], fa)]
    case Some(Down) => UpdateAll(cs[..idx], fa) + cs[idx..]
    case Some(Up) => cs[..idx + 1] + UpdateAll(cs[idx + 1..], fa)
  }

  /** The action's slice of the updated components is the update of the
      action's slice, and the rest of the sequence is unchanged. */
  lemma ApplyFlagActionSlices(cs: seq<Component>, fa: FlagAction, idx: int)
    requires 0 <= idx < |cs|
    ensures SliceToRange(ApplyFlagAction(cs, fa, idx), idx, fa.range) == UpdateAll(SliceToRange(cs, idx, fa.range), fa)
    ensures forall k :: 0 <= k < |cs| && !InRange(fa.range, idx, k) ==> ApplyFlagAction(cs, fa, idx)[k] == cs[k]
  {
  }

  /** `VarAction.modify_stacktrace_state`: every variable except the frame
      variable `category` is recorded, a later value replacing an earlier
      one. */
  function ModifyState(st: StacktraceState, va: VarAction): (r: StacktraceState)
    ensures va.MaxFrames? ==> r == st.(maxFrames := va.maxFrames)
    ensures va.MinFrames? ==> r == st.(minFrames := va.minFrames)
    ensures va.InvertStacktrace? ==> r == st.(invert := va.invert)
    ensures va.SetCategory? ==> r == st
  {
    match va
    case MaxFrames(n) => st.(maxFrames := n)
    case MinFrames(n) => st.(minFrames := n)
    case InvertStacktrace(b) => st.(invert := b)
    case SetCategory(_) => st
  }

  /** Whether an action is a `group` flag action, the only kind that
      changes a contribution. */
  predicate IsGroup(a: Action)
  {
    a.Flag? && a.flagAction.key == Group
  }

  /** The actions yielded for one frame, applied in order. */
  function ApplyActions(cs: seq<Component>, st: StacktraceState, acts: seq<(Action, nat)>, idx: int, from: nat)
    : (r: (seq<Component>, StacktraceState))
    requires 0 <= idx < |cs| && from <= |acts|
    ensures |r.0| == |cs|
    ensures forall k :: 0 <= k < |cs| ==>
              (cs[k].isPrefix ==> r.0[k].isPrefix) && (cs[k].isSentinel ==> r.0[k].isSentinel)
    ensures (forall j :: from <= j < |acts| ==> !IsGroup(acts[j].0)) ==>
              forall k :: 0 <= k < |cs| ==> r.0[k].contributes == cs[k].contributes
    ensures r.1.maxFrames == st.maxFrames || exists j :: from <= j < |acts| && acts[j].0 == Var(MaxFrames(r.1.maxFrames))
    ensures r.1.minFrames == st.minFrames || exists j :: from <= j < |acts| && acts[j].0 == Var(MinFrames(r.1.minFrames))
    decreases |acts| - from
  {
    if from == |acts| then (cs, st)
    else
      var a := acts[from].0;
      var next := match a
        case Flag(fa) => (ApplyFlagAction(cs, fa, idx), st)
        case Var(va) => (cs, ModifyState(st, va));
      ApplyActions(next.0, next.1, acts, idx, from + 1)
  }

  /** The first loop of `Enhancements.update_frame_components_contributions`:
      for each frame in turn, every action of every rule that matches it. */
  function ApplyRules(env: Env, rules: seq<Rule>, frames: seq<Frame>, cs: seq<Component>, st: StacktraceState, idx: nat)
    : (r: (seq<Component>, StacktraceState))
    requires |cs| == |frames| && idx <= |frames|
    ensures |r.0| == |cs|
    ensures forall k :: 0 <= k < |cs| ==>
              (cs[k].isPrefix ==> r.0[k].isPrefix) && (cs[k].isSentinel ==> r.0[k].isSentinel)
    ensures (forall i, a :: 0 <= i < |rules| && a in rules[i].actions ==> !IsGroup(a)) ==>
              forall k :: 0 <= k < |cs| ==> r.0[k].contributes == cs[k].contributes
    ensures r.1.maxFrames == st.maxFrames ||
            exists i :: 0 <= i < |rules| && Var(MaxFrames(r.1.maxFrames)) in rules[i].actions
    ensures r.1.minFrames == st.minFrames ||
            exists i :: 0 <= i < |rules| && Var(MinFrames(r.1.minFrames)) in rules[i].actions
    decreases |frames| - idx
  {
    if idx == |frames| then (cs, st)
    else
      var acts := IterMatchingRules(env, rules, frames, idx);
      var next := ApplyActions(cs, st, acts, idx, 0);
      ApplyRules(env, rules, frames, next.0, next.1, idx + 1)
  }

  /** The components a component at `k` keeps contributing after the
      `max-frames` trim: it contributed and is among the last `maxFrames`
      contributing ones. */
  predicate Survives(cs: seq<Component>, maxFrames: int, k: int)
    requires 0 <= k < |cs|
  {
    cs[k].contributes && (maxFrames <= 0 || Contributing(cs[k..]) <= maxFrames)
  }

  /** The second loop of `Enhancements.update_frame_components_contributions`:
      walking from the last component down, every contributing component
      beyond the first `maxFrames` is switched off. */
  method TrimToMaxFrames(cs: seq<Component>, maxFrames: int) returns (r: seq<Component>)
    ensures |r| == |cs|
    ensures forall k :: 0 <= k < |cs| ==>
              r[k].contributes == Survives(cs, maxFrames, k)
              && r[k].isPrefix == cs[k].isPrefix && r[k].isSentinel == cs[k].isSentinel
    ensures maxFrames <= 0 ==> r == cs
    ensures maxFrames > 0 ==> Contributing(r) == if Contributing(cs) < maxFrames then Contributing(cs) else maxFrames
  {
    r := cs;
    if maxFrames > 0 {
      var ignored := 0;
      var i := |cs|;
      while i > 0
        invariant 0 <= i <= |cs| && |r| == |cs|
        invariant ignored == Contributing(cs[i..])
        invariant forall k :: 0 <= k < i ==> r[k] == cs[k]
        invariant forall k :: i <= k < |cs| ==> r[k] == cs[k].(contributes := Survives(cs, maxFrames, k))
      {
        i := i - 1;
        assert cs[i..][1..] == cs[i + 1..];
        if r[i].contributes {
          ignored := ignored + 1;
          if ignored > maxFrames {
            r := r[i := r[i].(contributes := false)];
          }
        }
      }
      TrimCount(cs, r, maxFrames);
    }
  }

  lemma {:induction false} TrimCount(cs: seq<Component>, r: seq<Component>, maxFrames: int)
    requires maxFrames > 0 && |r| == |cs|
    requires forall k :: 0 <= k < |cs| ==> r[k].contributes == Survives(cs, maxFrames, k)
    ensures Contributing(r) == if Contributing(cs) < maxFrames then Contributing(cs) else maxFrames
    decreases |cs|
  {
    if |cs| > 0 {
      forall k | 0 <= k < |cs| - 1
        ensures r[1..][k].contributes == Survives(cs[1..], maxFrames, k)
      {
        assert cs[1..][k..] == cs[k + 1..];
      }
      TrimCount(cs[1..], r[1..], maxFrames);
      assert cs[0..] == cs;
    }
  }

  /** `Enhancements.update_frame_components_contributions`: the rules are
      applied frame by frame, then the contributions are trimmed to the
      `max-frames` the rules set. */
  method UpdateFrameComponentsContributions(env: Env, rules: seq<Rule>, frames: seq<Frame>, cs: seq<Component>)
    returns (r: seq<Component>, st: StacktraceState)
    requires |cs| == |frames|
    ensures st == ApplyRules(env, rules, frames, cs, InitialState, 0).1
    ensures |r| == |cs|
    ensures forall k :: 0 <= k < |cs| ==>
              r[k].contributes == Survives(ApplyRules(env, rules, frames, cs, InitialState, 0).0, st.maxFrames, k)
    ensures st.maxFrames > 0 ==> Contributing(r) <= st.maxFrames
    ensures forall k :: 0 <= k < |cs| ==> (cs[k].isPrefix ==> r[k].isPrefix) && (cs[k].isSentinel ==> r[k].isSentinel)
  {
    var applied := ApplyRules(env, rules, frames, cs, InitialState, 0);
    st := applied.1;
    r := TrimToMaxFrames(applied.0, st.maxFrames);
  }

  /** `Enhancements.assemble_stacktrace_component`: the stack trace is
      discarded (`contributes` False) exactly when a positive `min-frames`
      is set and some but fewer than that many frames contribute; otherwise
      its contribution is left open (None). The inversion flag is passed
      on. */
  method AssembleStacktraceComponent(env: Env, rules: seq<Rule>, frames: seq<Frame>, cs: seq<Component>)
    returns (r: seq<Component>, contributes: Option<bool>, invert: bool)
    requires |cs| == |frames|
    ensures |r| == |cs|
    ensures forall k :: 0 <= k < |cs| ==>
              var applied := ApplyRules(env, rules, frames, cs, InitialState, 0);
              r[k].contributes == Survives(applied.0, applied.1.maxFrames, k)
    ensures forall k :: 0 <= k < |cs| ==> (cs[k].isPrefix ==> r[k].isPrefix) && (cs[k].isSentinel ==> r[k].isSentinel)
    ensures contributes == Some(false) <==>
              var minFrames := ApplyRules(env, rules, frames, cs, InitialState, 0).1.minFrames;
              minFrames > 0 && 0 < Contributing(r) < minFrames
    ensures contributes.None? || contributes == Some(false)
    ensures invert == ApplyRules(env, rules, frames, cs, InitialState, 0).1.invert
  {
    var st;
    r, st := UpdateFrameComponentsContributions(env, rules, frames, cs);
    contributes := None;
    if st.minFrames > 0 {
      var total := Contributing(r);
      if 0 < total < st.minFrames {
        contributes := Some(false);
      }
    }
    invert := st.invert;
  }
}

=== FILE: enhancer_config.dfy ===
/** Stack-trace enhancement rules (src/sentry/grouping/enhancer.py): the
    rule vocabulary and its compact "config structure" encoding, in which a
    frame matcher becomes a short string (`!` for negation, then a
    one-character key, then the pattern), a range matcher becomes a
    four-element list and a flag action becomes one bit-packed integer. */
module EnhancerConfig {
  import opened Wrappers
  import opened Text

  /** The ten matcher keys, `MATCH_KEYS` in the source. */
  datatype MatchKey =
    | Path | Function | Module | Family | Package
    | App | Type | Value | Mechanism | Category

  /** Rule text formats are versioned; `VERSIONS = [1, 2]`. */
  type Version = v: int | v == 1 || v == 2 witness 2

  const LatestVersion: Version := 2

  /** Every way an encoded or textual rule can be rejected. Each stands for
      the Python exception the source would raise. */
  datatype ConfigError =
    | UnknownMatcher(name: string)   // KeyError in `MATCHERS[key]`
    | EmptyMatcher                   // IndexError on `val[0]`
    | UnknownShortKey(c: char)       // KeyError in `SHORT_MATCH_KEYS`
    | UnknownFlags(code: int)        // KeyError in `REVERSE_ACTION_FLAGS`
    | UnknownAction(index: int)      // IndexError in `ACTIONS[val & 0xF]`
    | MissingRangeEnd                // AttributeError: `None._to_config_structure`
    | UnknownVersion(version: int)   // ValueError("Unknown version")

  /** `MATCH_KEYS[key]`: the one-character key used in the encoding. */
  function ShortKey(k: MatchKey): char
  {
    match k
    case Path => 'p'
    case Function => 'f'
    case Module => 'm'
    case Family => 'F'
    case Package => 'P'
    case App => 'a'
    case Type => 't'
    case Value => 'v'
    case Mechanism => 'M'
    case Category => 'c'
  }

  /** `SHORT_MATCH_KEYS.get(c)`, the inverse table. */
  function KeyOfShort(c: char): (r: Option<MatchKey>)
    ensures r.Some? ==> ShortKey(r.value) == c
  {
    match c
    case 'p' => Some(Path)
    case 'f' => Some(Function)
    case 'm' => Some(Module)
    case 'F' => Some(Family)
    case 'P' => Some(Package)
    case 'a' => Some(App)
    case 't' => Some(Type)
    case 'v' => Some(Value)
    case 'M' => Some(Mechanism)
    case 'c' => Some(Category)
    case _ => None
  }

  /** No two keys share a short key (the module-level assertion that the
      reversed table is as large as the table), and the reverse table finds
      every short key. Neither short key is the negation marker. */
  lemma ShortKeysUnique(k1: MatchKey, k2: MatchKey)
    ensures ShortKey(k1) == ShortKey(k2) ==> k1 == k2
    ensures KeyOfShort(ShortKey(k1)) == Some(k1)
    ensures ShortKey(k1) != '!'
  {
  }

  /** The key names of `MATCH_KEYS`, which `SHORT_MATCH_KEYS` gives back
      when a short key is decoded. */
  function KeyName(k: MatchKey): string
  {
    match k
    case Path => "path"
    case Function => "function"
    case Module => "module"
    case Family => "family"
    case Package => "package"
    case App => "app"
    case Type => "type"
    case Value => "value"
    case Mechanism => "mechanism"
    case Category => "category"
  }

  /** The keys that read the exception rather than the frame. */
  predicate IsExceptionKey(k: MatchKey)
  {
    k == Type || k == Value || k == Mechanism
  }

  /** `MATCHERS`: the key names a rule may use. Frame keys are known by
      their own names, `module`, `abs_path`, `package` and `function` also
      with a `stack.` prefix (`abs_path` standing for `path`), and the three
      exception keys only with an `error.` prefix. No other name is known;
      `MatcherKeyNames` states which key each of these names gives. The
      table is read in three parts, by the name's `error.` or `stack.`
      prefix or its absence. */
  function MatcherKey(name: string): (r: Option<MatchKey>)
    ensures r.Some? ==>
              || (name == KeyName(r.value) && !IsExceptionKey(r.value))
              || (name == "error." + KeyName(r.value) && IsExceptionKey(r.value))
              || (name == "stack." + KeyName(r.value) && r.value in {Module, Package, Function})
              || (name == "stack.abs_path" && r.value == Path)
  {
    if |name| >= 6 && name[..6] == "error." then
      assert name == "error." + name[6..];
      ExceptionKeyOf(name[6..])
    else if |name| >= 6 && name[..6] == "stack." then
      assert name == "stack." + name[6..];
      StackKeyOf(name[6..])
    else FrameKeyOf(name)
  }

  /** The `error.` entries of `MATCHERS`, by the rest of the name. */
  function ExceptionKeyOf(rest: string): (r: Option<MatchKey>)
    ensures r.Some? ==> rest == KeyName(r.value) && IsExceptionKey(r.value)
  {
    match rest
    case "type" => Some(Type)
    case "value" => Some(Value)
    case "mechanism" => Some(Mechanism)
    case _ => None
  }

  /** The `stack.` entries of `MATCHERS`, by the rest of the name. */
  function StackKeyOf(rest: string): (r: Option<MatchKey>)
    ensures r.Some? ==> (rest == KeyName(r.value) && r.value in {Module, Package, Function})
                        || (rest == "abs_path" && r.value == Path)
  {
    match rest
    case "module" => Some(Module)
    case "abs_path" => Some(Path)
    case "package" => Some(Package)
    case "function" => Some(Function)
    case _ => None
  }

  /** The entries of `MATCHERS` without a prefix. */
  function FrameKeyOf(name: string): (r: Option<MatchKey>)
    ensures r.Some? ==> name == KeyName(r.value) && !IsExceptionKey(r.value)
  {
    match name
    case "module" => Some(Module)
    case "path" => Some(Path)
    case "package" => Some(Package)
    case "function" => Some(Function)
    case "category" => Some(Category)
    case "family" => Some(Family)
    case "app" => Some(App)
    case _ => None
  }

  /** The names `MATCHERS` knows for each key: its own name for a frame
      key, the `error.` name for an exception key, the `stack.` name for
      module, package and function, and `stack.abs_path` for path. */
  lemma MatcherKeyNames(k: MatchKey)
    ensures MatcherKey(KeyName(k)) == (if IsExceptionKey(k) then None else Some(k))
    ensures MatcherKey("error." + KeyName(k)) == (if IsExceptionKey(k) then Some(k) else None)
    ensures MatcherKey("stack." + KeyName(k)) == (if k in {Module, Package, Function} then Some(k) else None)
    ensures MatcherKey("stack.abs_path") == Some(Path)
  {
    MatcherKeyPrefixed("stack.", "abs_path");
    assert "stack." + "abs_path" == "stack.abs_path";
    match k {
      case Path => MatcherKeyNamesOfPath();
      case Function => MatcherKeyNamesOfFunction();
      case Module => MatcherKeyNamesOfModule();
      case Family => MatcherKeyNamesOfFamily();
      case Package => MatcherKeyNamesOfPackage();
      case App => MatcherKeyNamesOfApp();
      case Type => MatcherKeyNamesOfType();
      case Value => MatcherKeyNamesOfValue();
      case Mechanism => MatcherKeyNamesOfMechanism();
      case Category => MatcherKeyNamesOfCategory();
    }
  }

  // One lemma per key keeps each look-up to a single name.

  lemma MatcherKeyNamesOfPath()
    ensures MatcherKey(KeyName(Path)) == Some(Path)
    ensures MatcherKey("error." + KeyName(Path)) == None
    ensures MatcherKey("stack." + KeyName(Path)) == None
  {
    MatcherKeyBare(KeyName(Path));
    MatcherKeyPrefixed("error.", KeyName(Path));
    MatcherKeyPrefixed("stack.", KeyName(Path));
  }

  lemma MatcherKeyNamesOfFunction()
    ensures MatcherKey(KeyName(Function)) == Some(Function)
    ensures MatcherKey("error." + KeyName(Function)) == None
    ensures MatcherKey("stack." + KeyName(Function)) == Some(Function)
  {
    MatcherKeyBare(KeyName(Function));
    MatcherKeyPrefixed("error.", KeyName(Function));
    MatcherKeyPrefixed("stack.", KeyName(Function));
  }

  lemma MatcherKeyNamesOfModule()
    ensures MatcherKey(KeyName(Module)) == Some(Module)
    ensures MatcherKey("error." + KeyName(Module)) == None
    ensures MatcherKey("stack." + KeyName(Module)) == Some(Module)
  {
    MatcherKeyBare(KeyName(Module));
    MatcherKeyPrefixed("error.", KeyName(Module));
    MatcherKeyPrefixed("stack.", KeyName(Module));
  }

  lemma MatcherKeyNamesOfFamily()
    ensures MatcherKey(KeyName(Family)) == Some(Family)
    ensures MatcherKey("error." + KeyName(Family)) == None
    ensures MatcherKey("stack." + KeyName(Family)) == None
  {
    MatcherKeyBare(KeyName(Family));
    MatcherKeyPrefixed("error.", KeyName(Family));
    MatcherKeyPrefixed("stack.", KeyName(Family));
  }

  lemma MatcherKeyNamesOfPackage()
    ensures MatcherKey(KeyName(Package)) == Some(Package)
    ensures MatcherKey("error." + KeyName(Package)) == None
    ensures MatcherKey("stack." + KeyName(Package)) == Some(Package)
  {
    MatcherKeyBare(KeyName(Package));
    MatcherKeyPrefixed("error.", KeyName(Package));
    MatcherKeyPrefixed("stack.", KeyName(Package));
  }

  lemma MatcherKeyNamesOfApp()
    ensures MatcherKey(KeyName(App)) == Some(App)
    ensures MatcherKey("error." + KeyName(App)) == None
    ensures MatcherKey("stack." + KeyName(App)) == None
  {
    MatcherKeyBare(KeyName(App));
    MatcherKeyPrefixed("error.", KeyName(App));
    MatcherKeyPrefixed("stack.", KeyName(App));
  }

  lemma MatcherKeyNamesOfType()
    ensures MatcherKey(KeyName(Type)) == None
    ensures MatcherKey("error." + KeyName(Type)) == Some(Type)
    ensures MatcherKey("stack." + KeyName(Type)) == None
  {
    MatcherKeyBare(KeyName(Type));
    MatcherKeyPrefixed("error.", KeyName(Type));
    MatcherKeyPrefixed("stack.", KeyName(Type));
  }

  lemma MatcherKeyNamesOfValue()
    ensures MatcherKey(KeyName(Value)) == None
    ensures MatcherKey("error." + KeyName(Value)) == Some(Value)
    ensures MatcherKey("stack." + KeyName(Value)) == None
  {
    MatcherKeyBare(KeyName(Value));
    MatcherKeyPrefixed("error.", KeyName(Value));
    MatcherKeyPrefixed("stack.", KeyName(Value));
  }

  lemma MatcherKeyNamesOfMechanism()
    ensures MatcherKey(KeyName(Mechanism)) == None
    ensures MatcherKey("error." + KeyName(Mechanism)) == Some(Mechanism)
    ensures MatcherKey("stack." + KeyName(Mechanism)) == None
  {
    MatcherKeyBare(KeyName(Mechanism));
    MatcherKeyPrefixed("error.", KeyName(Mechanism));
    MatcherKeyPrefixed("stack.", KeyName(Mechanism));
  }

  lemma MatcherKeyNamesOfCategory()
    ensures MatcherKey(KeyName(Category)) == Some(Category)
    ensures MatcherKey("error." + KeyName(Category)) == None
    ensures MatcherKey("stack." + KeyName(Category)) == None
  {
    MatcherKeyBare(KeyName(Category));
    MatcherKeyPrefixed("error.", KeyName(Category));
    MatcherKeyPrefixed("stack.", KeyName(Category));
  }

  /** A name that starts with neither prefix is one of the frame keys'
      own names or unknown. */
  lemma MatcherKeyBare(name: string)
    requires |name| > 0 && name[0] != 'e' && name[0] != 's'
    ensures MatcherKey(name) == FrameKeyOf(name)
  {
    if |name| >= 6 {
      assert name[..6][0] == name[0];
    }
  }

  /** A name with an `error.` or `stack.` prefix is looked up by the rest. */
  lemma MatcherKeyPrefixed(prefix: string, rest: string)
    requires prefix == "error." || prefix == "stack."
    ensures MatcherKey(prefix + rest) == if prefix == "error." then ExceptionKeyOf(rest) else StackKeyOf(rest)
  {
    assert (prefix + rest)[..6] == prefix;
    assert (prefix + rest)[6..] == rest;
  }

  /** A frame matcher: `[!]key:pattern`. */
  datatype FrameMatch = FrameMatch(key: MatchKey, pattern: string, negated: bool)

  /** A matcher is either a frame matcher or a range matcher
      `[ start | .. | end ]`; each end is optional and the bars request
      that the end be the neighbouring frame. */
  datatype Match =
    | Single(fm: FrameMatch)
    | Range(start: Option<FrameMatch>, end: Option<FrameMatch>,
            startNeighbouring: bool, endNeighbouring: bool)

  /** `FrameMatch.from_key` for a rule's key name. */
  function FromKey(name: string, pattern: string, negated: bool): (r: Result<FrameMatch, ConfigError>)
    ensures r.Ok? <==> MatcherKey(name).Some?
    ensures r.Ok? ==> r.value == FrameMatch(MatcherKey(name).value, pattern, negated)
  {
    match MatcherKey(name)
    case Some(k) => Ok(FrameMatch(k, pattern, negated))
    case None => Err(UnknownMatcher(name))
  }

  // ---------------------------------------------------------------------
  // Families

  /** `FAMILIES.get(name)`. */
  function FamilyLetter(name: string): Option<char>
  {
    if name == "native" then Some('N')
    else if name == "javascript" then Some('J')
    else if name == "all" then Some('a')
    else None
  }

  /** `REVERSE_FAMILIES.get(c)`. */
  function FamilyName(c: char): (r: Option<string>)
    ensures r.Some? ==> FamilyLetter(r.value) == Some(c)
  {
    if c == 'N' then Some("native")
    else if c == 'J' then Some("javascript")
    else if c == 'a' then Some("all")
    else None
  }

  lemma FamilyLetterName(name: string)
    ensures FamilyLetter(name).Some? ==> FamilyName(FamilyLetter(name).value) == Some(name)
  {
  }

  /** The letters of the known family names, in order; unknown names are
      dropped. */
  function FamilyLetters(names: seq<string>): string
  {
    if |names| == 0 then ""
    else
      match FamilyLetter(names[0])
      case Some(c) => [c] + FamilyLetters(names[1..])
      case None => FamilyLetters(names[1..])
  }

  /** The names of the known family letters, in order; unknown letters are
      dropped. */
  function FamilyNames(letters: string): seq<string>
  {
    if |letters| == 0 then []
    else
      match FamilyName(letters[0])
      case Some(n) => [n] + FamilyNames(letters[1..])
      case None => FamilyNames(letters[1..])
  }

  /** The known family names among `names`, in order. */
  function KnownFamilies(names: seq<string>): (r: seq<string>)
    ensures forall i :: 0 <= i < |r| ==> FamilyLetter(r[i]).Some?
  {
    if |names| == 0 then []
    else if FamilyLetter(names[0]).Some? then [names[0]] + KnownFamilies(names[1..])
    else KnownFamilies(names[1..])
  }

  lemma {:induction false} FamilyNamesOfLetters(names: seq<string>)
    ensures FamilyNames(FamilyLetters(names)) == KnownFamilies(names)
  {
    if |names| > 0 {
      FamilyNamesOfLetters(names[1..]);
      match FamilyLetter(names[0])
      case Some(c) =>
        assert FamilyLetters(names)[1..] == FamilyLetters(names[1..]);
      case None =>
    }
  }

  // ---------------------------------------------------------------------
  // Frame matcher encoding

  /** The pattern part of a frame matcher's encoding. An `app` pattern is
      read by `get_rule_bool`, which is passed in as `ruleBool`. */
  function EncodedArgument(m: FrameMatch, ruleBool: string -> Option<bool>): string
  {
    match m.key
    case Family => FamilyLetters(Split(m.pattern, ','))
    case App =>
      (match ruleBool(m.pattern)
       case Some(true) => "1"
       case Some(false) => "0"
       case None => "")
    case _ => m.pattern
  }

  /** `FrameMatch._to_config_structure`: an optional `!`, the short key and
      the argument. */
  function EncodeFrameMatch(m: FrameMatch, ruleBool: string -> Option<bool>): (s: string)
    ensures |s| >= if m.negated then 2 else 1
    ensures (s[0] == '!') <==> m.negated
    ensures s[if m.negated then 1 else 0] == ShortKey(m.key)
    ensures s[if m.negated then 2 else 1..] == EncodedArgument(m, ruleBool)
  {
    ShortKeysUnique(m.key, m.key);
    (if m.negated then "!" else "") + [ShortKey(m.key)] + EncodedArgument(m, ruleBool)
  }

  /** The reading half of `Match._from_config_structure` on a string:
      the negation, the key `SHORT_MATCH_KEYS` names and the argument,
      with family letters turned back into names. This is the matcher the
      string evidently stands for. */
  function ParseFrameMatch(s: string): (r: Result<FrameMatch, ConfigError>)
    ensures r.Ok? ==> r.value.negated == (|s| > 0 && s[0] == '!')
  {
    var negated := |s| > 0 && s[0] == '!';
    var body := if negated then s[1..] else s;
    if |body| == 0 then Err(EmptyMatcher)
    else
      match KeyOfShort(body[0])
      case None => Err(UnknownShortKey(body[0]))
      case Some(k) =>
        var arg := if k == Family then Join(FamilyNames(body[1..]), ",") else body[1..];
        Ok(FrameMatch(k, arg, negated))
  }

  /** `Match._from_config_structure` on a string: the key name is resolved
      through `MATCHERS` by `FrameMatch.from_key`, which knows the exception
      keys only by their `error.` names, so a string with short key `t`,
      `v` or `M` fails. */
  function DecodeFrameMatch(s: string): (r: Result<FrameMatch, ConfigError>)
    ensures r.Ok? <==> ParseFrameMatch(s).Ok? && !IsExceptionKey(ParseFrameMatch(s).value.key)
    ensures r.Ok? ==> r == ParseFrameMatch(s)
    ensures ParseFrameMatch(s).Ok? && IsExceptionKey(ParseFrameMatch(s).value.key) ==>
              r == Err(UnknownMatcher(KeyName(ParseFrameMatch(s).value.key)))
  {
    var m :- ParseFrameMatch(s);
    MatcherKeyNames(m.key);
    FromKey(KeyName(m.key), m.pattern, m.negated)
  }

  /** Reading an encoded frame matcher gives back its key and negation;
      the pattern comes back unchanged for every key but `family` and `app`,
      a family pattern comes back as the comma-joined known family names,
      and an `app` pattern comes back as its `1`/`0`/empty reading. */
  lemma FrameMatchRoundTripIntended(m: FrameMatch, ruleBool: string -> Option<bool>)
    ensures ParseFrameMatch(EncodeFrameMatch(m, ruleBool)).Ok?
    ensures ParseFrameMatch(EncodeFrameMatch(m, ruleBool)).value.key == m.key
    ensures ParseFrameMatch(EncodeFrameMatch(m, ruleBool)).value.negated == m.negated
    ensures m.key != Family && m.key != App ==>
              ParseFrameMatch(EncodeFrameMatch(m, ruleBool)) == Ok(m)
    ensures m.key == Family ==>
              ParseFrameMatch(EncodeFrameMatch(m, ruleBool)).value.pattern
              == Join(KnownFamilies(Split(m.pattern, ',')), ",")
    ensures m.key == App ==>
              ParseFrameMatch(EncodeFrameMatch(m, ruleBool)).value.pattern
              == EncodedArgument(m, ruleBool)
  {
    var s := EncodeFrameMatch(m, ruleBool);
    ShortKeysUnique(m.key, m.key);
    var body := if m.negated then s[1..] else s;
    assert body == [ShortKey(m.key)] + EncodedArgument(m, ruleBool);
    assert body[1..] == EncodedArgument(m, ruleBool);
    if m.key == Family {
      FamilyNamesOfLetters(Split(m.pattern, ','));
    }
  }

  /** Decoding an encoded frame matcher: an exception matcher fails with
      its key name unknown; any other comes back with its key and negation,
      and exactly for every key but `family` and `app`. */
  lemma FrameMatchRoundTrip(m: FrameMatch, ruleBool: string -> Option<bool>)
    ensures DecodeFrameMatch(EncodeFrameMatch(m, ruleBool)).Ok? <==> !IsExceptionKey(m.key)
    ensures IsExceptionKey(m.key) ==>
              DecodeFrameMatch(EncodeFrameMatch(m, ruleBool)) == Err(UnknownMatcher(KeyName(m.key)))
    ensures !IsExceptionKey(m.key) ==>
              DecodeFrameMatch(EncodeFrameMatch(m, ruleBool)) == ParseFrameMatch(EncodeFrameMatch(m, ruleBool))
    ensures !IsExceptionKey(m.key) && m.key != Family && m.key != App ==>
              DecodeFrameMatch(EncodeFrameMatch(m, ruleBool)) == Ok(m)
  {
    FrameMatchRoundTripIntended(m, ruleBool);
  }

  /** An exception matcher written by the encoder cannot be read back:
      `error.type:ValueError` encodes to `tValueError`, whose key name
      `type` is not in `MATCHERS`. */
  lemma ExceptionMatcherDoesNotLoad(ruleBool: string -> Option<bool>)
    ensures EncodeFrameMatch(FrameMatch(Type, "ValueError", false), ruleBool) == "tValueError"
    ensures DecodeFrameMatch("tValueError") == Err(UnknownMatcher("type"))
    ensures ParseFrameMatch("tValueError") == Ok(FrameMatch(Type, "ValueError", false))
  {
    var m := FrameMatch(Type, "ValueError", false);
    FrameMatchRoundTripIntended(m, ruleBool);
    assert EncodeFrameMatch(m, ruleBool) == "" + "t" + "ValueError";
  }

  // ---------------------------------------------------------------------
  // Actions

  /** `ACTIONS = ["group", "app", "prefix", "sentinel"]`. */
  datatype ActionKey = Group | InApp | Prefix | Sentinel

  datatype Direction = Up | Down

  /** A flag action `[^|v](+|-)key`. */
  datatype FlagAction = FlagAction(key: ActionKey, flag: bool, range: Option<Direction>)

  /** A variable action `var=value`, with the value already parsed:
      `invert-stacktrace` keeps the truth value of its parsed boolean. */
  datatype VarAction =
    | MaxFrames(maxFrames: int)
    | MinFrames(minFrames: int)
    | InvertStacktrace(invert: bool)
    | SetCategory(category: string)

  datatype Action = Flag(flagAction: FlagAction) | Var(varAction: VarAction)

  /** A rule: all matchers must match a frame for its actions to apply. */
  datatype Rule = Rule(matchers: seq<Match>, actions: seq<Action>)

  /** `ACTIONS.index(key)`. */
  function ActionIndex(k: ActionKey): (i: nat)
    ensures i < 4
  {
    match k
    case Group => 0
    case InApp => 1
    case Prefix => 2
    case Sentinel => 3
  }

  /** `ACTIONS[i]` with Python's indexing: a negative index counts from
      the end, and `None` is where Python raises `IndexError`. */
  function ActionAt(i: int): (r: Option<ActionKey>)
    ensures r.Some? <==> -4 <= i < 4
    ensures r.Some? ==> ActionIndex(r.value) == (if i < 0 then i + 4 else i)
  {
    var j := if i < 0 then i + 4 else i;
    if j == 0 then Some(Group)
    else if j == 1 then Some(InApp)
    else if j == 2 then Some(Prefix)
    else if j == 3 then Some(Sentinel)
    else None
  }

  /** `ACTION_FLAGS[flag, range]`. */
  function FlagCode(flag: bool, range: Option<Direction>): (c: nat)
    ensures c < 6
  {
    match (flag, range)
    case (true, None) => 0
    case (true, Some(Up)) => 1
    case (true, Some(Down)) => 2
    case (false, None) => 3
    case (false, Some(Up)) => 4
    case (false, Some(Down)) => 5
  }

  /** `REVERSE_ACTION_FLAGS.get(c)`. */
  function FlagsOfCode(c: int): (r: Option<(bool, Option<Direction>)>)
    ensures r.Some? <==> 0 <= c < 6
    ensures r.Some? ==> FlagCode(r.value.0, r.value.1) == c
  {
    if c == 0 then Some((true, None))
    else if c == 1 then Some((true, Some(Up)))
    else if c == 2 then Some((true, Some(Down)))
    else if c == 3 then Some((false, None))
    else if c == 4 then Some((false, Some(Up)))
    else if c == 5 then Some((false, Some(Down)))
    else None
  }

  /** `1 << ACTION_BITSIZE[version]`: version 1 packs the flags above four
      bits, version 2 above eight. */
  function FlagShift(version: Version): (p: nat)
    ensures p == 16 || p == 256
  {
    if version == 1 then 16 else 256
  }

  /** `FlagAction._to_config_structure`: the action index in the low bits,
      the flag code shifted above the version's bit size. */
  function EncodeFlagAction(a: FlagAction, version: Version): (v: nat)
    ensures v % 16 == ActionIndex(a.key)
    ensures v / FlagShift(version) == FlagCode(a.flag, a.range)
  {
    var p := FlagShift(version);
    var v := ActionIndex(a.key) + FlagCode(a.flag, a.range) * p;
    EncodeFields(ActionIndex(a.key), FlagCode(a.flag, a.range), p);
    v
  }

  /** The packed integer keeps the action index in its low four bits and
      the flag code above the version's shift. */
  lemma EncodeFields(i: nat, c: nat, p: nat)
    requires i < 4 && (p == 16 || p == 256)
    ensures (i + c * p) % 16 == i
    ensures (i + c * p) / p == c
  {
    if p == 16 {
      DivModUnique(i + c * 16, 16, c, i);
    } else {
      DivModUnique(i + c * 256, 256, c, i);
      DivModUnique(i + c * 256, 16, c * 16, i);
    }
  }

  /** Quotient and remainder are unique. */
  lemma DivModUnique(a: int, d: int, q: int, r: int)
    requires d == 16 || d == 256
    requires 0 <= r < d && a == q * d + r
    ensures a / d == q && a % d == r
  {
    var q' := a / d;
    var r' := a % d;
    assert a == q' * d + r';
    if d == 16 {
      assert (q' - q) * 16 == r - r';
    } else {
      assert (q' - q) * 256 == r - r';
    }
  }

  /** `Action._from_config_structure` on an integer: the flags from
      `val >> bitsize`, the key from `val & 0xF`. Python's `>>` and `&` on
      integers agree with floor division and the non-negative remainder. */
  function DecodeFlagAction(v: int, version: Version): (r: Result<FlagAction, ConfigError>)
    ensures r.Ok? <==> (0 <= v / FlagShift(version) < 6 && v % 16 < 4)
    ensures r.Ok? ==> ActionIndex(r.value.key) == v % 16
    ensures r.Ok? ==> FlagCode(r.value.flag, r.value.range) == v / FlagShift(version)
  {
    var p := FlagShift(version);
    match FlagsOfCode(v / p)
    case None => Err(UnknownFlags(v / p))
    case Some(fr) =>
      match ActionAt(v % 16)
      case None => Err(UnknownAction(v % 16))
      case Some(k) =>
        Ok(FlagAction(k, fr.0, fr.1))
  }

  /** Decoding the encoded integer of a flag action with the same version
      gives back its key, flag and range. */
  lemma FlagActionRoundTrip(a: FlagAction, version: Version)
    ensures DecodeFlagAction(EncodeFlagAction(a, version), version) == Ok(a)
  {
  }

  // ---------------------------------------------------------------------
  // Rules and whole rule sets

  /** A matcher's config structure: a string for a frame matcher, a
      four-element list for a range matcher. */
  datatype MatchConfig =
    | MText(text: string)
    | MList(startText: string, endText: string, startNeighbouring: bool, endNeighbouring: bool)

  /** An action's config structure: the packed integer of a flag action, or
      the `[var, value]` pair of a variable action, whose parsed value is
      carried as is. */
  datatype ActionConfig = AInt(code: int) | APair(varAction: VarAction)

  datatype RuleConfig = RuleConfig(matchers: seq<MatchConfig>, actions: seq<ActionConfig>)

  /** `Match._to_config_structure`. A range matcher with a missing end has
      nothing to encode it with and fails. */
  function EncodeMatch(m: Match, ruleBool: string -> Option<bool>): (r: Result<MatchConfig, ConfigError>)
    ensures r.Err? <==> (m.Range? && (m.start.None? || m.end.None?))
    ensures m.Single? ==> r == Ok(MText(EncodeFrameMatch(m.fm, ruleBool)))
  {
    match m
    case Single(fm) => Ok(MText(EncodeFrameMatch(fm, ruleBool)))
    case Range(start, end, sn, en) =>
      if start.None? || end.None? then Err(MissingRangeEnd)
      else Ok(MList(EncodeFrameMatch(start.value, ruleBool), EncodeFrameMatch(end.value, ruleBool), sn, en))
  }

  function DecodeMatch(c: MatchConfig): (r: Result<Match, ConfigError>)
    ensures c.MText? ==> (r.Ok? <==> DecodeFrameMatch(c.text).Ok?)
  {
    match c
    case MText(t) =>
      var fm :- DecodeFrameMatch(t);
      Ok(Single(fm))
    case MList(st, et, sn, en) =>
      var start :- DecodeFrameMatch(st);
      var end :- DecodeFrameMatch(et);
      Ok(Range(Some(start), Some(end), sn, en))
  }

  /** `Action._to_config_structure`: decoding it with the same version
      gives the action back. */
  function EncodeAction(a: Action, version: Version): (c: ActionConfig)
    ensures c.AInt? <==> a.Flag?
    ensures DecodeAction(c, version) == Ok(a)
  {
    match a
    case Flag(fa) =>
      FlagActionRoundTrip(fa, version);
      AInt(EncodeFlagAction(fa, version))
    case Var(va) => APair(va)
  }

  /** `Action._from_config_structure`: a pair is a variable action, an
      integer must decode as a flag action. Encoding a decoded action again
      keeps the pair, and keeps the two fields of the integer that decoding
      reads. */
  function DecodeAction(c: ActionConfig, version: Version): (r: Result<Action, ConfigError>)
    ensures r.Ok? <==> c.APair? || DecodeFlagAction(c.code, version).Ok?
    ensures r.Ok? && c.APair? ==> r.value == Var(c.varAction)
    ensures r.Ok? && c.AInt? ==>
              r.value.Flag?
              && EncodeFlagAction(r.value.flagAction, version) % 16 == c.code % 16
              && EncodeFlagAction(r.value.flagAction, version) / FlagShift(version) == c.code / FlagShift(version)
  {
    match c
    case AInt(v) =>
      var fa :- DecodeFlagAction(v, version);
      Ok(Flag(fa))
    case APair(va) => Ok(Var(va))
  }

  /** `[x._to_config_structure(version) for x in self.matchers]`: fails
      when some matcher fails, otherwise each matcher's encoding in order. */
  function EncodeMatches(ms: seq<Match>, ruleBool: string -> Option<bool>): (r: Result<seq<MatchConfig>, ConfigError>)
    ensures r.Ok? <==> forall i :: 0 <= i < |ms| ==> EncodeMatch(ms[i], ruleBool).Ok?
    ensures r.Ok? ==> |r.value| == |ms|
    ensures r.Ok? ==> forall i :: 0 <= i < |ms| ==> r.value[i] == EncodeMatch(ms[i], ruleBool).value
  {
    if |ms| == 0 then Ok([])
    else
      assert forall i :: 0 < i < |ms| ==> ms[1..][i - 1] == ms[i];
      var head :- EncodeMatch(ms[0], ruleBool);
      var tail :- EncodeMatches(ms[1..], ruleBool);
      Ok([head] + tail)
  }

  /** `[Match._from_config_structure(x, version) for x in tuple[0]]`: fails
      when some matcher fails to decode, otherwise each one decoded in
      order. */
  function DecodeMatches(cs: seq<MatchConfig>): (r: Result<seq<Match>, ConfigError>)
    ensures r.Ok? <==> forall i :: 0 <= i < |cs| ==> DecodeMatch(cs[i]).Ok?
    ensures r.Ok? ==> |r.value| == |cs|
    ensures r.Ok? ==> forall i :: 0 <= i < |cs| ==> r.value[i] == DecodeMatch(cs[i]).value
  {
    if |cs| == 0 then Ok([])
    else
      assert forall i :: 0 < i < |cs| ==> cs[1..][i - 1] == cs[i];
      var head :- DecodeMatch(cs[0]);
      var tail :- DecodeMatches(cs[1..]);
      Ok([head] + tail)
  }

  /** `[x._to_config_structure(version) for x in self.actions]`. */
  function EncodeActions(as_: seq<Action>, version: Version): (r: seq<ActionConfig>)
    ensures |r| == |as_|
    ensures forall i :: 0 <= i < |as_| ==> r[i] == EncodeAction(as_[i], version)
  {
    if |as_| == 0 then [] else [EncodeAction(as_[0], version)] + EncodeActions(as_[1..], version)
  }

  /** `[Action._from_config_structure(x, version) for x in tuple[1]]`. */
  function DecodeActions(cs: seq<ActionConfig>, version: Version): (r: Result<seq<Action>, ConfigError>)
    ensures r.Ok? <==> forall i :: 0 <= i < |cs| ==> DecodeAction(cs[i], version).Ok?
    ensures r.Ok? ==> |r.value| == |cs|
    ensures r.Ok? ==> forall i :: 0 <= i < |cs| ==> r.value[i] == DecodeAction(cs[i], version).value
  {
    if |cs| == 0 then Ok([])
    else
      assert forall i :: 0 < i < |cs| ==> cs[1..][i - 1] == cs[i];
      var head :- DecodeAction(cs[0], version);
      var tail :- DecodeActions(cs[1..], version);
      Ok([head] + tail)
  }

  /** `Rule._to_config_structure`: fails exactly when some matcher cannot
      be encoded; the encoded actions always decode back to the rule's
      actions. */
  function EncodeRule(r: Rule, version: Version, ruleBool: string -> Option<bool>): (c: Result<RuleConfig, ConfigError>)
    ensures c.Ok? <==> forall i :: 0 <= i < |r.matchers| ==> EncodeMatch(r.matchers[i], ruleBool).Ok?
    ensures c.Ok? ==> |c.value.matchers| == |r.matchers|
    ensures c.Ok? ==> DecodeActions(c.value.actions, version) == Ok(r.actions)
  {
    var ms :- EncodeMatches(r.matchers, ruleBool);
    ActionsRoundTrip(r.actions, version);
    Ok(RuleConfig(ms, EncodeActions(r.actions, version)))
  }

  /** `Rule._from_config_structure`: the rule loads exactly when each of
      its matchers and each of its actions does. */
  function DecodeRule(c: RuleConfig, version: Version): (r: Result<Rule, ConfigError>)
    ensures r.Ok? <==> (forall i :: 0 <= i < |c.matchers| ==> DecodeMatch(c.matchers[i]).Ok?)
                       && (forall i :: 0 <= i < |c.actions| ==> DecodeAction(c.actions[i], version).Ok?)
    ensures r.Ok? ==> |r.value.matchers| == |c.matchers| && |r.value.actions| == |c.actions|
  {
    var ms :- DecodeMatches(c.matchers);
    var acts :- DecodeActions(c.actions, version);
    Ok(Rule(ms, acts))
  }

  /** A matcher that reads an exception at either of its ends. */
  predicate ExceptionMatch(m: Match)
  {
    match m
    case Single(fm) => IsExceptionKey(fm.key)
    case Range(start, end, _, _) =>
      (start.Some? && IsExceptionKey(start.value.key)) || (end.Some? && IsExceptionKey(end.value.key))
  }

  /** An encoded matcher with an exception key does not load again. */
  lemma ExceptionMatchDoesNotLoad(m: Match, ruleBool: string -> Option<bool>)
    requires EncodeMatch(m, ruleBool).Ok? && ExceptionMatch(m)
    ensures DecodeMatch(EncodeMatch(m, ruleBool).value).Err?
  {
    match m {
      case Single(fm) =>
        FrameMatchRoundTrip(fm, ruleBool);
      case Range(start, end, _, _) =>
        FrameMatchRoundTrip(start.value, ruleBool);
        FrameMatchRoundTrip(end.value, ruleBool);
    }
  }

  /** A rule that uses an exception matcher, once encoded, cannot be loaded
      from its config structure. */
  lemma ExceptionRuleDoesNotLoad(r: Rule, version: Version, ruleBool: string -> Option<bool>, i: nat)
    requires i < |r.matchers| && ExceptionMatch(r.matchers[i])
    requires EncodeRule(r, version, ruleBool).Ok?
    ensures DecodeRule(EncodeRule(r, version, ruleBool).value, version).Err?
  {
    var c := EncodeRule(r, version, ruleBool).value;
    assert c.matchers[i] == EncodeMatch(r.matchers[i], ruleBool).value;
    ExceptionMatchDoesNotLoad(r.matchers[i], ruleBool);
  }

  /** A frame matcher that survives the encoding unchanged and loads
      again: neither a family, an app nor an exception matcher. */
  predicate PlainFrameMatch(fm: FrameMatch)
  {
    fm.key != Family && fm.key != App && !IsExceptionKey(fm.key)
  }

  /** A matcher the encoding reproduces exactly: plain frame matchers, and
      range matchers with both ends present and plain. */
  predicate PlainMatch(m: Match)
  {
    match m
    case Single(fm) => PlainFrameMatch(fm)
    case Range(start, end, _, _) =>
      start.Some? && end.Some? && PlainFrameMatch(start.value) && PlainFrameMatch(end.value)
  }

  lemma {:induction false} MatchesRoundTrip(ms: seq<Match>, ruleBool: string -> Option<bool>)
    requires forall i :: 0 <= i < |ms| ==> PlainMatch(ms[i])
    ensures EncodeMatches(ms, ruleBool).Ok?
    ensures DecodeMatches(EncodeMatches(ms, ruleBool).value) == Ok(ms)
  {
    if |ms| > 0 {
      MatchesRoundTrip(ms[1..], ruleBool);
      MatchRoundTrip(ms[0], ruleBool);
      var head := EncodeMatch(ms[0], ruleBool).value;
      var tail := EncodeMatches(ms[1..], ruleBool).value;
      EncodeMatchesCons(ms, ruleBool);
      DecodeMatchesCons(head, tail);
      assert ms == [ms[0]] + ms[1..];
    }
  }

  lemma EncodeMatchesCons(ms: seq<Match>, ruleBool: string -> Option<bool>)
    requires |ms| > 0 && EncodeMatch(ms[0], ruleBool).Ok? && EncodeMatches(ms[1..], ruleBool).Ok?
    ensures EncodeMatches(ms, ruleBool) == Ok([EncodeMatch(ms[0], ruleBool).value] + EncodeMatches(ms[1..], ruleBool).value)
  {
  }

  lemma DecodeMatchesCons(c: MatchConfig, cs: seq<MatchConfig>)
    requires DecodeMatch(c).Ok? && DecodeMatches(cs).Ok?
    ensures DecodeMatches([c] + cs) == Ok([DecodeMatch(c).value] + DecodeMatches(cs).value)
  {
    assert ([c] + cs)[1..] == cs;
  }

  /** A plain matcher encodes, and decodes back to itself. */
  lemma MatchRoundTrip(m: Match, ruleBool: string -> Option<bool>)
    requires PlainMatch(m)
    ensures EncodeMatch(m, ruleBool).Ok?
    ensures DecodeMatch(EncodeMatch(m, ruleBool).value) == Ok(m)
  {
    match m {
      case Single(fm) =>
        FrameMatchRoundTrip(fm, ruleBool);
      case Range(start, end, _, _) =>
        FrameMatchRoundTrip(start.value, ruleBool);
        FrameMatchRoundTrip(end.value, ruleBool);
    }
  }

  /** Decoding the encoded actions of a rule gives back the same actions,
      under either version. */
  lemma ActionsRoundTrip(as_: seq<Action>, version: Version)
    ensures DecodeActions(EncodeActions(as_, version), version) == Ok(as_)
  {
    var cs := EncodeActions(as_, version);
    assert forall i :: 0 <= i < |cs| ==> DecodeAction(cs[i], version) == Ok(as_[i]);
    var r := DecodeActions(cs, version);
    assert r.Ok?;
    assert |r.value| == |as_|;
    assert forall i :: 0 <= i < |as_| ==> r.value[i] == as_[i];
    assert r.value == as_;
  }

  /** A rule whose matchers are all plain decodes to itself, with every
      flag action and variable action intact, under either version. */
  lemma RuleRoundTrip(r: Rule, version: Version, ruleBool: string -> Option<bool>)
    requires forall i :: 0 <= i < |r.matchers| ==> PlainMatch(r.matchers[i])
    ensures EncodeRule(r, version, ruleBool).Ok?
    ensures DecodeRule(EncodeRule(r, version, ruleBool).value, version) == Ok(r)
  {
    MatchesRoundTrip(r.matchers, ruleBool);
    ActionsRoundTrip(r.actions, version);
  }

  /** `Enhancements._from_config_structure`: the version must be one of
      `VERSIONS` before any rule is read. */
  function DecodeRules(version: int, rules: seq<RuleConfig>): (r: Result<seq<Rule>, ConfigError>)
    ensures !(version == 1 || version == 2) ==> r == Err(UnknownVersion(version))
    ensures r.Ok? ==> |r.value| == |rules|
    ensures (version == 1 || version == 2) ==>
              (r.Ok? <==> forall i :: 0 <= i < |rules| ==> DecodeRule(rules[i], version).Ok?)
    ensures r.Ok? ==> forall i :: 0 <= i < |rules| ==> r.value[i] == DecodeRule(rules[i], version).value
  {
    if !(version == 1 || version == 2) then Err(UnknownVersion(version))
    else DecodeRuleList(rules, version)
  }

  /** The rules read one by one, the first failure ending the load. */
  function DecodeRuleList(rules: seq<RuleConfig>, version: Version): (r: Result<seq<Rule>, ConfigError>)
    ensures r.Ok? <==> forall i :: 0 <= i < |rules| ==> DecodeRule(rules[i], version).Ok?
    ensures r.Ok? ==> |r.value| == |rules|
    ensures r.Ok? ==> forall i :: 0 <= i < |rules| ==> r.value[i] == DecodeRule(rules[i], version).value
  {
    if |rules| == 0 then Ok([])
    else
      match DecodeRule(rules[0], version)
      case Err(e) => Err(e)
      case Ok(head) =>
        match DecodeRuleList(rules[1..], version)
        case Err(e) =>
          assert forall i :: 0 < i < |rules| ==> rules[1..][i - 1] == rules[i];
          Err(e)
        case Ok(tail) =>
          assert forall i :: 0 < i < |rules| ==> rules[1..][i - 1] == rules[i];
          Ok([head] + tail)
  }
}

=== FILE: enhancer_match.dfy ===
/** Which matchers of an enhancement rule match a frame
    (src/sentry/grouping/enhancer.py): frame matchers test one frame, range
    matchers look for a matching frame before and after it, and a rule
    applies to a frame when it has matchers and all of them match. */
module EnhancerMatch {
  import opened Wrappers
  import opened Text
  import opened EnhancerConfig

  /** A stack frame as the matchers see it: its `in_app` value, its own
      `platform` if it has one, and the text fields the glob matchers read. */
  datatype Frame = Frame(inApp: Option<bool>, platform: Option<string>, fields: map<string, string>)

  /** The context of one matching call and the helpers this model leaves
      abstract: `fieldMatches` is the glob test of a key's field (frame path,
      package, function, module, category, or the exception's type, value
      and mechanism) against a pattern; `familyOf` is
      `get_behavior_family_for_platform`; `ruleBool` is `get_rule_bool`. */
  datatype Env = Env(
    platform: string,
    fieldMatches: (MatchKey, string, Frame) -> bool,
    familyOf: string -> string,
    ruleBool: string -> Option<bool>)

  /** `_positive_frame_match` of each matcher class. A family matcher with
      `all` among its families matches every frame; an `app` matcher needs a
      readable boolean equal to the frame's `in_app`. */
  function PositiveMatch(env: Env, fm: FrameMatch, frame: Frame): bool
  {
    match fm.key
    case Family =>
      var flags := Split(fm.pattern, ',');
      var platform := if frame.platform.Some? && frame.platform.value != "" then frame.platform.value else env.platform;
      "all" in flags || env.familyOf(platform) in flags
    case App =>
      var ref := env.ruleBool(fm.pattern);
      ref.Some? && frame.inApp == ref
    case _ => env.fieldMatches(fm.key, fm.pattern, frame)
  }

  /** `FrameMatch.matches_frame`: the positive test, flipped when negated. */
  function FrameMatches(env: Env, fm: FrameMatch, frames: seq<Frame>, idx: int): (r: bool)
    requires 0 <= idx < |frames|
    ensures r <==> (PositiveMatch(env, fm, frames[idx]) != fm.negated)
  {
    var rv := PositiveMatch(env, fm, frames[idx]);
    if fm.negated then !rv else rv
  }

  /** Whether some frame in `[lo, hi)` matches `fm`; scanned from the top
      down, as the `end` search of a range matcher does. */
  function AnyMatchIn(env: Env, fm: FrameMatch, frames: seq<Frame>, lo: int, hi: int): (r: bool)
    requires 0 <= lo && hi <= |frames|
    ensures r <==> exists j :: lo <= j < hi && FrameMatches(env, fm, frames, j)
    decreases hi - lo
  {
    if lo >= hi then false
    else if FrameMatches(env, fm, frames, hi - 1) then true
    else AnyMatchIn(env, fm, frames, lo, hi - 1)
  }

  /** `RangeMatch.matches_frame`. The `end` matcher is searched among the
      frames before `idx` (only `idx - 1` when neighbouring), the `start`
      matcher among the frames after it (only `idx + 1` when
      neighbouring). */
  function RangeMatches(env: Env, start: Option<FrameMatch>, end: Option<FrameMatch>,
                        sn: bool, en: bool, frames: seq<Frame>, idx: int): (r: bool)
    requires 0 <= idx < |frames|
    ensures r <==>
      && (end.Some? ==>
            exists j :: 0 <= j < idx && (en ==> j == idx - 1) && FrameMatches(env, end.value, frames, j))
      && (start.Some? ==>
            exists j :: idx < j < |frames| && (sn ==> j == idx + 1) && FrameMatches(env, start.value, frames, j))
  {
    var endOk :=
      end.None? || AnyMatchIn(env, end.value, frames, if en then (if idx - 1 > 0 then idx - 1 else 0) else 0, idx);
    var startOk :=
      start.None? || AnyMatchIn(env, start.value, frames, idx + 1, if sn then (if idx + 2 < |frames| then idx + 2 else |frames|) else |frames|);
    endOk && startOk
  }

  /** The positional meaning of a range matcher: an `end` needs an earlier
      matching frame (exactly the previous one when neighbouring), a
      `start` needs a later matching frame (exactly the next one when
      neighbouring), and without either the range always matches. */
  lemma RangeMatchSpec(env: Env, start: Option<FrameMatch>, end: Option<FrameMatch>,
                       sn: bool, en: bool, frames: seq<Frame>, idx: int)
    requires 0 <= idx < |frames|
    ensures RangeMatches(env, start, end, sn, en, frames, idx) <==>
      && (end.Some? ==>
            exists j :: 0 <= j < idx && (en ==> j == idx - 1) && FrameMatches(env, end.value, frames, j))
      && (start.Some? ==>
            exists j :: idx < j < |frames| && (sn ==> j == idx + 1) && FrameMatches(env, start.value, frames, j))
    ensures start.None? && end.None? ==> RangeMatches(env, start, end, sn, en, frames, idx)
  {
  }

  /** `Match.matches_frame` for either kind of matcher. */
  function Matches(env: Env, m: Match, frames: seq<Frame>, idx: int): (r: bool)
    requires 0 <= idx < |frames|
    ensures m.Single? ==> (r <==> PositiveMatch(env, m.fm, frames[idx]) != m.fm.negated)
    ensures m.Range? && m.start.None? && m.end.None? ==> r
    ensures m.Range? && m.end.Some? && r ==> exists j :: 0 <= j < idx && FrameMatches(env, m.end.value, frames, j)
    ensures m.Range? && m.start.Some? && r ==> exists j :: idx < j < |frames| && FrameMatches(env, m.start.value, frames, j)
  {
    match m
    case Single(fm) => FrameMatches(env, fm, frames, idx)
    case Range(start, end, sn, en) => RangeMatches(env, start, end, sn, en, frames, idx)
  }

  /** The matchers of one kind (frame matchers when `single`, range
      matchers otherwise), in their original order. */
  function OfKind(ms: seq<Match>, single: bool): (r: seq<Match>)
    ensures |r| <= |ms|
    ensures forall i :: 0 <= i < |r| ==> r[i].Single? == single
  {
    if |ms| == 0 then []
    else
      var head := if ms[0].Single? == single then [ms[0]] else [];
      var rest := OfKind(ms[1..], single);
      assert forall i :: |head| <= i < |head + rest| ==> (head + rest)[i] == rest[i - |head|];
      head + rest
  }

  lemma {:induction false} OfKindAppend(a: seq<Match>, b: seq<Match>, single: bool)
    ensures OfKind(a + b, single) == OfKind(a, single) + OfKind(b, single)
  {
    if |a| == 0 {
      assert a + b == b;
    } else {
      assert (a + b)[1..] == a[1..] + b;
      OfKindAppend(a[1..], b, single);
    }
  }

  /** A sequence all of one kind is its own sub-sequence of that kind and
      has none of the other. */
  lemma {:induction false} OfKindUniform(ms: seq<Match>, single: bool)
    requires forall i :: 0 <= i < |ms| ==> ms[i].Single? == single
    ensures OfKind(ms, single) == ms
    ensures OfKind(ms, !single) == []
  {
    if |ms| > 0 {
      OfKindUniform(ms[1..], single);
      assert [ms[0]] + ms[1..] == ms;
    }
  }

  /** The two kinds together hold every matcher as often as `ms` does. */
  lemma {:induction false} OfKindSplit(ms: seq<Match>)
    ensures multiset(OfKind(ms, true)) + multiset(OfKind(ms, false)) == multiset(ms)
  {
    if |ms| > 0 {
      var head, tail := [ms[0]], ms[1..];
      OfKindSplit(tail);
      assert ms == head + tail;
      assert multiset(ms) == multiset(head) + multiset(tail);
      if ms[0].Single? {
        assert OfKind(ms, true) == head + OfKind(tail, true);
        assert OfKind(ms, false) == OfKind(tail, false);
      } else {
        assert OfKind(ms, true) == OfKind(tail, true);
        assert OfKind(ms, false) == head + OfKind(tail, false);
      }
    }
  }

  /** Frame matchers then range matchers: no frame matcher after a range
      matcher. */
  lemma FramesBeforeRanges(ms: seq<Match>)
    ensures forall i, j :: 0 <= i < j < |OfKind(ms, true) + OfKind(ms, false)| && (OfKind(ms, true) + OfKind(ms, false))[j].Single? ==>
              (OfKind(ms, true) + OfKind(ms, false))[i].Single?
  {
    var singles, ranges := OfKind(ms, true), OfKind(ms, false);
    var r := singles + ranges;
    forall j | |singles| <= j < |r| ensures !r[j].Single? {
      assert r[j] == ranges[j - |singles|];
    }
    forall i | 0 <= i < |singles| ensures r[i].Single? {
      assert r[i] == singles[i];
    }
  }

  /** Splitting by kind and concatenating keeps every matcher and each
      kind's order. */
  lemma PartitionKeepsKinds(ms: seq<Match>)
    ensures multiset(OfKind(ms, true) + OfKind(ms, false)) == multiset(ms)
    ensures OfKind(OfKind(ms, true) + OfKind(ms, false), true) == OfKind(ms, true)
    ensures OfKind(OfKind(ms, true) + OfKind(ms, false), false) == OfKind(ms, false)
  {
    var singles, ranges := OfKind(ms, true), OfKind(ms, false);
    OfKindSplit(ms);
    OfKindAppend(singles, ranges, true);
    OfKindAppend(singles, ranges, false);
    OfKindUniform(singles, true);
    OfKindUniform(ranges, false);
  }

  /** Equal multisets have equal lengths and equal members. */
  lemma SameMultiset(a: seq<Match>, b: seq<Match>)
    requires multiset(a) == multiset(b)
    ensures |a| == |b|
    ensures forall m :: m in a <==> m in b
  {
    assert |a| == |multiset(a)| && |b| == |multiset(b)|;
    assert forall m :: m in a <==> m in multiset(a);
    assert forall m :: m in b <==> m in multiset(b);
  }

  /** No frame matcher comes after a range matcher. */
  predicate FramesFirst(r: seq<Match>)
  {
    forall i, j :: 0 <= i < j < |r| && r[j].Single? ==> r[i].Single?
  }

  /** One pass over `ms`, appending each frame matcher to `singles` and
      each range matcher to `ranges`, then the two lists joined. */
  function Partition(ms: seq<Match>, singles: seq<Match>, ranges: seq<Match>): seq<Match>
    decreases |ms|
  {
    if |ms| == 0 then singles + ranges
    else if ms[0].Single? then Partition(ms[1..], singles + [ms[0]], ranges)
    else Partition(ms[1..], singles, ranges + [ms[0]])
  }

  /** The pass yields each kind's sub-sequence after what was collected. */
  lemma {:induction false} PartitionIsKinds(ms: seq<Match>, singles: seq<Match>, ranges: seq<Match>)
    ensures Partition(ms, singles, ranges) == (singles + OfKind(ms, true)) + (ranges + OfKind(ms, false))
    decreases |ms|
  {
    if |ms| == 0 {
      assert singles + OfKind(ms, true) == singles;
      assert ranges + OfKind(ms, false) == ranges;
    } else {
      var x, rest := ms[0], ms[1..];
      var s2 := if x.Single? then singles + [x] else singles;
      var r2 := if x.Single? then ranges else ranges + [x];
      PartitionIsKinds(rest, s2, r2);
      assert Partition(ms, singles, ranges) == Partition(rest, s2, r2);
      assert s2 + OfKind(rest, true) == singles + OfKind(ms, true) by {
        assert OfKind(ms, true) == (if x.Single? then [x] else []) + OfKind(rest, true);
      }
      assert r2 + OfKind(rest, false) == ranges + OfKind(ms, false) by {
        assert OfKind(ms, false) == (if x.Single? then [] else [x]) + OfKind(rest, false);
      }
    }
  }

  /** `Rule._sorted_matchers`: Python's stable sort on the key "0 for a
      frame matcher, 1 otherwise" puts the frame matchers first and keeps
      each kind in its original order (`SortedMatchersStable`). */
  function SortedMatchers(ms: seq<Match>): (r: seq<Match>)
    ensures |r| == |ms|
    ensures forall m :: m in r <==> m in ms
    ensures FramesFirst(r)
  {
    PartitionIsKinds(ms, [], []);
    assert Partition(ms, [], []) == OfKind(ms, true) + OfKind(ms, false);
    PartitionKeepsKinds(ms);
    FramesBeforeRanges(ms);
    SameMultiset(OfKind(ms, true) + OfKind(ms, false), ms);
    Partition(ms, [], [])
  }

  /** The sort is a permutation that leaves each kind's sub-sequence as it
      was: with frame matchers first, this is the one order a stable sort
      by kind can produce. */
  lemma SortedMatchersStable(ms: seq<Match>)
    ensures multiset(SortedMatchers(ms)) == multiset(ms)
    ensures OfKind(SortedMatchers(ms), true) == OfKind(ms, true)
    ensures OfKind(SortedMatchers(ms), false) == OfKind(ms, false)
  {
    PartitionIsKinds(ms, [], []);
    assert SortedMatchers(ms) == OfKind(ms, true) + OfKind(ms, false);
    PartitionKeepsKinds(ms);
  }

  /** `all(m.matches_frame(...) for m in ms)`, asked in order and stopping
      at the first matcher that fails. */
  predicate AllMatch(env: Env, ms: seq<Match>, frames: seq<Frame>, idx: int)
    requires 0 <= idx < |frames|
    decreases |ms|
  {
    |ms| == 0 || (Matches(env, ms[0], frames, idx) && AllMatch(env, ms[1..], frames, idx))
  }

  /** The short-circuit walk answers whether every matcher matches. */
  lemma {:induction false} AllMatchEvery(env: Env, ms: seq<Match>, frames: seq<Frame>, idx: int)
    requires 0 <= idx < |frames|
    ensures AllMatch(env, ms, frames, idx) <==> forall m :: m in ms ==> Matches(env, m, frames, idx)
    decreases |ms|
  {
    if |ms| > 0 {
      AllMatchEvery(env, ms[1..], frames, idx);
      assert forall m :: m in ms <==> m == ms[0] || m in ms[1..];
    }
  }

  /** `all(m.matches_frame(...) for m in self._sorted_matchers)` for a rule
      with matchers: the order the sort puts the matchers in does not
      change the answer, which is that of every matcher of the rule. */
  predicate RuleMatchesFrame(env: Env, rule: Rule, frames: seq<Frame>, idx: int)
    requires 0 <= idx < |frames|
    ensures RuleMatchesFrame(env, rule, frames, idx) <==>
              |rule.matchers| > 0 && forall k :: 0 <= k < |rule.matchers| ==> Matches(env, rule.matchers[k], frames, idx)
  {
    var sorted := SortedMatchers(rule.matchers);
    assert forall k :: 0 <= k < |rule.matchers| ==> rule.matchers[k] in sorted;
    |rule.matchers| > 0 && forall m :: m in sorted ==> Matches(env, m, frames, idx)
  }

  /** The rule check is the in-order, short-circuit walk over the sorted
      matchers, as the generator inside `all(...)` runs it. */
  lemma RuleMatchesFrameInOrder(env: Env, rule: Rule, frames: seq<Frame>, idx: int)
    requires 0 <= idx < |frames|
    ensures RuleMatchesFrame(env, rule, frames, idx) <==>
              |rule.matchers| > 0 && AllMatch(env, SortedMatchers(rule.matchers), frames, idx)
  {
    AllMatchEvery(env, SortedMatchers(rule.matchers), frames, idx);
  }

  /** Each action paired with the frame position `idx`, in action order. */
  function FramePairs(actions: seq<Action>, idx: nat): (r: seq<(nat, Action)>)
    ensures |r| == |actions|
    ensures forall k :: 0 <= k < |r| ==> r[k] == (idx, actions[k])
    ensures forall a :: a in actions ==> (idx, a) in r
  {
    var r := seq(|actions|, k requires 0 <= k < |actions| => (idx, actions[k]));
    assert forall k :: 0 <= k < |r| ==> r[k] == (idx, actions[k]);
    r
  }

  /** Every pair names a frame from `from` on that the rule matches, and
      one of the rule's actions. */
  predicate PairsApply(env: Env, rule: Rule, frames: seq<Frame>, from: nat, r: seq<(nat, Action)>)
  {
    forall k :: 0 <= k < |r| ==>
      from <= r[k].0 < |frames| && RuleMatchesFrame(env, rule, frames, r[k].0) && r[k].1 in rule.actions
  }

  /** `Rule.get_matching_frame_actions`: one `(idx, action)` pair per frame
      the rule matches and per action of the rule, frames in order. */
  function MatchingFrameActions(env: Env, rule: Rule, frames: seq<Frame>, from: nat): (r: seq<(nat, Action)>)
    requires from <= |frames|
    ensures PairsApply(env, rule, frames, from, r)
    decreases |frames| - from
  {
    if from == |frames| || |rule.matchers| == 0 then []
    else
      var here := if RuleMatchesFrame(env, rule, frames, from) then FramePairs(rule.actions, from) else [];
      here + MatchingFrameActions(env, rule, frames, from + 1)
  }

  /** `FlagAction._slice_to_range`: the frame itself when the action has no
      range, everything below it for `v` (down), everything above it for
      `^` (up). */
  function SliceToRange<T>(s: seq<T>, idx: int, range: Option<Direction>): (r: seq<T>)
    requires 0 <= idx < |s|
    ensures range.None? ==> r == [s[idx]]
    ensures range == Some(Down) ==> |r| == idx && forall k :: 0 <= k < idx ==> r[k] == s[k]
    ensures range == Some(Up) ==> |r| == |s| - idx - 1 && forall k :: 0 <= k < |r| ==> r[k] == s[idx + 1 + k]
  {
    match range
    case None => [s[idx]]
    case Some(Down) => s[..idx]
    case Some(Up) => s[idx + 1..]
  }

  /** The down slice, the frame itself and the up slice partition the
      sequence, in order. */
  lemma SlicesPartition<T>(s: seq<T>, idx: int)
    requires 0 <= idx < |s|
    ensures SliceToRange(s, idx, Some(Down)) + SliceToRange(s, idx, None) + SliceToRange(s, idx, Some(Up)) == s
  {
    assert s == s[..idx] + [s[idx]] + s[idx + 1..];
  }
}

=== FILE: enhancer_rules.dfy ===
/** Which rules of an enhancement rule set apply to a frame
    (`Enhancements._iter_matching_rules` in src/sentry/grouping/enhancer.py).

    The source walks the distinct matcher objects once per frame and puts
    on a blocklist every rule that uses a failing matcher, keeping a count
    of the not-yet-blocked rules per matcher so that a matcher whose rules
    are all blocked is not evaluated again. `IterMatchingRules` is the
    intended result: the actions of the rules whose every matcher matches,
    in rule order. `IterMatchingRulesAsWritten` models the counting scan;
    `CountingScanYieldsFailingRule` shows an input on which the two
    differ. */
module EnhancerRules {
  import opened Wrappers
  import opened EnhancerConfig
  import opened EnhancerMatch

  /** `Enhancements.iter_rules`: the rules of each known base, in the order
      the bases are listed, then the set's own rules. A base's own rule set
      has no bases of its own. */
  function IterRules(bases: seq<string>, registry: map<string, seq<Rule>>, own: seq<Rule>): (r: seq<Rule>)
    ensures |r| >= |own| && r[|r| - |own|..] == own
    ensures FromBasesOrOwn(bases, registry, own, r)
  {
    if |bases| == 0 then own
    else
      var rest := IterRules(bases[1..], registry, own);
      var head := if bases[0] in registry then registry[bases[0]] else [];
      IterRulesCons(bases, registry, own, head, rest);
      head + rest
  }

  /** Every rule of `r` is one of the set's own rules or a rule of a
      listed base known to the registry. */
  ghost predicate FromBasesOrOwn(bases: seq<string>, registry: map<string, seq<Rule>>, own: seq<Rule>, r: seq<Rule>)
  {
    forall k :: 0 <= k < |r| ==>
      r[k] in own || exists j :: 0 <= j < |bases| && bases[j] in registry && r[k] in registry[bases[j]]
  }

  /** The rules of the first base, then those of the rest, come from the
      listed bases or the set's own rules. */
  lemma IterRulesCons(bases: seq<string>, registry: map<string, seq<Rule>>, own: seq<Rule>, head: seq<Rule>, rest: seq<Rule>)
    requires |bases| > 0 && head == (if bases[0] in registry then registry[bases[0]] else [])
    requires FromBasesOrOwn(bases[1..], registry, own, rest)
    ensures FromBasesOrOwn(bases, registry, own, head + rest)
  {
    var r := head + rest;
    forall k | 0 <= k < |r|
      ensures r[k] in own || exists j :: 0 <= j < |bases| && bases[j] in registry && r[k] in registry[bases[j]]
    {
      if k < |head| {
        assert r[k] in registry[bases[0]];
      } else {
        assert r[k] == rest[k - |head|];
        if r[k] !in own {
          var j :| 0 <= j < |bases[1..]| && bases[1..][j] in registry && rest[k - |head|] in registry[bases[1..][j]];
          assert bases[1..][j] == bases[j + 1];
        }
      }
    }
  }

  /** Every rule of every listed, known base is iterated. */
  lemma {:induction false} IterRulesIncludesBases(bases: seq<string>, registry: map<string, seq<Rule>>, own: seq<Rule>, b: string, x: Rule)
    requires b in bases && b in registry && x in registry[b]
    ensures x in IterRules(bases, registry, own)
    decreases |bases|
  {
    var head := if bases[0] in registry then registry[bases[0]] else [];
    assert IterRules(bases, registry, own) == head + IterRules(bases[1..], registry, own);
    if b != bases[0] {
      assert b in bases[1..];
      IterRulesIncludesBases(bases[1..], registry, own, b, x);
    }
  }

  /** Listing the bases in two parts lists the rules of the first part's
      bases before those of the second. */
  lemma {:induction false} IterRulesAppend(b1: seq<string>, b2: seq<string>, registry: map<string, seq<Rule>>, own: seq<Rule>)
    ensures IterRules(b1 + b2, registry, own) == IterRules(b1, registry, []) + IterRules(b2, registry, own)
    decreases |b1|
  {
    if |b1| == 0 {
      assert b1 + b2 == b2;
    } else {
      assert (b1 + b2)[0] == b1[0];
      assert (b1 + b2)[1..] == b1[1..] + b2;
      IterRulesAppend(b1[1..], b2, registry, own);
    }
  }

  /** A single base contributes its registered rules, an unknown one
      nothing. */
  lemma IterRulesOne(b: string, registry: map<string, seq<Rule>>, own: seq<Rule>)
    ensures IterRules([b], registry, own) == (if b in registry then registry[b] else []) + own
  {
    assert [b][1..] == [];
  }

  // ---------------------------------------------------------------------
  // Intended semantics

  /** Each action paired with the rule position `i`, in action order. */
  function RulePairs(actions: seq<Action>, i: nat): (r: seq<(Action, nat)>)
    ensures |r| == |actions|
    ensures forall k :: 0 <= k < |r| ==> r[k] == (actions[k], i)
    ensures forall a :: a in actions ==> (a, i) in r
  {
    var r := seq(|actions|, k requires 0 <= k < |actions| => (actions[k], i));
    assert forall k :: 0 <= k < |r| ==> r[k] == (actions[k], i);
    r
  }

  /** The actions of the rules from position `from` on that apply to the
      frame at `idx`, each paired with its rule's position, in rule order
      and, within a rule, in action order. */
  function MatchingRuleActions(env: Env, rules: seq<Rule>, frames: seq<Frame>, idx: int, from: nat): (r: seq<(Action, nat)>)
    requires 0 <= idx < |frames| && from <= |rules|
    ensures forall k :: 0 <= k < |r| ==>
              from <= r[k].1 < |rules| && RuleMatchesFrame(env, rules[r[k].1], frames, idx)
              && r[k].0 in rules[r[k].1].actions
    ensures forall k, l :: 0 <= k < l < |r| ==> r[k].1 <= r[l].1
    decreases |rules| - from
  {
    if from == |rules| then []
    else
      var rule := rules[from];
      var here := if RuleMatchesFrame(env, rule, frames, idx)
                  then RulePairs(rule.actions, from)
                  else [];
      here + MatchingRuleActions(env, rules, frames, idx, from + 1)
  }

  /** `_iter_matching_rules` as its callers rely on it. */
  function IterMatchingRules(env: Env, rules: seq<Rule>, frames: seq<Frame>, idx: int): (r: seq<(Action, nat)>)
    requires 0 <= idx < |frames|
    ensures forall p :: p in r <==>
              p.1 < |rules| && RuleMatchesFrame(env, rules[p.1], frames, idx) && p.0 in rules[p.1].actions
  {
    MatchingRuleActionsIff(env, rules, frames, idx);
    MatchingRuleActions(env, rules, frames, idx, 0)
  }

  /** An action paired with a rule position is yielded exactly when that
      rule applies and has that action. */
  lemma MatchingRuleActionsIff(env: Env, rules: seq<Rule>, frames: seq<Frame>, idx: int)
    requires 0 <= idx < |frames|
    ensures forall p :: p in MatchingRuleActions(env, rules, frames, idx, 0) <==>
              p.1 < |rules| && RuleMatchesFrame(env, rules[p.1], frames, idx) && p.0 in rules[p.1].actions
  {
    var r := MatchingRuleActions(env, rules, frames, idx, 0);
    forall p: (Action, nat) | p.1 < |rules| && RuleMatchesFrame(env, rules[p.1], frames, idx) && p.0 in rules[p.1].actions
      ensures p in r
    {
      MatchingRuleActionsComplete(env, rules, frames, idx, 0, p.1, p.0);
    }
  }

  /** Every action of every applying rule is yielded. */
  lemma {:induction false} MatchingRuleActionsComplete(env: Env, rules: seq<Rule>, frames: seq<Frame>, idx: int, from: nat, i: nat, a: Action)
    requires 0 <= idx < |frames| && from <= i < |rules|
    requires RuleMatchesFrame(env, rules[i], frames, idx) && a in rules[i].actions
    ensures (a, i) in MatchingRuleActions(env, rules, frames, idx, from)
    decreases |rules| - from
  {
    var rule := rules[from];
    var here := if RuleMatchesFrame(env, rule, frames, idx)
                then RulePairs(rule.actions, from)
                else [];
    assert MatchingRuleActions(env, rules, frames, idx, from) == here + MatchingRuleActions(env, rules, frames, idx, from + 1);
    if i == from {
      assert (a, i) in here;
    } else {
      MatchingRuleActionsComplete(env, rules, frames, idx, from + 1, i, a);
    }
  }

  /** One frame of `Rule.get_matching_frame_actions`: the pairs for the
      frame at `from`, then those for the frames after it. */
  lemma MatchingFrameActionsStep(env: Env, rule: Rule, frames: seq<Frame>, from: nat)
    requires from < |frames| && |rule.matchers| > 0
    ensures RuleMatchesFrame(env, rule, frames, from) ==>
              MatchingFrameActions(env, rule, frames, from) == FramePairs(rule.actions, from) + MatchingFrameActions(env, rule, frames, from + 1)
    ensures !RuleMatchesFrame(env, rule, frames, from) ==>
              MatchingFrameActions(env, rule, frames, from) == MatchingFrameActions(env, rule, frames, from + 1)
  {
  }

  /** `Rule.get_matching_frame_actions` pairs a frame with an action of a
      rule exactly when that rule applies to the frame. */
  lemma {:induction false} MatchingFrameActionsComplete(env: Env, rule: Rule, frames: seq<Frame>, from: nat, idx: nat, a: Action)
    requires from <= idx < |frames|
    requires RuleMatchesFrame(env, rule, frames, idx) && a in rule.actions
    ensures (idx, a) in MatchingFrameActions(env, rule, frames, from)
    decreases |frames| - from
  {
    MatchingFrameActionsStep(env, rule, frames, from);
    var rest := MatchingFrameActions(env, rule, frames, from + 1);
    if idx == from {
      assert (idx, a) in FramePairs(rule.actions, from);
      assert (idx, a) in FramePairs(rule.actions, from) + rest;
    } else {
      MatchingFrameActionsComplete(env, rule, frames, from + 1, idx, a);
      if RuleMatchesFrame(env, rule, frames, from) {
        assert (idx, a) in FramePairs(rule.actions, from) + rest;
      }
    }
  }

  /** The blocklist walk and the per-rule `all(...)` check accept the same
      rules: rule `i` yields action `a` at frame `idx` exactly when
      `get_matching_frame_actions` of that rule lists `(idx, a)`. */
  lemma IterMatchesRuleCheck(env: Env, rules: seq<Rule>, frames: seq<Frame>, idx: nat, i: nat, a: Action)
    requires idx < |frames| && i < |rules|
    ensures (a, i) in IterMatchingRules(env, rules, frames, idx)
            <==> (idx, a) in MatchingFrameActions(env, rules[i], frames, 0)
  {
    if (a, i) in IterMatchingRules(env, rules, frames, idx) {
      MatchingFrameActionsComplete(env, rules[i], frames, 0, idx, a);
    }
    if (idx, a) in MatchingFrameActions(env, rules[i], frames, 0) {
      MatchingRuleActionsComplete(env, rules, frames, idx, 0, i, a);
    }
  }

  // ---------------------------------------------------------------------
  // The counting scan as written

  /** The rules with the matcher objects they use: `matchers` lists the
      distinct objects, and `refs[r][k]` is the position in `matchers` of
      the `k`-th matcher of rule `r`. The `FrameMatch.instances` memo keys
      on the key name as written, so `function:f` and `stack.function:f`
      are two objects; equal matchers may therefore sit at two positions. */
  datatype RuleTable = RuleTable(matchers: seq<Match>, rules: seq<Rule>, refs: seq<seq<nat>>)

  predicate WellFormed(t: RuleTable)
  {
    && |t.refs| == |t.rules|
    && (forall r :: 0 <= r < |t.refs| ==> |t.refs[r]| == |t.rules[r].matchers|)
    && (forall r, k :: 0 <= r < |t.refs| && 0 <= k < |t.refs[r]| ==>
          t.refs[r][k] < |t.matchers| && t.matchers[t.refs[r][k]] == t.rules[r].matchers[k])
  }

  /** No two positions hold equal frame matchers, as when every rule
      writes each key name the same way. */
  predicate Memoized(t: RuleTable)
  {
    forall i, j :: 0 <= i < j < |t.matchers| && t.matchers[i].Single? ==> t.matchers[i] != t.matchers[j]
  }

  function Flatten(refs: seq<seq<nat>>, from: nat): (r: seq<nat>)
    requires from <= |refs|
    ensures forall x :: x in r <==> exists i :: from <= i < |refs| && x in refs[i]
    decreases |refs| - from
  {
    if from == |refs| then [] else refs[from] + Flatten(refs, from + 1)
  }

  /** Each element once, in order of first occurrence (the insertion order
      of the `matchers` dict). */
  function Dedup(xs: seq<nat>, from: nat, seen: set<nat>): (r: seq<nat>)
    requires from <= |xs|
    ensures forall x :: x in r ==> x in xs[from..] && x !in seen
    ensures forall x :: x in xs[from..] && x !in seen ==> x in r
    ensures forall i, j :: 0 <= i < j < |r| ==> r[i] != r[j]
    decreases |xs| - from
  {
    if from == |xs| then []
    else
      assert xs[from..] == [xs[from]] + xs[from + 1..];
      if xs[from] in seen then Dedup(xs, from + 1, seen)
      else [xs[from]] + Dedup(xs, from + 1, seen + {xs[from]})
  }

  /** The matchers of `order` of one kind, frame matchers when `single`. */
  function Filter(matchers: seq<Match>, order: seq<nat>, from: nat, single: bool): (r: seq<nat>)
    requires from <= |order|
    ensures forall x :: x in r <==> x in order[from..] && x < |matchers| && matchers[x].Single? == single
    ensures (forall i, j :: from <= i < j < |order| ==> order[i] != order[j]) ==>
              forall i, j :: 0 <= i < j < |r| ==> r[i] != r[j]
    decreases |order| - from
  {
    if from == |order| then []
    else
      assert order[from..] == [order[from]] + order[from + 1..];
      var keep := order[from] < |matchers| && matchers[order[from]].Single? == single;
      (if keep then [order[from]] else []) + Filter(matchers, order, from + 1, single)
  }

  /** `Enhancements._matchers`: the distinct matchers in order of first
      use, frame matchers stably sorted before range matchers. */
  function MatcherOrder(t: RuleTable): (r: seq<nat>)
    ensures WellFormed(t) ==> forall x :: x in r ==> x < |t.matchers|
    ensures WellFormed(t) ==> forall x :: x in r <==> exists i :: 0 <= i < |t.refs| && x in t.refs[i]
    ensures forall i, j :: 0 <= i < j < |r| ==> r[i] != r[j]
    ensures forall i, j :: 0 <= i < j < |r| && r[j] < |t.matchers| && t.matchers[r[j]].Single? ==>
              r[i] < |t.matchers| && t.matchers[r[i]].Single?
  {
    var flat := Flatten(t.refs, 0);
    var used := Dedup(flat, 0, {});
    assert flat[0..] == flat;
    assert forall x :: x in used <==> x in flat;
    var frames := Filter(t.matchers, used, 0, true);
    var ranges := Filter(t.matchers, used, 0, false);
    assert used[0..] == used;
    var r := frames + ranges;
    assert forall i :: 0 <= i < |r| && i < |frames| ==> r[i] in frames;
    assert forall i :: 0 <= i < |r| && i >= |frames| ==> r[i] in ranges;
    FlattenBounded(t);
    r
  }

  /** In a well-formed table every matcher use names a listed matcher. */
  lemma FlattenBounded(t: RuleTable)
    ensures WellFormed(t) ==> forall x :: x in Flatten(t.refs, 0) ==> x < |t.matchers|
  {
    if WellFormed(t) {
      forall x | x in Flatten(t.refs, 0)
        ensures x < |t.matchers|
      {
        var i :| 0 <= i < |t.refs| && x in t.refs[i];
        var k :| 0 <= k < |t.refs[i]| && t.refs[i][k] == x;
      }
    }
  }

  function Repeat(x: nat, n: nat): (r: seq<nat>)
    ensures |r| == n && forall k :: 0 <= k < n ==> r[k] == x
  {
    if n == 0 then [] else [x] + Repeat(x, n - 1)
  }

  function Count(xs: seq<nat>, m: nat, from: nat): (n: nat)
    requires from <= |xs|
    ensures n > 0 ==> m in xs
    decreases |xs| - from
  {
    if from == |xs| then 0 else (if xs[from] == m then 1 else 0) + Count(xs, m, from + 1)
  }

  /** `rules_by_matcher[id(m)]`: one entry per use of `m`, rules in order. */
  function RulesUsing(refs: seq<seq<nat>>, m: nat, from: nat): (r: seq<nat>)
    requires from <= |refs|
    ensures forall x :: x in r ==> from <= x < |refs| && m in refs[x]
    decreases |refs| - from
  {
    if from == |refs| then []
    else Repeat(from, Count(refs[from], m, 0)) + RulesUsing(refs, m, from + 1)
  }

  /** The scan state: `remaining_rules_per_matcher` and `unmatched_rules`. */
  datatype Scan = Scan(remaining: seq<int>, unmatched: set<nat>)

  /** One decrement per listed matcher use. */
  function Decrement(remaining: seq<int>, ms: seq<nat>, from: nat): (r: seq<int>)
    requires from <= |ms| && forall x :: x in ms ==> x < |remaining|
    ensures |r| == |remaining|
    decreases |ms| - from
  {
    if from == |ms| then remaining
    else
      assert ms[from] in ms;
      Decrement(remaining[ms[from] := remaining[ms[from]] - 1], ms, from + 1)
  }

  /** Blocklist each listed rule and decrement the count of every matcher
      it uses, once per listing, already blocked or not. */
  function BlockRules(t: RuleTable, rs: seq<nat>, from: nat, st: Scan): (r: Scan)
    requires WellFormed(t) && |st.remaining| == |t.matchers| && from <= |rs|
    requires forall x :: x in rs ==> x < |t.refs|
    ensures |r.remaining| == |t.matchers|
    ensures r.unmatched == st.unmatched + set k | from <= k < |rs| :: rs[k]
    decreases |rs| - from
  {
    if from == |rs| then st
    else
      assert rs[from] in rs;
      var next := Scan(Decrement(st.remaining, t.refs[rs[from]], 0), st.unmatched + {rs[from]});
      var r := BlockRules(t, rs, from + 1, next);
      assert (set k | from <= k < |rs| :: rs[k]) == {rs[from]} + set k | from + 1 <= k < |rs| :: rs[k];
      r
  }

  /** The walk over the matchers: a matcher whose count has dropped to zero
      is skipped, a failing one blocks all the rules that use it. */
  function ScanMatchers(t: RuleTable, ok: seq<bool>, order: seq<nat>, from: nat, st: Scan): (r: Scan)
    requires WellFormed(t) && |ok| == |t.matchers| && |st.remaining| == |t.matchers|
    requires from <= |order| && forall x :: x in order ==> x < |t.matchers|
    ensures |r.remaining| == |t.matchers|
    ensures st.unmatched <= r.unmatched
    decreases |order| - from
  {
    if from == |order| then st
    else
      var m := order[from];
      assert m in order;
      var next := if st.remaining[m] <= 0 || ok[m] then st else BlockRules(t, RulesUsing(t.refs, m, 0), 0, st);
      ScanMatchers(t, ok, order, from + 1, next)
  }

  /** The yield loop: actions of the rules with matchers that were not
      blocked. */
  function UnblockedActions(t: RuleTable, unmatched: set<nat>, from: nat): (r: seq<(Action, nat)>)
    requires from <= |t.rules|
    ensures forall k :: 0 <= k < |r| ==> from <= r[k].1 < |t.rules| && r[k].1 !in unmatched
    ensures forall k :: 0 <= k < |r| ==> |t.rules[r[k].1].matchers| > 0 && r[k].0 in t.rules[r[k].1].actions
    decreases |t.rules| - from
  {
    if from == |t.rules| then []
    else
      var rule := t.rules[from];
      var here := if |rule.matchers| > 0 && from !in unmatched
                  then RulePairs(rule.actions, from)
                  else [];
      here + UnblockedActions(t, unmatched, from + 1)
  }

  /** The result of every distinct matcher on the frame at `idx`. */
  function MatcherResults(env: Env, t: RuleTable, frames: seq<Frame>, idx: int): (ok: seq<bool>)
    requires 0 <= idx < |frames|
    ensures |ok| == |t.matchers|
    ensures forall m :: 0 <= m < |ok| ==> ok[m] == Matches(env, t.matchers[m], frames, idx)
  {
    seq(|t.matchers|, m requires 0 <= m < |t.matchers| => Matches(env, t.matchers[m], frames, idx))
  }

  /** The memoised results decide each rule: a rule matches the frame
      exactly when it has matchers and every matcher object it refers to
      came out true. */
  lemma MatcherResultsDecideRule(env: Env, t: RuleTable, frames: seq<Frame>, idx: int, r: nat)
    requires WellFormed(t) && 0 <= idx < |frames| && r < |t.rules|
    ensures RuleMatchesFrame(env, t.rules[r], frames, idx) <==>
              |t.rules[r].matchers| > 0 &&
              forall k :: 0 <= k < |t.refs[r]| ==> MatcherResults(env, t, frames, idx)[t.refs[r][k]]
  {
    var ok := MatcherResults(env, t, frames, idx);
    assert forall k :: 0 <= k < |t.refs[r]| ==> ok[t.refs[r][k]] == Matches(env, t.rules[r].matchers[k], frames, idx);
  }

  /** Every matcher starts with the number of its uses; nothing is
      blocked yet. */
  function InitialScan(t: RuleTable): (st: Scan)
    ensures |st.remaining| == |t.matchers| && st.unmatched == {}
  {
    Scan(seq(|t.matchers|, (m: int) requires 0 <= m => |RulesUsing(t.refs, m, 0)|), {})
  }

  function AsWrittenFromResults(t: RuleTable, ok: seq<bool>): seq<(Action, nat)>
    requires WellFormed(t) && |ok| == |t.matchers|
  {
    var initial := InitialScan(t);
    var final := ScanMatchers(t, ok, MatcherOrder(t), 0, initial);
    UnblockedActions(t, final.unmatched, 0)
  }

  /** `_iter_matching_rules` as written. */
  function IterMatchingRulesAsWritten(env: Env, t: RuleTable, frames: seq<Frame>, idx: int): (r: seq<(Action, nat)>)
    requires WellFormed(t) && 0 <= idx < |frames|
    ensures forall p :: p in r ==>
              p.1 < |t.rules| && |t.rules[p.1].matchers| > 0 && p.0 in t.rules[p.1].actions
  {
    AsWrittenFromResults(t, MatcherResults(env, t, frames, idx))
  }

  /** Every blocked rule uses a failing matcher. */
  predicate BlockedHonestly(t: RuleTable, ok: seq<bool>, unmatched: set<nat>)
    requires WellFormed(t) && |ok| == |t.matchers|
  {
    forall r :: r in unmatched ==> r < |t.refs| && exists k :: 0 <= k < |t.refs[r]| && !ok[t.refs[r][k]]
  }

  lemma {:induction false} ScanBlocksHonestly(t: RuleTable, ok: seq<bool>, order: seq<nat>, from: nat, st: Scan)
    requires WellFormed(t) && |ok| == |t.matchers| && |st.remaining| == |t.matchers|
    requires from <= |order| && forall x :: x in order ==> x < |t.matchers|
    requires BlockedHonestly(t, ok, st.unmatched)
    ensures BlockedHonestly(t, ok, ScanMatchers(t, ok, order, from, st).unmatched)
    decreases |order| - from
  {
    if from < |order| {
      var m := order[from];
      assert m in order;
      if !(st.remaining[m] <= 0 || ok[m]) {
        var rs := RulesUsing(t.refs, m, 0);
        var next := BlockRules(t, rs, 0, st);
        forall r | r in next.unmatched
          ensures r < |t.refs| && exists k :: 0 <= k < |t.refs[r]| && !ok[t.refs[r][k]]
        {
          if r !in st.unmatched {
            var i :| 0 <= i < |rs| && rs[i] == r;
            assert m in t.refs[r];
            var k :| 0 <= k < |t.refs[r]| && t.refs[r][k] == m;
          }
        }
        ScanBlocksHonestly(t, ok, order, from + 1, next);
      } else {
        ScanBlocksHonestly(t, ok, order, from + 1, st);
      }
    }
  }

  /** The counting scan never drops an applying rule: every action the
      intended semantics yields, the code as written yields too. */
  lemma AsWrittenKeepsMatchingRules(env: Env, t: RuleTable, frames: seq<Frame>, idx: int, i: nat, a: Action)
    requires WellFormed(t) && 0 <= idx < |frames| && i < |t.rules|
    requires (a, i) in IterMatchingRules(env, t.rules, frames, idx)
    ensures (a, i) in IterMatchingRulesAsWritten(env, t, frames, idx)
  {
    var ok := MatcherResults(env, t, frames, idx);
    var initial := InitialScan(t);
    var final := ScanMatchers(t, ok, MatcherOrder(t), 0, initial);
    ScanBlocksHonestly(t, ok, MatcherOrder(t), 0, initial);
    assert RuleMatchesFrame(env, t.rules[i], frames, idx);
    forall k | 0 <= k < |t.refs[i]|
      ensures ok[t.refs[i][k]]
    {
      assert Matches(env, t.rules[i].matchers[k], frames, idx);
    }
    assert i !in final.unmatched;
    UnblockedComplete(t, final.unmatched, 0, i, a);
  }

  lemma {:induction false} UnblockedComplete(t: RuleTable, unmatched: set<nat>, from: nat, i: nat, a: Action)
    requires from <= i < |t.rules| && i !in unmatched
    requires |t.rules[i].matchers| > 0 && a in t.rules[i].actions
    ensures (a, i) in UnblockedActions(t, unmatched, from)
    decreases |t.rules| - from
  {
    var rule := t.rules[from];
    var here := if |rule.matchers| > 0 && from !in unmatched
                then RulePairs(rule.actions, from)
                else [];
    assert UnblockedActions(t, unmatched, from) == here + UnblockedActions(t, unmatched, from + 1);
    if i == from {
      assert (a, i) in here;
    } else {
      UnblockedComplete(t, unmatched, from + 1, i, a);
    }
  }

  // The counterexample: three failing matchers a, b, c and the rules
  // [a, b, c], [b] and [c].
  const ExampleA: Match := Single(FrameMatch(Function, "a", false))
  const ExampleB: Match := Single(FrameMatch(Function, "b", false))
  const ExampleC: Match := Single(FrameMatch(Function, "c", false))
  const ExampleAction: Action := Flag(FlagAction(Group, false, None))
  const ExampleTable: RuleTable :=
    RuleTable([ExampleA, ExampleB, ExampleC],
              [Rule([ExampleA, ExampleB, ExampleC], []), Rule([ExampleB], []), Rule([ExampleC], [ExampleAction])],
              ExampleRefs)
  const ExampleEnv: Env :=
    Env("python", (k: MatchKey, p: string, f: Frame) => false, (p: string) => p, (p: string) => None)
  const ExampleFrames: seq<Frame> := [Frame(None, None, map[])]

  lemma ExampleOrder()
    ensures MatcherOrder(ExampleTable) == [0, 1, 2]
  {
    ExampleFlatten();
    ExampleDedup();
    ExampleFilterFrames();
    ExampleFilterRanges();
  }

  lemma ExampleFlatten()
    ensures Flatten(ExampleRefs, 0) == [0, 1, 2, 1, 2]
  {
    assert Flatten(ExampleRefs, 2) == [2];
    assert Flatten(ExampleRefs, 1) == [1, 2];
  }

  lemma ExampleDedup()
    ensures Dedup([0, 1, 2, 1, 2], 0, {}) == [0, 1, 2]
  {
    var xs := [0, 1, 2, 1, 2];
    assert Dedup(xs, 4, {0, 1, 2}) == [];
    assert Dedup(xs, 3, {0, 1, 2}) == [];
    assert Dedup(xs, 2, {0, 1}) == [2];
    assert Dedup(xs, 1, {0}) == [1, 2];
  }

  lemma ExampleFilterFrames()
    ensures Filter(ExampleTable.matchers, [0, 1, 2], 0, true) == [0, 1, 2]
  {
    var ms := ExampleTable.matchers;
    assert Filter(ms, [0, 1, 2], 2, true) == [2];
    assert Filter(ms, [0, 1, 2], 1, true) == [1, 2];
  }

  lemma ExampleFilterRanges()
    ensures Filter(ExampleTable.matchers, [0, 1, 2], 0, false) == []
  {
    var ms := ExampleTable.matchers;
    assert Filter(ms, [0, 1, 2], 2, false) == [];
    assert Filter(ms, [0, 1, 2], 1, false) == [];
  }

  const ExampleRefs: seq<seq<nat>> := [[0, 1, 2], [1], [2]]

  lemma ExampleUsesA()
    ensures RulesUsing(ExampleRefs, 0, 0) == [0]
  {
    assert Count([0, 1, 2], 0, 0) == 1;
    assert Count([1], 0, 0) == 0;
    assert Count([2], 0, 0) == 0;
  }

  lemma ExampleUsesB()
    ensures RulesUsing(ExampleRefs, 1, 0) == [0, 1]
  {
    assert Count([0, 1, 2], 1, 0) == 1;
    assert Count([1], 1, 0) == 1;
    assert Count([2], 1, 0) == 0;
  }

  lemma ExampleUsesC()
    ensures RulesUsing(ExampleRefs, 2, 0) == [0, 2]
  {
    assert Count([0, 1, 2], 2, 0) == 1;
    assert Count([1], 2, 0) == 0;
    assert Count([2], 2, 0) == 1;
  }

  lemma ExampleInitial()
    ensures WellFormed(ExampleTable)
    ensures InitialScan(ExampleTable).remaining == [1, 2, 2]
  {
    ExampleMemoized();
    ExampleUsesA();
    ExampleUsesB();
    ExampleUsesC();
    var r := InitialScan(ExampleTable).remaining;
    assert r[0] == 1 && r[1] == 2 && r[2] == 2;
  }

  lemma ExampleBlockA()
    ensures WellFormed(ExampleTable)
    ensures BlockRules(ExampleTable, [0], 0, Scan([1, 2, 2], {})) == Scan([0, 1, 1], {0})
  {
    assert Decrement([1, 2, 2], [0, 1, 2], 0) == [0, 1, 1];
  }

  lemma ExampleBlockB()
    ensures WellFormed(ExampleTable)
    ensures BlockRules(ExampleTable, [0, 1], 0, Scan([0, 1, 1], {0})) == Scan([-1, -1, 0], {0, 1})
  {
    assert Decrement([0, 1, 1], [0, 1, 2], 0) == [-1, 0, 0];
    assert Decrement([-1, 0, 0], [1], 0) == [-1, -1, 0];
    assert BlockRules(ExampleTable, [0, 1], 1, Scan([-1, 0, 0], {0})) == Scan([-1, -1, 0], {0, 1});
  }

  lemma ExampleResults()
    ensures MatcherResults(ExampleEnv, ExampleTable, ExampleFrames, 0) == [false, false, false]
  {
  }

  lemma ExampleScanTail()
    ensures WellFormed(ExampleTable)
    ensures ScanMatchers(ExampleTable, [false, false, false], [0, 1, 2], 1, Scan([0, 1, 1], {0})) == Scan([-1, -1, 0], {0, 1})
  {
    var s2 := Scan([-1, -1, 0], {0, 1});
    ExampleUsesB();
    ExampleBlockB();
    assert ScanMatchers(ExampleTable, [false, false, false], [0, 1, 2], 3, s2) == s2;
    assert ScanMatchers(ExampleTable, [false, false, false], [0, 1, 2], 2, s2) == s2;
  }

  lemma ExampleScanHead()
    ensures WellFormed(ExampleTable)
    ensures ScanMatchers(ExampleTable, [false, false, false], [0, 1, 2], 0, Scan([1, 2, 2], {}))
            == ScanMatchers(ExampleTable, [false, false, false], [0, 1, 2], 1, Scan([0, 1, 1], {0}))
  {
    ExampleUsesA();
    ExampleBlockA();
  }

  lemma ExampleScan()
    ensures WellFormed(ExampleTable)
    ensures ScanMatchers(ExampleTable, [false, false, false], [0, 1, 2], 0, InitialScan(ExampleTable)).unmatched == {0, 1}
  {
    ExampleInitial();
    assert InitialScan(ExampleTable) == Scan([1, 2, 2], {});
    ExampleScanHead();
    ExampleScanTail();
  }

  /** The counting scan can yield a rule whose matcher fails. Three
      failing matchers `a`, `b`, `c` and the rules `[a, b, c]`, `[b]` and
      `[c]`: `a` blocks the first rule and decrements the counts of `a`,
      `b` and `c`; `b` still has a count, fails, blocks the first rule a
      second time and decrements `c` again, so `c` reaches zero and is never
      evaluated, and the rule `[c]` is yielded although `c` does not match
      the frame. */
  lemma CountingScanYieldsFailingRule()
    ensures WellFormed(ExampleTable) && Memoized(ExampleTable)
    ensures (ExampleAction, 2) in IterMatchingRulesAsWritten(ExampleEnv, ExampleTable, ExampleFrames, 0)
    ensures (ExampleAction, 2) !in IterMatchingRules(ExampleEnv, ExampleTable.rules, ExampleFrames, 0)
  {
    ExampleMemoized();
    ExampleAsWritten();
    ExampleMiss();
    assert [(ExampleAction, 2)][0] == (ExampleAction, 2);
  }

  lemma ExampleMemoized()
    ensures WellFormed(ExampleTable) && Memoized(ExampleTable)
  {
  }

  lemma ExampleAsWritten()
    ensures WellFormed(ExampleTable)
    ensures IterMatchingRulesAsWritten(ExampleEnv, ExampleTable, ExampleFrames, 0) == [(ExampleAction, 2)]
  {
    ExampleResults();
    ExampleFromResults();
  }

  lemma ExampleFromResults()
    ensures WellFormed(ExampleTable)
    ensures AsWrittenFromResults(ExampleTable, [false, false, false]) == [(ExampleAction, 2)]
  {
    ExampleOrder();
    ExampleScan();
    ExampleYield();
  }

  lemma ExampleYield()
    ensures UnblockedActions(ExampleTable, {0, 1}, 0) == [(ExampleAction, 2)]
  {
    var t := ExampleTable;
    assert UnblockedActions(t, {0, 1}, 3) == [];
    assert UnblockedActions(t, {0, 1}, 2) == [(ExampleAction, 2)];
    assert UnblockedActions(t, {0, 1}, 1) == [(ExampleAction, 2)];
  }

  lemma ExampleMiss()
    ensures (ExampleAction, 2) !in IterMatchingRules(ExampleEnv, ExampleTable.rules, ExampleFrames, 0)
  {
    var r := IterMatchingRules(ExampleEnv, ExampleTable.rules, ExampleFrames, 0);
    assert !RuleMatchesFrame(ExampleEnv, ExampleTable.rules[2], ExampleFrames, 0) by {
      assert ExampleTable.rules[2].matchers[0] == ExampleC;
      assert !ExampleEnv.fieldMatches(Function, "c", ExampleFrames[0]);
      assert !Matches(ExampleEnv, ExampleC, ExampleFrames, 0);
    }
  }
}

=== FILE: group_subscription.dfy ===
/** Issue subscriptions (src/sentry/models/groupsubscription.py). The table
    is a map keyed by `(group, user)`, which is the table's uniqueness
    constraint: inserting an existing key is the integrity error the code
    catches or retries on. */
module GroupSubscriptions {
  import opened Wrappers

  /** `GroupSubscriptionReason`. */
  const Implicit := -1
  const Committed := -2
  const ProcessingIssue := -3
  const Unknown := 0
  const Comment := 1
  const Assigned := 2
  const Bookmark := 3
  const StatusChange := 4
  const DeploySetting := 5
  const Mentioned := 6
  const TeamMentioned := 7

  datatype Group = Group(id: int, projectId: int)

  datatype Subscription = Subscription(projectId: int, isActive: bool, reason: int)

  /** The subscription table: `(group id, user id)` to its row. */
  type Table = map<(int, int), Subscription>

  /** A fresh row for a group. */
  function NewSubscription(group: Group, reason: int): Subscription
  {
    Subscription(group.projectId, true, reason)
  }

  /** `subscribe`: a user already subscribed keeps their row, whatever
      reason is given now; otherwise an active row with the reason is
      added. Nothing else changes. */
  function Subscribe(table: Table, group: Group, user: int, reason: int): (r: Table)
    ensures (group.id, user) in r
    ensures (group.id, user) in table ==> r == table
    ensures (group.id, user) !in table ==> r[(group.id, user)] == NewSubscription(group, reason)
    ensures r.Keys == table.Keys + {(group.id, user)}
    ensures forall k :: k in table ==> r[k] == table[k]
  {
    if (group.id, user) in table then table
    else table[(group.id, user) := NewSubscription(group, reason)]
  }

  /** Subscribing twice is subscribing once, even with another reason. */
  lemma SubscribeIdempotent(table: Table, group: Group, user: int, reason: int, again: int)
    ensures Subscribe(Subscribe(table, group, user, reason), group, user, again) == Subscribe(table, group, user, reason)
  {
  }

  datatype SubscriptionError = IntegrityError | NotImplemented

  /** The users among `users` with a row for the group in its project:
      the `existing_subscriptions` query. */
  function Existing(table: Table, group: Group, users: set<int>): (r: set<int>)
    ensures forall u :: u in r <==> u in users && (group.id, u) in table && table[(group.id, u)].projectId == group.projectId
  {
    set u | u in users && (group.id, u) in table && table[(group.id, u)].projectId == group.projectId
  }

  /** Every row of the group belongs to the group's project, as the rows
      these functions create do. */
  predicate RowsInProject(table: Table, group: Group)
  {
    forall k :: k in table && k.0 == group.id ==> table[k].projectId == group.projectId
  }

  /** `bulk_subscribe`: duplicate ids collapse, rows are created for the
      users without one, all at once. A user whose row sits under another
      project is missed by the look-up and collides on insert; the retries
      then fail alike and the error is raised. */
  function BulkSubscribe(table: Table, group: Group, users: set<int>, reason: int): (r: Result<(Table, bool), SubscriptionError>)
    ensures r.Err? <==> exists u :: u in users && (group.id, u) in table && table[(group.id, u)].projectId != group.projectId
    ensures r.Ok? ==> r.value.1
    ensures r.Ok? ==> forall u :: u in users ==> (group.id, u) in r.value.0
    ensures r.Ok? ==> forall k :: k in table ==> k in r.value.0 && r.value.0[k] == table[k]
    ensures r.Ok? ==> forall k :: k in r.value.0 && k !in table ==>
              k.0 == group.id && k.1 in users && r.value.0[k] == NewSubscription(group, reason)
  {
    var existing := Existing(table, group, users);
    var created := set u | u in users && u !in existing;
    if exists u :: u in created && (group.id, u) in table then Err(IntegrityError)
    else
      var added := map k | k in table.Keys + (set u | u in created :: (group.id, u)) ::
                     if k in table then table[k] else NewSubscription(group, reason);
      assert forall u :: u in users ==> (group.id, u) in added by {
        forall u | u in users
          ensures (group.id, u) in added
        {
          if u !in existing {
            assert u in created;
          }
        }
      }
      Ok((added, true))
  }

  /** With every row of the group in its project, the bulk call succeeds
      and is the same as subscribing the users one by one, in any order. */
  lemma BulkIsRepeatedSubscribe(table: Table, group: Group, users: seq<int>, reason: int)
    requires RowsInProject(table, group)
    ensures BulkSubscribe(table, group, AsSet(users), reason) == Ok((SubscribeAll(table, group, users, reason), true))
  {
    var bulk := BulkSubscribe(table, group, AsSet(users), reason);
    assert bulk.Ok?;
    var one := SubscribeAll(table, group, users, reason);
    SubscribeAllSpec(table, group, users, reason);
    assert bulk.value.0.Keys == one.Keys;
    assert bulk.value.0 == one;
  }

  /** Subscribing each user in turn. */
  function SubscribeAll(table: Table, group: Group, users: seq<int>, reason: int): Table
    decreases |users|
  {
    if |users| == 0 then table
    else SubscribeAll(Subscribe(table, group, users[0], reason), group, users[1..], reason)
  }

  lemma {:induction false} SubscribeAllSpec(table: Table, group: Group, users: seq<int>, reason: int)
    ensures var r := SubscribeAll(table, group, users, reason);
            && r.Keys == table.Keys + (set u | u in users :: (group.id, u))
            && (forall k :: k in table ==> r[k] == table[k])
            && (forall k :: k in r && k !in table ==> r[k] == NewSubscription(group, reason))
    decreases |users|
  {
    if |users| > 0 {
      var next := Subscribe(table, group, users[0], reason);
      SubscribeAllSpec(next, group, users[1..], reason);
      assert (set u | u in users :: (group.id, u)) == {(group.id, users[0])} + (set u | u in users[1..] :: (group.id, u)) by {
        assert forall u :: u in users <==> u == users[0] || u in users[1..];
      }
    }
  }

  /** `set(user_ids)`. */
  function AsSet(ids: seq<int>): (r: set<int>)
    ensures forall u :: u in r <==> u in ids
  {
    set u | u in ids
  }

  /** A user or a team to subscribe. */
  datatype Actor = UserActor(userId: int) | TeamActor(memberIds: seq<int>) | OtherActor

  /** `subscribe_actor`: a user is subscribed alone (returning nothing); a
      team's members are bulk-subscribed (returning the bulk result);
      anything else is refused. */
  function SubscribeActor(table: Table, group: Group, actor: Actor, reason: int): (r: Result<(Table, Option<bool>), SubscriptionError>)
    ensures actor.OtherActor? <==> r == Err(NotImplemented)
    ensures actor.UserActor? ==> r == Ok((Subscribe(table, group, actor.userId, reason), None))
    ensures actor.TeamActor? && r.Ok? ==>
              forall i :: 0 <= i < |actor.memberIds| ==> (group.id, actor.memberIds[i]) in r.value.0
    ensures actor.TeamActor? && RowsInProject(table, group) ==> r.Ok? && r.value.1 == Some(true)
  {
    match actor
    case UserActor(u) => Ok((Subscribe(table, group, u, reason), None))
    case TeamActor(ids) =>
      var res :- BulkSubscribe(table, group, AsSet(ids), reason);
      Ok((res.0, Some(res.1)))
    case OtherActor => Err(NotImplemented)
  }

  /** `get_participants`. The users come from the group; whether one takes
      part is decided by a notification-settings helper that is not part
      of this model, given here as `participating(user, subscription)`. */
  function GetParticipants(table: Table, group: Group, users: seq<int>, participating: (int, Option<Subscription>) -> bool): (r: map<int, int>)
    ensures forall u :: u in r <==> u in users && participating(u, SubscriptionOf(table, group, u))
    ensures forall u :: u in r && (group.id, u) in table ==> r[u] == table[(group.id, u)].reason
    ensures forall u :: u in r && (group.id, u) !in table ==> r[u] == Implicit
  {
    map u | u in users && participating(u, SubscriptionOf(table, group, u)) ::
      if (group.id, u) in table then table[(group.id, u)].reason else Implicit
  }

  /** `subscriptions_by_user_id.get(user.id)`. */
  function SubscriptionOf(table: Table, group: Group, user: int): Option<Subscription>
  {
    if (group.id, user) in table then Some(table[(group.id, user)]) else None
  }
}

=== FILE: hierarchical.dfy ===
/** The fallback hierarchy of a stack trace
    (`_build_fallback_tree` and `_accumulate_frame_levels` in
    src/sentry/grouping/strategies/hierarchical.py).

    A "blaming" frame is picked, then level `d` of the tree holds the
    blaming frame with up to `d - 1` contributing non-prefix frames on each
    side of it. Grouping components are objects compared by identity in the
    source; here a level lists the positions of its components. */
module Hierarchical {
  import opened Wrappers
  import opened Text

  /** The part of a frame's grouping component the hierarchy reads; an
      empty `treeLabel` is the source's falsy label. */
  datatype FrameComponent = FrameComponent(contributes: bool, isPrefix: bool, treeLabel: string)

  /** One entry of the result: the caller's main variant, or a level built
      here with its component positions and the parts of its tree label. */
  datatype Variant = Main | Level(values: seq<nat>, labels: seq<string>)

  /** The tree label of a level as the source stores it. */
  function TreeLabel(v: Variant): string
  {
    if v.Main? then "<entire stacktrace>" else Join(v.labels, " | ")
  }

  // ---------------------------------------------------------------------
  // The blaming frame

  /** A contributing in-app frame, among the first `min(|cs|, |inApp|)`
      frames that `zip` pairs up. */
  predicate AppCandidate(cs: seq<FrameComponent>, inApp: seq<bool>, i: int)
  {
    0 <= i < |cs| && i < |inApp| && cs[i].contributes && inApp[i]
  }

  /** A contributing frame among the paired-up frames. */
  predicate ContributingCandidate(cs: seq<FrameComponent>, inApp: seq<bool>, i: int)
  {
    0 <= i < |cs| && i < |inApp| && cs[i].contributes
  }

  /** `b` is the frame the first loops of `_build_fallback_tree` blame:
      the innermost (outermost when inverted) contributing in-app frame if
      there is one, else the innermost (outermost) contributing frame, else
      the last (first) component. */
  ghost predicate BlameChoice(cs: seq<FrameComponent>, inApp: seq<bool>, inverted: bool, b: nat)
  {
    && ((exists i :: AppCandidate(cs, inApp, i)) ==>
          AppCandidate(cs, inApp, b) &&
          forall j :: AppCandidate(cs, inApp, j) ==> if inverted then b <= j else j <= b)
    && ((forall i :: !AppCandidate(cs, inApp, i)) && (exists i :: ContributingCandidate(cs, inApp, i)) ==>
          ContributingCandidate(cs, inApp, b) &&
          forall j :: ContributingCandidate(cs, inApp, j) ==> if inverted then b <= j else j <= b)
    && ((forall i :: !ContributingCandidate(cs, inApp, i)) ==> b == if inverted then 0 else |cs| - 1)
  }

  /** The first loops of `_build_fallback_tree`. The innermost (last)
      contributing in-app frame, or the outermost (first) one when the
      hierarchy is inverted; failing that the same among contributing
      frames; failing that the last (first) component. With no components
      the source fails on `components[blaming_frame_idx]`: None. */
  method BlamingFrameIndex(cs: seq<FrameComponent>, inApp: seq<bool>, inverted: bool) returns (r: Option<nat>)
    ensures r.None? <==> |cs| == 0
    ensures r.Some? ==> r.value < |cs|
    ensures r.Some? && (exists i :: AppCandidate(cs, inApp, i)) ==>
              AppCandidate(cs, inApp, r.value) &&
              forall j :: AppCandidate(cs, inApp, j) ==> if inverted then r.value <= j else j <= r.value
    ensures r.Some? && (forall i :: !AppCandidate(cs, inApp, i)) && (exists i :: ContributingCandidate(cs, inApp, i)) ==>
              ContributingCandidate(cs, inApp, r.value) &&
              forall j :: ContributingCandidate(cs, inApp, j) ==> if inverted then r.value <= j else j <= r.value
    ensures r.Some? && (forall i :: !ContributingCandidate(cs, inApp, i)) ==>
              r.value == if inverted then 0 else |cs| - 1
    ensures r.Some? ==> BlameChoice(cs, inApp, inverted, r.value)
  {
    var n := if |cs| < |inApp| then |cs| else |inApp|;
    var found, at := false, 0;
    var i := 0;
    while i < n
      invariant 0 <= i <= n
      invariant inverted ==> !found
      invariant !found ==> forall j :: 0 <= j < i ==> !AppCandidate(cs, inApp, j)
      invariant found ==> at < i && AppCandidate(cs, inApp, at)
      invariant found ==> forall j :: 0 <= j < i && AppCandidate(cs, inApp, j) ==>
                  if inverted then at <= j else j <= at
    {
      if cs[i].contributes && inApp[i] {
        found, at := true, i;
        if inverted {
          break;
        }
      }
      i := i + 1;
    }
    if found {
      assert AppCandidate(cs, inApp, at) && ContributingCandidate(cs, inApp, at);
      return Some(at);
    }
    var seen, pos := false, 0;
    i := 0;
    while i < n
      invariant 0 <= i <= n
      invariant inverted ==> !seen
      invariant !seen ==> forall j :: 0 <= j < i ==> !ContributingCandidate(cs, inApp, j)
      invariant seen ==> pos < i && ContributingCandidate(cs, inApp, pos)
      invariant seen ==> forall j :: 0 <= j < i && ContributingCandidate(cs, inApp, j) ==>
                  if inverted then pos <= j else j <= pos
    {
      if cs[i].contributes {
        seen, pos := true, i;
        if inverted {
          break;
        }
      }
      i := i + 1;
    }
    if seen {
      assert ContributingCandidate(cs, inApp, pos);
      r := Some(pos);
    } else if |cs| == 0 {
      r := None;
    } else {
      r := Some(if inverted then 0 else |cs| - 1);
    }
  }

  // ---------------------------------------------------------------------
  // Accumulating frame levels

  /** Whether `j` is at or beyond `idx` in walking direction `dir`. */
  predicate Ahead(dir: int, idx: int, j: int)
  {
    if dir == 1 then idx <= j else j <= idx
  }

  /** Contributing components at or beyond `idx` in walking direction. */
  predicate AllAhead(cs: seq<FrameComponent>, dir: int, idx: int, r: seq<nat>)
  {
    forall k :: 0 <= k < |r| ==> r[k] < |cs| && cs[r[k]].contributes && Ahead(dir, idx, r[k])
  }

  /** Positions strictly in walking order. */
  predicate Ordered(dir: int, r: seq<nat>)
  {
    forall a, b :: 0 <= a < b < |r| ==> if dir == 1 then r[a] < r[b] else r[a] > r[b]
  }

  /** The number of non-prefix components among the positions `r`. */
  function NonPrefix(cs: seq<FrameComponent>, r: seq<nat>): (n: nat)
    ensures n <= |r|
  {
    if |r| == 0 then 0
    else (if r[0] < |cs| && !cs[r[0]].isPrefix then 1 else 0) + NonPrefix(cs, r[1..])
  }

  /** The walk of `_accumulate_frame_levels` from `idx` with `budget`
      non-prefix frames still to take. */
  function Accumulate(cs: seq<FrameComponent>, idx: int, budget: int, dir: int): seq<nat>
    requires dir == 1 || dir == -1
    decreases if dir == 1 then |cs| - idx else idx + 1
  {
    if !(0 <= idx < |cs|) || budget <= 0 then []
    else if !cs[idx].contributes then Accumulate(cs, idx + dir, budget, dir)
    else [idx] + Accumulate(cs, idx + dir, if cs[idx].isPrefix then budget else budget - 1, dir)
  }

  /** The walk takes contributing components ahead of its start, in
      walking order, and no more non-prefix ones than its budget. */
  lemma AccumulateSound(cs: seq<FrameComponent>, idx: int, budget: int, dir: int)
    requires dir == 1 || dir == -1
    ensures var r := Accumulate(cs, idx, budget, dir);
            AllAhead(cs, dir, idx, r) && Ordered(dir, r) && NonPrefix(cs, r) <= if budget > 0 then budget else 0
  {
    AccumulateAhead(cs, idx, budget, dir);
    AccumulateOrdered(cs, idx, budget, dir);
    AccumulateBudget(cs, idx, budget, dir);
  }

  lemma {:induction false} AccumulateAhead(cs: seq<FrameComponent>, idx: int, budget: int, dir: int)
    requires dir == 1 || dir == -1
    ensures AllAhead(cs, dir, idx, Accumulate(cs, idx, budget, dir))
    decreases if dir == 1 then |cs| - idx else idx + 1
  {
    if 0 <= idx < |cs| && budget > 0 {
      var b := if !cs[idx].contributes || cs[idx].isPrefix then budget else budget - 1;
      AccumulateAhead(cs, idx + dir, b, dir);
      var rest := Accumulate(cs, idx + dir, b, dir);
      var r := Accumulate(cs, idx, budget, dir);
      if cs[idx].contributes {
        assert r == [idx] + rest;
        forall k | 0 < k < |r|
          ensures r[k] < |cs| && cs[r[k]].contributes && Ahead(dir, idx, r[k])
        {
          assert r[k] == rest[k - 1];
          assert Ahead(dir, idx + dir, rest[k - 1]);
        }
      } else {
        assert r == rest;
        forall k | 0 <= k < |r|
          ensures Ahead(dir, idx, r[k])
        {
          assert Ahead(dir, idx + dir, rest[k]);
        }
      }
    }
  }

  lemma {:induction false} AccumulateOrdered(cs: seq<FrameComponent>, idx: int, budget: int, dir: int)
    requires dir == 1 || dir == -1
    ensures Ordered(dir, Accumulate(cs, idx, budget, dir))
    decreases if dir == 1 then |cs| - idx else idx + 1
  {
    if 0 <= idx < |cs| && budget > 0 {
      var b := if !cs[idx].contributes || cs[idx].isPrefix then budget else budget - 1;
      AccumulateOrdered(cs, idx + dir, b, dir);
      AccumulateAhead(cs, idx + dir, b, dir);
      var rest := Accumulate(cs, idx + dir, b, dir);
      var r := Accumulate(cs, idx, budget, dir);
      if cs[idx].contributes {
        assert r == [idx] + rest;
        forall a, c | 0 <= a < c < |r|
          ensures if dir == 1 then r[a] < r[c] else r[a] > r[c]
        {
          assert r[c] == rest[c - 1];
          assert Ahead(dir, idx + dir, rest[c - 1]);
          if a > 0 {
            assert r[a] == rest[a - 1];
          }
        }
      }
    }
  }

  lemma {:induction false} AccumulateBudget(cs: seq<FrameComponent>, idx: int, budget: int, dir: int)
    requires dir == 1 || dir == -1
    ensures NonPrefix(cs, Accumulate(cs, idx, budget, dir)) <= if budget > 0 then budget else 0
    decreases if dir == 1 then |cs| - idx else idx + 1
  {
    if 0 <= idx < |cs| && budget > 0 {
      var b := if !cs[idx].contributes || cs[idx].isPrefix then budget else budget - 1;
      AccumulateBudget(cs, idx + dir, b, dir);
      if cs[idx].contributes {
        var rest := Accumulate(cs, idx + dir, b, dir);
        assert ([idx] + rest)[1..] == rest;
      }
    }
  }

  /** The walk skips no contributing component: it takes every one up to
      the last it took, and every one ahead of it while budget is left. */
  lemma {:induction false} AccumulateComplete(cs: seq<FrameComponent>, idx: int, budget: int, dir: int, j: int)
    requires dir == 1 || dir == -1
    requires if dir == 1 then 0 <= idx else idx < |cs|
    requires 0 <= j < |cs| && cs[j].contributes && Ahead(dir, idx, j)
    requires var r := Accumulate(cs, idx, budget, dir);
             NonPrefix(cs, r) < budget || (|r| > 0 && Ahead(dir, j, r[|r| - 1]))
    ensures j in Accumulate(cs, idx, budget, dir)
    decreases if dir == 1 then |cs| - idx else idx + 1
  {
    var r := Accumulate(cs, idx, budget, dir);
    assert 0 <= idx < |cs|;
    assert budget <= 0 ==> r == [];
    assert budget > 0;
    if idx == j {
      assert r[0] == idx;
    } else if cs[idx].contributes {
      var b := if cs[idx].isPrefix then budget else budget - 1;
      var rest := Accumulate(cs, idx + dir, b, dir);
      assert r == [idx] + rest;
      NonPrefixCons(cs, idx, rest);
      if |rest| > 0 {
        assert r[|r| - 1] == rest[|rest| - 1];
      }
      AccumulateComplete(cs, idx + dir, b, dir, j);
    } else {
      AccumulateComplete(cs, idx + dir, budget, dir, j);
    }
  }

  /** Counting the non-prefix components of a list one element at a
      time. */
  lemma NonPrefixCons(cs: seq<FrameComponent>, x: nat, r: seq<nat>)
    ensures NonPrefix(cs, [x] + r) == (if x < |cs| && !cs[x].isPrefix then 1 else 0) + NonPrefix(cs, r)
  {
    assert ([x] + r)[1..] == r;
  }

  /** `_accumulate_frame_levels`: the contributing components met walking
      away from the blaming frame, nearest first, until `depth - 1`
      non-prefix components have been taken. */
  function AccumulateFrameLevels(cs: seq<FrameComponent>, blame: nat, depth: int, dir: int): (r: seq<nat>)
    requires dir == 1 || dir == -1
    ensures forall k :: 0 <= k < |r| ==> r[k] < |cs| && cs[r[k]].contributes
    ensures dir == -1 ==> forall k :: 0 <= k < |r| ==> r[k] < blame
    ensures dir == 1 ==> forall k :: 0 <= k < |r| ==> r[k] > blame
    ensures Ordered(dir, r)
    ensures NonPrefix(cs, r) <= if depth > 1 then depth - 1 else 0
  {
    AccumulateSound(cs, blame + dir, depth - 1, dir);
    Accumulate(cs, blame + dir, depth - 1, dir)
  }

  /** The levels skip no contributing component on their side of the
      blaming frame: every one nearer than the farthest taken, and every
      one at all while depth is left. */
  lemma AccumulateFrameLevelsComplete(cs: seq<FrameComponent>, blame: nat, depth: int, dir: int, j: nat)
    requires blame < |cs| && (dir == 1 || dir == -1)
    requires j < |cs| && j != blame && Ahead(dir, blame, j) && cs[j].contributes
    requires var r := AccumulateFrameLevels(cs, blame, depth, dir);
             NonPrefix(cs, r) < depth - 1 || (|r| > 0 && Ahead(dir, j, r[|r| - 1]))
    ensures j in AccumulateFrameLevels(cs, blame, depth, dir)
  {
    AccumulateComplete(cs, blame + dir, depth - 1, dir, j);
  }

  /** With one more unit of budget the walk takes what it took before and
      possibly more. */
  lemma {:induction false} AccumulateGrows(cs: seq<FrameComponent>, idx: int, budget: int, dir: int)
    requires dir == 1 || dir == -1
    ensures Accumulate(cs, idx, budget, dir) <= Accumulate(cs, idx, budget + 1, dir)
    decreases if dir == 1 then |cs| - idx else idx + 1
  {
    if 0 <= idx < |cs| && budget > 0 {
      if !cs[idx].contributes {
        AccumulateGrows(cs, idx + dir, budget, dir);
      } else {
        var b := if cs[idx].isPrefix then budget else budget - 1;
        var narrow, wide := Accumulate(cs, idx + dir, b, dir), Accumulate(cs, idx + dir, b + 1, dir);
        assert Accumulate(cs, idx, budget, dir) == [idx] + narrow;
        assert Accumulate(cs, idx, budget + 1, dir) == [idx] + wide;
        AccumulateGrows(cs, idx + dir, b, dir);
      }
    }
  }

  /** Once one more unit of budget takes nothing new, neither does a
      second one: the walk has run out of contributing frames. */
  lemma {:induction false} AccumulateSettles(cs: seq<FrameComponent>, idx: int, budget: int, dir: int)
    requires dir == 1 || dir == -1
    requires budget >= 0
    requires Accumulate(cs, idx, budget + 1, dir) == Accumulate(cs, idx, budget, dir)
    ensures Accumulate(cs, idx, budget + 2, dir) == Accumulate(cs, idx, budget + 1, dir)
    decreases if dir == 1 then |cs| - idx else idx + 1
  {
    if 0 <= idx < |cs| {
      if !cs[idx].contributes {
        AccumulateSettles(cs, idx + dir, budget, dir);
      } else if budget > 0 {
        var b := if cs[idx].isPrefix then budget else budget - 1;
        var wider := Accumulate(cs, idx, budget + 1, dir);
        assert wider == [idx] + Accumulate(cs, idx + dir, b + 1, dir);
        assert wider == [idx] + Accumulate(cs, idx + dir, b, dir);
        assert wider[1..] == Accumulate(cs, idx + dir, b + 1, dir) == Accumulate(cs, idx + dir, b, dir);
        AccumulateSettles(cs, idx + dir, b, dir);
      }
    }
  }

  // ---------------------------------------------------------------------
  // Building the tree

  function Reverse(s: seq<nat>): (r: seq<nat>)
    ensures |r| == |s| && forall k :: 0 <= k < |s| ==> r[k] == s[|s| - 1 - k]
  {
    if |s| == 0 then [] else Reverse(s[1..]) + [s[0]]
  }

  /** The components of level `depth`, outermost first: the frames below
      the blaming one reversed, the blaming one, the frames above it. */
  function LevelFrames(cs: seq<FrameComponent>, blame: nat, depth: int): (r: seq<nat>)
    requires blame < |cs|
    ensures blame in r
    ensures forall k :: 0 <= k < |r| ==> r[k] < |cs|
    ensures forall a, b :: 0 <= a < b < |r| ==> r[a] < r[b]
  {
    var pre := AccumulateFrameLevels(cs, blame, depth, -1);
    var post := AccumulateFrameLevels(cs, blame, depth, 1);
    var r := Reverse(pre) + [blame] + post;
    assert r[|pre|] == blame;
    r
  }

  /** The break of the source's loop is sound: when a level is no longer
      than the one before it, every deeper level equals it. */
  lemma LevelsSettle(cs: seq<FrameComponent>, blame: nat, depth: int)
    requires blame < |cs| && depth >= 1
    requires |LevelFrames(cs, blame, depth + 1)| == |LevelFrames(cs, blame, depth)|
    ensures LevelFrames(cs, blame, depth + 2) == LevelFrames(cs, blame, depth + 1)
  {
    var d := depth - 1;
    AccumulateGrows(cs, blame - 1, d, -1);
    AccumulateGrows(cs, blame + 1, d, 1);
    var pre0, pre1 := Accumulate(cs, blame - 1, d, -1), Accumulate(cs, blame - 1, d + 1, -1);
    var post0, post1 := Accumulate(cs, blame + 1, d, 1), Accumulate(cs, blame + 1, d + 1, 1);
    assert |pre0| + |post0| == |pre1| + |post1|;
    assert pre1 == pre0 && post1 == post0;
    AccumulateSettles(cs, blame - 1, d, -1);
    AccumulateSettles(cs, blame + 1, d, 1);
  }

  /** No component has the label "..." of its own. */
  predicate NoEllipsisLabel(cs: seq<FrameComponent>)
  {
    forall k :: 0 <= k < |cs| ==> cs[k].treeLabel != "..."
  }

  /** No two neighbouring entries of a label are both "...". */
  predicate NoAdjacentEllipsis(labels: seq<string>)
  {
    forall k :: 0 <= k < |labels| - 1 ==> !(labels[k] == "..." && labels[k + 1] == "...")
  }

  /** The labelling loop of `_build_fallback_tree`: a component shared
      with the previous level (taken in order) becomes one "..." for each
      run, any other component contributes its own label if it has one. */
  function LabelWalk(cs: seq<FrameComponent>, frames: seq<nat>, prev: seq<nat>, from: nat, prevI: nat, acc: seq<string>)
    : (r: seq<string>)
    requires from <= |frames| && forall k :: 0 <= k < |frames| ==> frames[k] < |cs|
    ensures acc <= r
    ensures forall k :: |acc| <= k < |r| ==>
              r[k] == "..." || exists j :: from <= j < |frames| && r[k] == cs[frames[j]].treeLabel
    ensures NoAdjacentEllipsis(acc) && NoEllipsisLabel(cs) ==>
              NoAdjacentEllipsis(r)
    decreases |frames| - from
  {
    if from == |frames| then acc
    else
      var f := frames[from];
      if prevI < |prev| && f == prev[prevI] then
        var next := if |acc| == 0 || acc[|acc| - 1] != "..." then acc + ["..."] else acc;
        LabelWalk(cs, frames, prev, from + 1, prevI + 1, next)
      else if cs[f].treeLabel != "" then
        LabelWalk(cs, frames, prev, from + 1, prevI, acc + [cs[f].treeLabel])
      else
        LabelWalk(cs, frames, prev, from + 1, prevI, acc)
  }

  /** A key of the result: `app-depth-<n>` or `app-depth-max`. */
  datatype Key = AppDepth(depth: nat) | AppDepthMax

  function KeyText(k: Key): string
  {
    match k
    case AppDepth(d) => "app-depth-" + NatText(d)
    case AppDepthMax => "app-depth-max"
  }

  /** The components of levels 1 to 5. */
  function LevelsOf(cs: seq<FrameComponent>, blame: nat): (ls: seq<seq<nat>>)
    requires blame < |cs|
    ensures |ls| == 5 && forall d :: 0 <= d < 5 ==> ls[d] == LevelFrames(cs, blame, d + 1)
  {
    seq(5, d requires 0 <= d < 5 => LevelFrames(cs, blame, d + 1))
  }

  /** Every level lists positions of components. */
  predicate WithinComponents(cs: seq<FrameComponent>, levels: seq<seq<nat>>)
  {
    forall d, k :: 0 <= d < |levels| && 0 <= k < |levels[d]| ==> levels[d][k] < |cs|
  }

  /** The `while` loop of `_build_fallback_tree` from level `depth` on,
      `prev` being the previous level's components and `levels[d - 1]`
      the components of level `d`. */
  function BuildLevels(cs: seq<FrameComponent>, levels: seq<seq<nat>>, depth: nat, prev: seq<nat>): (r: seq<(Key, Variant)>)
    requires |levels| == 5 && WithinComponents(cs, levels) && 1 <= depth <= 6
    ensures 1 <= |r| <= 7 - depth
    ensures r[|r| - 1].1 == Main
    ensures r[|r| - 1].0 == if depth + |r| - 1 == 6 then AppDepthMax else AppDepth(depth + |r| - 1)
    ensures forall k :: 0 <= k < |r| - 1 ==> r[k].1.Level?
    decreases 6 - depth
  {
    if depth == 6 then [(AppDepthMax, Main)]
    else
      var frames := levels[depth - 1];
      if |prev| == |frames| then [(AppDepth(depth), Main)]
      else
        var level := Level(frames, LabelWalk(cs, frames, prev, 0, 0, []));
        var rest := BuildLevels(cs, levels, depth + 1, frames);
        var r := [(AppDepth(depth), level)] + rest;
        assert r[|r| - 1] == rest[|rest| - 1];
        assert forall k :: 0 < k < |r| ==> r[k] == rest[k - 1];
        r
  }

  /** A result with a level before the main variant starts with level
      `depth`, followed by the result of the next depth. */
  lemma BuildLevelsCons(cs: seq<FrameComponent>, levels: seq<seq<nat>>, depth: nat, prev: seq<nat>)
    requires |levels| == 5 && WithinComponents(cs, levels) && 1 <= depth <= 6
    requires |BuildLevels(cs, levels, depth, prev)| >= 2
    ensures depth < 6 && |prev| != |levels[depth - 1]|
    ensures BuildLevels(cs, levels, depth, prev)
            == [(AppDepth(depth), Level(levels[depth - 1], LabelWalk(cs, levels[depth - 1], prev, 0, 0, [])))]
               + BuildLevels(cs, levels, depth + 1, levels[depth - 1])
  {
  }

  /** Entry `k` before the last is level `depth + k` under its own key,
      holding the components of that level, which differ in number from
      the level before it. */
  lemma {:induction false} LevelAt(cs: seq<FrameComponent>, levels: seq<seq<nat>>, depth: nat, prev: seq<nat>, k: nat)
    requires |levels| == 5 && WithinComponents(cs, levels) && 1 <= depth <= 6
    requires k < |BuildLevels(cs, levels, depth, prev)| - 1
    ensures depth + k <= 5
    ensures var e := BuildLevels(cs, levels, depth, prev)[k];
            && e.0 == AppDepth(depth + k)
            && e.1.Level? && e.1.values == levels[depth + k - 1]
            && |e.1.values| != |if k == 0 then prev else levels[depth + k - 2]|
    decreases k
  {
    BuildLevelsCons(cs, levels, depth, prev);
    var frames := levels[depth - 1];
    if k > 0 {
      var rest := BuildLevels(cs, levels, depth + 1, frames);
      assert BuildLevels(cs, levels, depth, prev)[k] == rest[k - 1];
      LevelAt(cs, levels, depth + 1, frames, k - 1);
    }
  }

  /** No level's label has two "..." in a row unless a component is
      itself labelled "...". */
  lemma {:induction false} LevelLabels(cs: seq<FrameComponent>, levels: seq<seq<nat>>, depth: nat, prev: seq<nat>, k: nat)
    requires |levels| == 5 && WithinComponents(cs, levels) && 1 <= depth <= 6 && NoEllipsisLabel(cs)
    requires k < |BuildLevels(cs, levels, depth, prev)| - 1
    ensures NoAdjacentEllipsis(BuildLevels(cs, levels, depth, prev)[k].1.labels)
    decreases k
  {
    var frames := levels[depth - 1];
    var r := BuildLevels(cs, levels, depth, prev);
    var rest := BuildLevels(cs, levels, depth + 1, frames);
    assert r == [(AppDepth(depth), Level(frames, LabelWalk(cs, frames, prev, 0, 0, [])))] + rest;
    if k > 0 {
      assert r[k] == rest[k - 1];
      LevelLabels(cs, levels, depth + 1, frames, k - 1);
    }
  }

  /** The loop stops before level 6 only at a level with as many
      components as the one before it. */
  lemma {:induction false} LevelsBreak(cs: seq<FrameComponent>, levels: seq<seq<nat>>, depth: nat, prev: seq<nat>)
    requires |levels| == 5 && WithinComponents(cs, levels) && 1 <= depth <= 6
    ensures var r := BuildLevels(cs, levels, depth, prev);
            var last := depth + |r| - 1;
            last < 6 ==> |levels[last - 1]| == |if |r| == 1 then prev else levels[last - 2]|
    decreases 6 - depth
  {
    BuildLevelsLength(cs, levels, depth, prev);
    if depth < 6 && |prev| != |levels[depth - 1]| {
      LevelsBreak(cs, levels, depth + 1, levels[depth - 1]);
    }
  }

  /** The loop runs one more level exactly when the level differs in size
      from the previous one. */
  lemma BuildLevelsLength(cs: seq<FrameComponent>, levels: seq<seq<nat>>, depth: nat, prev: seq<nat>)
    requires |levels| == 5 && WithinComponents(cs, levels) && 1 <= depth <= 6
    ensures |BuildLevels(cs, levels, depth, prev)|
            == if depth == 6 || |prev| == |levels[depth - 1]| then 1
               else 1 + |BuildLevels(cs, levels, depth + 1, levels[depth - 1])|
  {
  }

  /** `_build_fallback_tree`: the levels in insertion order, ending with
      the main variant; fails, as the source does, on an empty stack
      trace. `blame` is the blaming frame the method picked. */
  method BuildFallbackTree(cs: seq<FrameComponent>, inApp: seq<bool>, inverted: bool)
    returns (r: Option<seq<(Key, Variant)>>, blame: nat)
    ensures r.None? <==> |cs| == 0
    ensures r.Some? ==> blame < |cs| && r.value == BuildLevels(cs, LevelsOf(cs, blame), 1, [])
    ensures r.Some? ==> TreeShape(r.value)
    ensures r.Some? ==> BlameChoice(cs, inApp, inverted, blame)
  {
    var b := BlamingFrameIndex(cs, inApp, inverted);
    if b.None? {
      return None, 0;
    }
    blame := b.value;
    FallbackTreeShape(cs, blame);
    r := Some(BuildLevels(cs, LevelsOf(cs, blame), 1, []));
  }

  /** A fallback tree: a first level under `app-depth-1`, at most six
      entries, levels up to the main variant at the end, whose key is
      `app-depth-max` exactly when there are six. */
  predicate TreeShape(t: seq<(Key, Variant)>)
  {
    && 2 <= |t| <= 6 && t[0].0 == AppDepth(1) && t[0].1.Level?
    && t[|t| - 1].1 == Main && (forall k :: 0 <= k < |t| - 1 ==> t[k].1.Level?)
    && (t[|t| - 1].0 == AppDepthMax <==> |t| == 6)
  }

  lemma FallbackTreeShape(cs: seq<FrameComponent>, blame: nat)
    requires blame < |cs|
    ensures TreeShape(BuildLevels(cs, LevelsOf(cs, blame), 1, []))
  {
    var levels := LevelsOf(cs, blame);
    assert |levels[0]| != 0;
    BuildLevelsCons(cs, levels, 1, []);
  }

  /** Level `d` of the tree, for every level before the main variant,
      holds the components `LevelFrames` accumulates at depth `d`, under
      the key `app-depth-d`, and differs in size from level `d - 1`; the
      loop ends early only at a level no larger than the one before it. */
  lemma FallbackTreeLevels(cs: seq<FrameComponent>, blame: nat, k: nat)
    requires blame < |cs|
    requires k < |BuildLevels(cs, LevelsOf(cs, blame), 1, [])| - 1
    ensures var e := BuildLevels(cs, LevelsOf(cs, blame), 1, [])[k];
            && e.0 == AppDepth(k + 1)
            && e.1.values == LevelFrames(cs, blame, k + 1)
            && (k > 0 ==> |e.1.values| != |LevelFrames(cs, blame, k)|)
            && (NoEllipsisLabel(cs) ==> NoAdjacentEllipsis(e.1.labels))
  {
    LevelAt(cs, LevelsOf(cs, blame), 1, [], k);
    if NoEllipsisLabel(cs) {
      LevelLabels(cs, LevelsOf(cs, blame), 1, [], k);
    }
  }

  /** The early exit happens at a level no larger than the previous one,
      and then every deeper level would equal the previous one as well. */
  lemma FallbackTreeBreak(cs: seq<FrameComponent>, blame: nat)
    requires blame < |cs|
    ensures var r := BuildLevels(cs, LevelsOf(cs, blame), 1, []);
            |r| < 6 ==> |r| >= 2 && |LevelFrames(cs, blame, |r|)| == |LevelFrames(cs, blame, |r| - 1)|
                        && LevelFrames(cs, blame, |r| + 1) == LevelFrames(cs, blame, |r|)
  {
    var r := BuildLevels(cs, LevelsOf(cs, blame), 1, []);
    LevelsBreak(cs, LevelsOf(cs, blame), 1, []);
    if |r| < 6 {
      assert |LevelsOf(cs, blame)[0]| != 0;
      LevelsSettle(cs, blame, |r| - 1);
    }
  }

  /** The character after "app-depth-" is a digit exactly for a numbered
      key, whose number follows as its decimal text. */
  lemma KeyTextShape(k: Key)
    ensures |KeyText(k)| > 10
    ensures k.AppDepth? <==> IsDigit(KeyText(k)[10])
    ensures k.AppDepth? ==> KeyText(k)[10..] == NatText(k.depth)
  {
    if k.AppDepth? {
      assert KeyText(k)[10..] == NatText(k.depth);
    }
  }

  /** Distinct keys have distinct texts, so the result is a dictionary
      with one entry per key. */
  lemma KeyTextInjective(a: Key, b: Key)
    requires KeyText(a) == KeyText(b)
    ensures a == b
  {
    KeyTextShape(a);
    KeyTextShape(b);
    if a.AppDepth? {
      NatTextValue(a.depth);
      NatTextValue(b.depth);
    }
  }
}

=== FILE: kv_stores.dfy ===
/** Two thin layers over a key/value store: the event processing store
    (src/sentry/eventstore/processing/base.py) and the codec wrapper
    (src/sentry/utils/kvstore/encoding.py). The underlying store is a map
    from key to the value and the time-to-live it was set with; expiry is
    not part of this model. */
module KeyValueStores {
  import opened Wrappers

  datatype Entry<V> = Entry(value: V, ttl: Option<int>)

  type Storage<K, V> = map<K, Entry<V>>

  // ---------------------------------------------------------------------
  // The underlying store

  function StoreGet<K(!new), V>(s: Storage<K, V>, key: K): (r: Option<V>)
    ensures r.Some? <==> key in s
    ensures r.Some? ==> r.value == s[key].value
  {
    if key in s then Some(s[key].value) else None
  }

  /** The pairs found for the keys, in the order asked. */
  function StoreGetMany<K(!new), V>(s: Storage<K, V>, keys: seq<K>): (r: seq<(K, V)>)
    ensures forall i :: 0 <= i < |r| ==> r[i].0 in s && r[i].1 == s[r[i].0].value
    decreases |keys|
  {
    if |keys| == 0 then []
    else if keys[0] in s then [(keys[0], s[keys[0]].value)] + StoreGetMany(s, keys[1..])
    else StoreGetMany(s, keys[1..])
  }

  function StoreDeleteMany<K(!new), V>(s: Storage<K, V>, keys: seq<K>): (r: Storage<K, V>)
    ensures forall k :: k in r <==> k in s && k !in keys
    ensures forall k :: k in r ==> r[k] == s[k]
  {
    map k | k in s && k !in keys :: s[k]
  }

  // ---------------------------------------------------------------------
  // Event processing store

  /** `DEFAULT_TIMEOUT`: one day, in seconds. */
  const DefaultTimeout := 60 * 60 * 24

  /** `__get_unprocessed_key`. */
  function UnprocessedKey(key: string): (r: string)
    ensures |r| == |key| + 2 && key < r
  {
    key + ":u"
  }

  /** Different base keys have different unprocessed keys. */
  lemma UnprocessedKeyInjective(a: string, b: string)
    requires UnprocessedKey(a) == UnprocessedKey(b)
    ensures a == b
  {
    assert a == UnprocessedKey(a)[..|a|];
  }

  /** `BaseEventProcessingStore.store`: the event goes under its cache key,
      or that key's unprocessed slot, with the store's timeout; the key used
      is returned. Nothing else changes. */
  function ProcessingStore<E>(inner: Storage<string, E>, cacheKey: E -> string, timeout: int, event: E, unprocessed: bool): (r: (Storage<string, E>, string))
    ensures r.1 == if unprocessed then UnprocessedKey(cacheKey(event)) else cacheKey(event)
    ensures r.1 in r.0 && r.0[r.1] == Entry(event, Some(timeout))
    ensures forall k :: k != r.1 ==> (k in r.0 <==> k in inner) && (k in inner ==> r.0[k] == inner[k])
  {
    var key := if unprocessed then UnprocessedKey(cacheKey(event)) else cacheKey(event);
    (inner[key := Entry(event, Some(timeout))], key)
  }

  /** `BaseEventProcessingStore.get`. */
  function ProcessingGet<E>(inner: Storage<string, E>, key: string, unprocessed: bool): (r: Option<E>)
    ensures r == StoreGet(inner, if unprocessed then UnprocessedKey(key) else key)
  {
    StoreGet(inner, if unprocessed then UnprocessedKey(key) else key)
  }

  /** `BaseEventProcessingStore.delete_by_key`: both slots of the key go,
      nothing else. */
  function DeleteByKey<E>(inner: Storage<string, E>, key: string): (r: Storage<string, E>)
    ensures key !in r && UnprocessedKey(key) !in r
    ensures forall k :: k != key && k != UnprocessedKey(key) ==> (k in r <==> k in inner) && (k in r ==> r[k] == inner[k])
  {
    inner - {key} - {UnprocessedKey(key)}
  }

  /** `BaseEventProcessingStore.delete`. */
  function ProcessingDelete<E>(inner: Storage<string, E>, cacheKey: E -> string, event: E): (r: Storage<string, E>)
    ensures r == DeleteByKey(inner, cacheKey(event))
    ensures ProcessingGet(r, cacheKey(event), false).None? && ProcessingGet(r, cacheKey(event), true).None?
  {
    DeleteByKey(inner, cacheKey(event))
  }

  /** A processed event is read back under the key `store` returns. */
  lemma StoreThenGet<E>(inner: Storage<string, E>, cacheKey: E -> string, timeout: int, event: E)
    ensures var (s, key) := ProcessingStore(inner, cacheKey, timeout, event, false);
            key == cacheKey(event) && ProcessingGet(s, key, false) == Some(event)
  {
  }

  /** An unprocessed event is read back by passing its base key with the
      unprocessed flag; the key `store` returned, passed the same way,
      names the slot one suffix further. */
  lemma StoreUnprocessedThenGet<E>(inner: Storage<string, E>, cacheKey: E -> string, timeout: int, event: E)
    ensures var (s, key) := ProcessingStore(inner, cacheKey, timeout, event, true);
            && ProcessingGet(s, cacheKey(event), true) == Some(event)
            && ProcessingGet(s, key, true) == StoreGet(inner, UnprocessedKey(UnprocessedKey(cacheKey(event))))
  {
  }

  /** Storing into one slot leaves the other slot of the same event as it
      was. */
  lemma StoreKeepsOtherSlot<E>(inner: Storage<string, E>, cacheKey: E -> string, timeout: int, event: E, unprocessed: bool)
    ensures var s := ProcessingStore(inner, cacheKey, timeout, event, unprocessed).0;
            ProcessingGet(s, cacheKey(event), !unprocessed) == ProcessingGet(inner, cacheKey(event), !unprocessed)
  {
    assert cacheKey(event) != UnprocessedKey(cacheKey(event));
  }

  // ---------------------------------------------------------------------
  // Codec wrapper

  /** `Codec`: a pair of conversions. */
  datatype Codec<!D, !En> = Codec(encode: D -> En, decode: En -> D)

  ghost predicate RoundTrips<D(!new), En>(codec: Codec<D, En>)
  {
    forall v :: codec.decode(codec.encode(v)) == v
  }

  /** `CodecWrapper.get`: nothing where the inner store has nothing,
      otherwise the decoded inner value. */
  function CodecGet<K(!new), D, En>(store: Storage<K, En>, codec: Codec<D, En>, key: K): (r: Option<D>)
    ensures r.None? <==> StoreGet(store, key).None?
    ensures r.Some? ==> r.value == codec.decode(StoreGet(store, key).value)
  {
    match StoreGet(store, key)
    case None => None
    case Some(v) => Some(codec.decode(v))
  }

  /** `CodecWrapper.get_many`: the inner pairs, keys in the same order,
      values decoded. */
  function CodecGetMany<K(!new), D, En>(store: Storage<K, En>, codec: Codec<D, En>, keys: seq<K>): (r: seq<(K, D)>)
    ensures |r| == |StoreGetMany(store, keys)|
    ensures forall i :: 0 <= i < |r| ==>
              r[i] == (StoreGetMany(store, keys)[i].0, codec.decode(StoreGetMany(store, keys)[i].1))
  {
    var inner := StoreGetMany(store, keys);
    seq(|inner|, i requires 0 <= i < |inner| => (inner[i].0, codec.decode(inner[i].1)))
  }

  /** `CodecWrapper.set`: the encoded value under the same key, with the
      time-to-live passed on. */
  function CodecSet<K(!new), D, En>(store: Storage<K, En>, codec: Codec<D, En>, key: K, value: D, ttl: Option<int>): (r: Storage<K, En>)
    ensures key in r && r[key] == Entry(codec.encode(value), ttl)
    ensures forall k :: k != key ==> (k in r <==> k in store) && (k in r ==> r[k] == store[k])
  {
    store[key := Entry(codec.encode(value), ttl)]
  }

  /** `CodecWrapper.delete`. */
  function CodecDelete<K(!new), En>(store: Storage<K, En>, key: K): (r: Storage<K, En>)
    ensures StoreGet(r, key).None?
    ensures forall k :: k != key ==> StoreGet(r, k) == StoreGet(store, k)
  {
    store - {key}
  }

  /** `CodecWrapper.delete_many`. */
  function CodecDeleteMany<K(!new), En>(store: Storage<K, En>, keys: seq<K>): (r: Storage<K, En>)
    ensures forall k :: k in keys ==> StoreGet(r, k).None?
    ensures forall k :: k !in keys ==> StoreGet(r, k) == StoreGet(store, k)
  {
    StoreDeleteMany(store, keys)
  }

  /** Reading back what was set gives the decode of its encoding, which
      is the value itself for a codec that round-trips. */
  lemma GetAfterSet<K(!new), D(!new), En>(store: Storage<K, En>, codec: Codec<D, En>, key: K, value: D, ttl: Option<int>)
    ensures CodecGet(CodecSet(store, codec, key, value, ttl), codec, key) == Some(codec.decode(codec.encode(value)))
    ensures RoundTrips(codec) ==> CodecGet(CodecSet(store, codec, key, value, ttl), codec, key) == Some(value)
  {
  }

  /** Deleted keys read as nothing through the wrapper. */
  lemma GetAfterDelete<K(!new), D, En>(store: Storage<K, En>, codec: Codec<D, En>, keys: seq<K>, key: K)
    requires key in keys
    ensures CodecGet(CodecDeleteMany(store, keys), codec, key) == None
    ensures CodecGet(CodecDelete(store, key), codec, key) == None
  {
  }
}

=== FILE: mail_recipients.dfy ===
/** Who receives an issue-alert mail, and two pieces of the mail's content
    (src/sentry/mail/adapter.py). The database queries the adapter makes
    are inputs here: a `ProjectData` holds what they would return for one
    project. */
module MailRecipients {
  import opened Wrappers
  import opened Text
  import opened GroupSubscriptions

  /** `ActionTargetType`. */
  datatype TargetType = IssueOwners | Team | Member

  /** The project-scope issue-alert setting of a user. */
  datatype OptionValue = Never | OtherOption(name: string)

  /** The query results the adapter uses for one project. */
  datatype ProjectData = ProjectData(
    hasTeams: bool,                         // `project.teams.exists()`
    sendable: seq<int>,                     // `get_send_to_all_in_project`
    memberIds: set<int>,                    // users of `project.member_set`
    projectSetting: map<int, OptionValue>,  // PROJECT-scope setting by user, where one exists
    teamMembers: map<int, set<int>>,        // teams of the project: members by team id
    projectUsers: set<int>,                 // users in an org team that has the project
    activeMembersOf: int -> set<int>)       // active users of any team, by team id

  /** An owner from the ownership rules. */
  datatype Owner = UserOwner(userId: int) | TeamOwner(teamId: int)

  /** `ProjectOwnership.get_owners`'s first result: everyone, or a list. */
  datatype Owners = Everyone | OwnerList(owners: seq<Owner>)

  /** An event, reduced to what the ownership rules say about it. */
  datatype Event = Event(owners: Owners)

  datatype MailError = InvalidIdentifier(identifier: string)

  /** `disabled_users_from_project`: the members whose project-scope
      setting is "never". */
  function DisabledUsers(project: ProjectData): (r: set<int>)
    ensures forall u :: u in r <==>
              u in project.memberIds && u in project.projectSetting && project.projectSetting[u] == Never
  {
    set u | u in project.memberIds && u in project.projectSetting && project.projectSetting[u] == Never
  }

  /** The direct users among the owners. */
  function OwnerUsers(owners: seq<Owner>): (r: set<int>)
    ensures forall u :: u in r <==> UserOwner(u) in owners
  {
    set o | o in owners && o.UserOwner? :: o.userId
  }

  /** The teams among the owners. */
  function OwnerTeams(owners: seq<Owner>): (r: set<int>)
    ensures forall t :: t in r <==> TeamOwner(t) in owners
  {
    set o | o in owners && o.TeamOwner? :: o.teamId
  }

  /** The active members of any of the teams. */
  function ActiveMembers(project: ProjectData, teams: set<int>): (r: set<int>)
    ensures forall u :: u in r <==> exists t :: t in teams && u in project.activeMembersOf(t)
  {
    set t, u | t in teams && u in project.activeMembersOf(t) :: u
  }

  /** `get_send_to_owners`: everyone sendable when the rules say
      everyone, nobody when there are no owners, otherwise the owning
      users and the active members of owning teams, less the users who
      disabled the project's alerts. */
  function SendToOwners(event: Event, project: ProjectData): (r: set<int>)
    ensures event.owners.Everyone? ==> r == AsSet(project.sendable)
    ensures event.owners == OwnerList([]) ==> r == {}
    ensures event.owners.OwnerList? ==> forall u :: u in r <==>
              && (UserOwner(u) in event.owners.owners
                  || exists t :: TeamOwner(t) in event.owners.owners && u in project.activeMembersOf(t))
              && u !in DisabledUsers(project)
  {
    match event.owners
    case Everyone => AsSet(project.sendable)
    case OwnerList(owners) =>
      if |owners| == 0 then {}
      else (OwnerUsers(owners) + ActiveMembers(project, OwnerTeams(owners))) - DisabledUsers(project)
  }

  /** `int(target_identifier)`. */
  function ParseIdentifier(identifier: string): (r: Result<int, MailError>)
    ensures r.Ok? <==> ParseInt(identifier).Some?
    ensures r.Ok? ==> r.value == ParseInt(identifier).value
  {
    ParseInt(identifier).ToResult(InvalidIdentifier(identifier))
  }

  /** `get_send_to_team`: the members of the named team of the project,
      less the users who disabled the project's alerts; nobody without an
      identifier or for a team not on the project. */
  function SendToTeam(project: ProjectData, identifier: Option<string>): (r: Result<set<int>, MailError>)
    ensures identifier.None? ==> r == Ok({})
    ensures r.Ok? ==> r.value !! DisabledUsers(project)
    ensures r.Ok? && identifier.Some? ==>
              && ParseInt(identifier.value).Some?
              && var t := ParseInt(identifier.value).value;
              if t in project.teamMembers then r.value == project.teamMembers[t] - DisabledUsers(project) else r.value == {}
  {
    if identifier.None? then Ok({})
    else
      var t :- ParseIdentifier(identifier.value);
      if t !in project.teamMembers then Ok({})
      else Ok(project.teamMembers[t] - DisabledUsers(project))
  }

  /** `get_send_to_member`: the named user when they are on the project,
      whatever their settings say. */
  function SendToMember(project: ProjectData, identifier: Option<string>): (r: Result<set<int>, MailError>)
    ensures identifier.None? ==> r == Ok({})
    ensures r.Ok? ==> |r.value| <= 1 && r.value <= project.projectUsers
    ensures r.Ok? && identifier.Some? ==>
              && ParseInt(identifier.value).Some?
              && (ParseInt(identifier.value).value in project.projectUsers <==> r.value == {ParseInt(identifier.value).value})
  {
    if identifier.None? then Ok({})
    else
      var u :- ParseIdentifier(identifier.value);
      if u in project.projectUsers then Ok({u}) else Ok({})
  }

  /** A member target does not look at notification settings. */
  lemma MemberIgnoresSettings(project: ProjectData, settings: map<int, OptionValue>, identifier: Option<string>)
    ensures SendToMember(project.(projectSetting := settings), identifier) == SendToMember(project, identifier)
  {
  }

  /** `get_send_to`: nobody for a missing project or one without teams;
      otherwise the recipients of the target type. */
  function GetSendTo(project: Option<ProjectData>, targetType: TargetType, identifier: Option<string>, event: Option<Event>): (r: Result<set<int>, MailError>)
    ensures project.None? || !project.value.hasTeams ==> r == Ok({})
    ensures project.Some? && project.value.hasTeams ==>
              match targetType
              case IssueOwners =>
                r == Ok(if event.None? then AsSet(project.value.sendable) else SendToOwners(event.value, project.value))
              case Member => r == SendToMember(project.value, identifier)
              case Team => r == SendToTeam(project.value, identifier)
  {
    if project.None? || !project.value.hasTeams then Ok({})
    else
      match targetType
      case IssueOwners =>
        if event.None? then Ok(AsSet(project.value.sendable))
        else Ok(SendToOwners(event.value, project.value))
      case Member => SendToMember(project.value, identifier)
      case Team => SendToTeam(project.value, identifier)
  }

  /** Only a member target can reach a user who disabled the project's
      alerts, apart from the "everyone" and no-event cases, which take the
      sendable users as they are. */
  lemma DisabledUsersExcluded(project: ProjectData, targetType: TargetType, identifier: Option<string>, event: Option<Event>)
    requires targetType == Team || (targetType == IssueOwners && event.Some? && event.value.owners.OwnerList?)
    requires GetSendTo(Some(project), targetType, identifier, event).Ok?
    ensures GetSendTo(Some(project), targetType, identifier, event).value !! DisabledUsers(project)
  {
  }

  // ---------------------------------------------------------------------
  // Mail content

  /** The noun of a digest subject. */
  function Noun(count: nat): (noun: string)
    ensures noun == "alert" <==> count == 1
    ensures noun == "alerts" <==> count != 1
  {
    if count == 1 then "alert" else "alerts"
  }

  /** The format `{short_id} - {count} new {noun} since {date}`. */
  function SubjectText(shortId: string, count: string, noun: string, date: string): string
  {
    shortId + " - " + count + " new " + noun + " since " + date
  }

  lemma SubjectTextLength(shortId: string, count: string, noun: string, date: string)
    ensures |SubjectText(shortId, count, noun, date)| == |shortId| + |count| + |noun| + |date| + 15
  {
  }

  /** `get_digest_subject`; the date's formatting is not part of this
      model and arrives as text. */
  function DigestSubject<G>(shortId: string, counts: map<G, int>, date: string): (subject: string)
    ensures |counts| == 1 <==> subject == SubjectText(shortId, "1", "alert", date)
    ensures |counts| != 1 ==> subject == SubjectText(shortId, NatText(|counts|), "alerts", date)
  {
    SubjectTextLength(shortId, NatText(|counts|), Noun(|counts|), date);
    SubjectTextLength(shortId, "1", "alert", date);
    SubjectText(shortId, NatText(|counts|), Noun(|counts|), date)
  }

  /** One commit as the committers helper reports it. */
  datatype Commit = Commit(id: string, message: string, score: int)

  datatype Committer = Committer(author: string, commits: seq<Commit>)

  /** The commit data the mail shows. */
  datatype CommitData = CommitData(id: string, message: string, score: int, shortId: string, author: string, subject: string)

  /** `id[:7]`. */
  function ShortId(id: string): (r: string)
    ensures |r| == if |id| < 7 then |id| else 7
    ensures r <= id
  {
    if |id| < 7 then id else id[..7]
  }

  /** `message.split("\n", 1)[0]`: the text before the first newline. */
  function Subject(message: string): (r: string)
    ensures r <= message && '\n' !in r
    ensures |r| < |message| ==> message[|r|] == '\n'
  {
    SplitFirst(message, '\n');
    Split(message, '\n')[0]
  }

  /** The data kept for a commit of a committer. */
  function Data(c: Commit, author: string): CommitData
  {
    CommitData(c.id, c.message, c.score, ShortId(c.id), author, Subject(c.message))
  }

  /** Every commit of every committer, with its author, in order. */
  function Flatten(committers: seq<Committer>): (r: seq<(Commit, string)>)
    decreases |committers|
  {
    if |committers| == 0 then []
    else
      seq(|committers[0].commits|, i requires 0 <= i < |committers[0].commits| => (committers[0].commits[i], committers[0].author))
      + Flatten(committers[1..])
  }

  /** `i` is the first position of commit id `id`, which is not in
      `seen`. */
  predicate FirstUnseen(flat: seq<(Commit, string)>, seen: set<string>, id: string, i: int)
  {
    0 <= i < |flat| && flat[i].0.id == id && id !in seen && forall j :: 0 <= j < i ==> flat[j].0.id != id
  }

  predicate DistinctIds(r: seq<CommitData>)
  {
    forall a, b :: 0 <= a < b < |r| ==> r[a].id != r[b].id
  }

  /** The loop filling `commits` in `notify`: a commit id seen before is
      skipped. */
  function Dedup(flat: seq<(Commit, string)>, seen: set<string>): seq<CommitData>
    decreases |flat|
  {
    if |flat| == 0 then []
    else if flat[0].0.id in seen then Dedup(flat[1..], seen)
    else [Data(flat[0].0, flat[0].1)] + Dedup(flat[1..], seen + {flat[0].0.id})
  }

  /** Each kept commit is the data of the first occurrence of an id not
      seen before, and no id is kept twice. */
  lemma DedupSound(flat: seq<(Commit, string)>, seen: set<string>)
    ensures var r := Dedup(flat, seen);
            && DistinctIds(r)
            && forall k :: 0 <= k < |r| ==>
                 exists i :: FirstUnseen(flat, seen, r[k].id, i) && r[k] == Data(flat[i].0, flat[i].1)
  {
    DedupOrigins(flat, seen);
    DedupDistinct(flat, seen);
  }

  /** Every entry of `r` is the data of the first occurrence of its id, an
      id not in `seen`. */
  ghost predicate FromFirst(flat: seq<(Commit, string)>, seen: set<string>, r: seq<CommitData>)
  {
    forall k :: 0 <= k < |r| ==>
      exists i :: FirstUnseen(flat, seen, r[k].id, i) && r[k] == Data(flat[i].0, flat[i].1)
  }

  lemma {:induction false} DedupOrigins(flat: seq<(Commit, string)>, seen: set<string>)
    ensures FromFirst(flat, seen, Dedup(flat, seen))
    decreases |flat|
  {
    if |flat| > 0 {
      var id0 := flat[0].0.id;
      var r := Dedup(flat, seen);
      if id0 in seen {
        DedupOrigins(flat[1..], seen);
        forall k | 0 <= k < |r|
          ensures exists i :: FirstUnseen(flat, seen, r[k].id, i) && r[k] == Data(flat[i].0, flat[i].1)
        {
          var i :| FirstUnseen(flat[1..], seen, r[k].id, i) && r[k] == Data(flat[1..][i].0, flat[1..][i].1);
          assert FirstUnseen(flat, seen, r[k].id, i + 1);
        }
      } else {
        var rest := Dedup(flat[1..], seen + {id0});
        DedupOrigins(flat[1..], seen + {id0});
        assert r == [Data(flat[0].0, flat[0].1)] + rest;
        forall k | 0 <= k < |r|
          ensures exists i :: FirstUnseen(flat, seen, r[k].id, i) && r[k] == Data(flat[i].0, flat[i].1)
        {
          if k == 0 {
            assert FirstUnseen(flat, seen, r[0].id, 0);
          } else {
            assert r[k] == rest[k - 1];
            var i :| FirstUnseen(flat[1..], seen + {id0}, rest[k - 1].id, i) && rest[k - 1] == Data(flat[1..][i].0, flat[1..][i].1);
            assert FirstUnseen(flat, seen, r[k].id, i + 1);
          }
        }
      }
    }
  }

  /** Every kept id is one not in `seen`. */
  lemma {:induction false} DedupUnseen(flat: seq<(Commit, string)>, seen: set<string>, k: int)
    requires 0 <= k < |Dedup(flat, seen)|
    ensures Dedup(flat, seen)[k].id !in seen
  {
    DedupOrigins(flat, seen);
    var r := Dedup(flat, seen);
    var i :| FirstUnseen(flat, seen, r[k].id, i) && r[k] == Data(flat[i].0, flat[i].1);
  }

  lemma {:induction false} DedupDistinct(flat: seq<(Commit, string)>, seen: set<string>)
    ensures DistinctIds(Dedup(flat, seen))
    decreases |flat|
  {
    if |flat| > 0 {
      var id0 := flat[0].0.id;
      var r := Dedup(flat, seen);
      if id0 in seen {
        DedupDistinct(flat[1..], seen);
      } else {
        var rest := Dedup(flat[1..], seen + {id0});
        DedupDistinct(flat[1..], seen + {id0});
        assert r == [Data(flat[0].0, flat[0].1)] + rest;
        forall a, b | 0 <= a < b < |r|
          ensures r[a].id != r[b].id
        {
          assert r[b] == rest[b - 1];
          if a > 0 {
            assert r[a] == rest[a - 1];
          } else {
            DedupUnseen(flat[1..], seen + {id0}, b - 1);
          }
        }
      }
    }
  }

  /** Every id not seen before is kept. */
  lemma {:induction false} DedupComplete(flat: seq<(Commit, string)>, seen: set<string>, i: int)
    requires 0 <= i < |flat| && flat[i].0.id !in seen
    ensures exists k :: 0 <= k < |Dedup(flat, seen)| && Dedup(flat, seen)[k].id == flat[i].0.id
    decreases |flat|
  {
    var r := Dedup(flat, seen);
    var id0 := flat[0].0.id;
    if i == 0 {
      assert r[0].id == id0;
    } else if id0 in seen {
      DedupComplete(flat[1..], seen, i - 1);
    } else if flat[i].0.id == id0 {
      assert r[0].id == id0;
    } else {
      DedupComplete(flat[1..], seen + {id0}, i - 1);
      var k :| 0 <= k < |Dedup(flat[1..], seen + {id0})| && Dedup(flat[1..], seen + {id0})[k].id == flat[i].0.id;
      assert r[k + 1] == Dedup(flat[1..], seen + {id0})[k];
    }
  }

  /** `commits.values()` in insertion order. */
  function DedupCommits(committers: seq<Committer>): (r: seq<CommitData>)
    ensures DistinctIds(r)
    ensures forall i :: 0 <= i < |Flatten(committers)| ==>
              exists k :: 0 <= k < |r| && r[k].id == Flatten(committers)[i].0.id
  {
    var flat := Flatten(committers);
    DedupSound(flat, {});
    DedupKeepsAll(flat, {});
    Dedup(flat, {})
  }

  /** Every id of `flat` outside `seen` occurs in `r`. */
  predicate KeepsAll(flat: seq<(Commit, string)>, seen: set<string>, r: seq<CommitData>)
  {
    forall i :: 0 <= i < |flat| && flat[i].0.id !in seen ==>
      exists k :: 0 <= k < |r| && r[k].id == flat[i].0.id
  }

  /** Every id of the list that was not seen before is kept. */
  lemma {:induction false} DedupKeepsAll(flat: seq<(Commit, string)>, seen: set<string>)
    ensures KeepsAll(flat, seen, Dedup(flat, seen))
  {
    forall i | 0 <= i < |flat| && flat[i].0.id !in seen
      ensures exists k :: 0 <= k < |Dedup(flat, seen)| && Dedup(flat, seen)[k].id == flat[i].0.id
    {
      DedupComplete(flat, seen, i);
    }
  }

  lemma DedupCommitsSpec(committers: seq<Committer>, flat: seq<(Commit, string)>)
    requires flat == Flatten(committers)
    ensures DistinctIds(DedupCommits(committers))
    ensures forall k :: 0 <= k < |DedupCommits(committers)| ==>
              exists i :: FirstUnseen(flat, {}, DedupCommits(committers)[k].id, i) &&
                          DedupCommits(committers)[k] == Data(flat[i].0, flat[i].1)
    ensures forall i :: 0 <= i < |flat| ==>
              exists k :: 0 <= k < |DedupCommits(committers)| && DedupCommits(committers)[k].id == flat[i].0.id
  {
    DedupSound(flat, {});
    forall i | 0 <= i < |flat|
      ensures exists k :: 0 <= k < |Dedup(flat, {})| && Dedup(flat, {})[k].id == flat[i].0.id
    {
      DedupComplete(flat, {}, i);
      assert exists k :: 0 <= k < |Dedup(flat, {})| && Dedup(flat, {})[k].id == flat[i].0.id;
    }
  }
}

=== FILE: notification_settings.dfy ===
/** The notification-settings serializer
    (src/sentry/api/serializers/models/notification_setting.py): grouping
    settings by target, the nested `type -> scope -> scope id -> provider`
    map it writes, and the validation of such a map back into a set of
    setting tuples. Python dictionaries are insertion-ordered, so the
    nested payload is a sequence of entries at each level. */
module NotificationSettings {
  import opened Wrappers
  import opened NotificationValidators

  // ---------------------------------------------------------------------
  // Last writer wins

  /** `i` is the last position of key `k` in `es`. */
  predicate LastAt<K(==), V>(es: seq<(K, V)>, k: K, i: int)
  {
    0 <= i < |es| && es[i].0 == k && forall j :: i < j < |es| ==> es[j].0 != k
  }

  /** The dictionary `{k: v for k, v in es}` (or a loop of `d[k] = v`):
      every key present in `es`, each with the value of its last
      occurrence. */
  function LastWins<K(!new), V>(es: seq<(K, V)>): (m: map<K, V>)
    ensures forall k :: k in m <==> exists i :: 0 <= i < |es| && es[i].0 == k
    ensures forall k :: k in m ==> exists i :: LastAt(es, k, i) && m[k] == es[i].1
    decreases |es|
  {
    if |es| == 0 then map[]
    else
      var prev := LastWins(es[..|es| - 1]);
      var last := es[|es| - 1];
      assert forall k, i :: k != last.0 && LastAt(es[..|es| - 1], k, i) ==> LastAt(es, k, i);
      assert LastAt(es, last.0, |es| - 1);
      prev[last.0 := last.1]
  }

  /** The value kept for a key is the one written last. */
  lemma LastWinsValue<K(!new), V>(es: seq<(K, V)>, i: int)
    requires 0 <= i < |es| && LastAt(es, es[i].0, i)
    ensures es[i].0 in LastWins(es) && LastWins(es)[es[i].0] == es[i].1
  {
    var m := LastWins(es);
    var j :| LastAt(es, es[i].0, j) && m[es[i].0] == es[j].1;
    assert i == j;
  }

  // ---------------------------------------------------------------------
  // Validation

  /** The dictionary key of a validated setting. */
  datatype Key = Key(typeName: string, scopeType: ScopeType, scopeId: int, provider: string)

  /** The tuple `validate` returns for one setting. */
  datatype SettingTuple = SettingTuple(provider: string, typeName: string, scopeType: ScopeType, scopeId: int, value: string)

  function KeyOf(t: SettingTuple): Key
  {
    Key(t.typeName, t.scopeType, t.scopeId, t.provider)
  }

  /** The payload, level by level. */
  datatype ScopeIdEntry = ScopeIdEntry(scopeId: ScopeId, byProvider: seq<(string, string)>)
  datatype ScopeTypeEntry = ScopeTypeEntry(scopeType: string, byScopeId: seq<ScopeIdEntry>)
  datatype TypeEntry = TypeEntry(typeName: string, byScopeType: seq<ScopeTypeEntry>)

  /** What the walk over the payload collects: every validated setting in
      order, and every validated scope with its id in order. */
  datatype Collected = Collected(entries: seq<(Key, string)>, scopes: seq<(ScopeType, int)>)

  /** What every collected setting satisfies: its parts passed their
      validators, its scope was collected, and a user scope is the user's. */
  predicate Sound(vocab: Vocabulary, user: Option<User>, c: Collected)
  {
    && (forall i :: 0 <= i < |c.entries| ==>
          var (k, v) := c.entries[i];
          && k.typeName in vocab.types && k.provider in vocab.providers
          && v in vocab.values && (k.typeName, v) in vocab.allowed
          && (k.scopeType, k.scopeId) in c.scopes)
    && (forall i :: 0 <= i < |c.scopes| ==> user.Some? && c.scopes[i].0 == UserScope ==> c.scopes[i].1 == user.value.id)
  }

  function Concat(a: Collected, b: Collected): Collected
  {
    Collected(a.entries + b.entries, a.scopes + b.scopes)
  }

  lemma ConcatSound(vocab: Vocabulary, user: Option<User>, a: Collected, b: Collected)
    requires Sound(vocab, user, a) && Sound(vocab, user, b)
    ensures Sound(vocab, user, Concat(a, b))
  {
    var c := Concat(a, b);
    forall i | 0 <= i < |c.entries|
      ensures (c.entries[i].0.scopeType, c.entries[i].0.scopeId) in c.scopes
    {
      if i < |a.entries| {
        assert c.entries[i] == a.entries[i];
      } else {
        assert c.entries[i] == b.entries[i - |a.entries|];
      }
    }
  }

  /** The innermost loop: each provider and then its value is validated,
      in order, and each pair becomes one setting. */
  function ValidateProviders(vocab: Vocabulary, typeName: string, scopeType: ScopeType, scopeId: int, ps: seq<(string, string)>): (r: Result<seq<(Key, string)>, ValidationError>)
    ensures r.Ok? <==> forall i :: 0 <= i < |ps| ==> ps[i].0 in vocab.providers && ValidateValue(vocab, typeName, ps[i].1).Ok?
    ensures r.Ok? ==> (
              && |r.value| == |ps|
              && forall i :: 0 <= i < |ps| ==> r.value[i] == (Key(typeName, scopeType, scopeId, ps[i].0), ps[i].1))
    decreases |ps|
  {
    if |ps| == 0 then Ok([])
    else
      match ValidateProvider(vocab, ps[0].0)
      case Err(e) => Err(e)
      case Ok(provider) =>
        match ValidateValue(vocab, typeName, ps[0].1)
        case Err(e) => Err(e)
        case Ok(value) =>
          match ValidateProviders(vocab, typeName, scopeType, scopeId, ps[1..])
          case Err(e) => Err(e)
          case Ok(rest) =>
            assert forall i :: 1 <= i < |ps| ==> ps[i] == ps[1..][i - 1];
            Ok([(Key(typeName, scopeType, scopeId, provider), value)] + rest)
  }

  /** The settings under one valid scope id, with that scope, are sound. */
  lemma ProvidersSound(vocab: Vocabulary, typeName: string, scopeType: ScopeType, user: Option<User>, scopeId: ScopeId, ps: seq<(string, string)>)
    requires typeName in vocab.types
    requires ValidateScope(scopeId, scopeType, user).Ok?
    requires ValidateProviders(vocab, typeName, scopeType, ValidateScope(scopeId, scopeType, user).value, ps).Ok?
    ensures var id := ValidateScope(scopeId, scopeType, user).value;
            Sound(vocab, user, Collected(ValidateProviders(vocab, typeName, scopeType, id, ps).value, [(scopeType, id)]))
  {
    var id := ValidateScope(scopeId, scopeType, user).value;
    var entries := ValidateProviders(vocab, typeName, scopeType, id, ps).value;
    forall i | 0 <= i < |entries|
      ensures entries[i].0.provider in vocab.providers && entries[i].1 in vocab.values
      ensures (entries[i].0.typeName, entries[i].1) in vocab.allowed
    {
      assert entries[i] == (Key(typeName, scopeType, id, ps[i].0), ps[i].1);
      assert ValidateValue(vocab, typeName, ps[i].1).Ok?;
    }
  }

  /** One scope id passes: the id itself, then every provider and value
      under it. */
  predicate ScopeIdValid(vocab: Vocabulary, typeName: string, scopeType: ScopeType, user: Option<User>, e: ScopeIdEntry)
  {
    && ValidateScope(e.scopeId, scopeType, user).Ok?
    && ValidateProviders(vocab, typeName, scopeType, ValidateScope(e.scopeId, scopeType, user).value, e.byProvider).Ok?
  }

  /** The scope-id loop: each scope id is validated (and a user scope
      becomes the user's id) before its providers. */
  function ValidateScopeIds(vocab: Vocabulary, typeName: string, scopeType: ScopeType, user: Option<User>, ids: seq<ScopeIdEntry>): (r: Result<Collected, ValidationError>)
    requires typeName in vocab.types
    ensures r.Ok? <==> forall i :: 0 <= i < |ids| ==> ScopeIdValid(vocab, typeName, scopeType, user, ids[i])
    ensures r.Ok? ==> Sound(vocab, user, r.value)
    ensures r.Ok? ==> (
              && |r.value.scopes| == |ids|
              && forall i :: 0 <= i < |ids| ==>
                   && ValidateScope(ids[i].scopeId, scopeType, user).Ok?
                   && r.value.scopes[i] == (scopeType, ValidateScope(ids[i].scopeId, scopeType, user).value))
    decreases |ids|
  {
    if |ids| == 0 then Ok(Collected([], []))
    else
      match ValidateScope(ids[0].scopeId, scopeType, user)
      case Err(e) => Err(e)
      case Ok(id) =>
        match ValidateProviders(vocab, typeName, scopeType, id, ids[0].byProvider)
        case Err(e) => Err(e)
        case Ok(entries) =>
          match ValidateScopeIds(vocab, typeName, scopeType, user, ids[1..])
          case Err(e) => Err(e)
          case Ok(rest) =>
            var head := Collected(entries, [(scopeType, id)]);
            ProvidersSound(vocab, typeName, scopeType, user, ids[0].scopeId, ids[0].byProvider);
            ConcatSound(vocab, user, head, rest);
            assert forall i :: 1 <= i < |ids| ==> ids[i] == ids[1..][i - 1];
            Ok(Concat(head, rest))
  }

  /** One scope type passes: its name, then every scope id under it. */
  predicate ScopeTypeValid(vocab: Vocabulary, typeName: string, user: Option<User>, e: ScopeTypeEntry)
    requires typeName in vocab.types
  {
    && ValidateScopeType(vocab, e.scopeType).Ok?
    && ValidateScopeIds(vocab, typeName, ValidateScopeType(vocab, e.scopeType).value, user, e.byScopeId).Ok?
  }

  /** The scope-type loop. */
  function ValidateScopeTypes(vocab: Vocabulary, typeName: string, user: Option<User>, sts: seq<ScopeTypeEntry>): (r: Result<Collected, ValidationError>)
    requires typeName in vocab.types
    ensures r.Ok? <==> forall i :: 0 <= i < |sts| ==> ScopeTypeValid(vocab, typeName, user, sts[i])
    ensures r.Ok? ==> Sound(vocab, user, r.value)
    ensures r.Ok? ==> forall i :: 0 <= i < |sts| ==> ValidateScopeType(vocab, sts[i].scopeType).Ok?
    decreases |sts|
  {
    if |sts| == 0 then Ok(Collected([], []))
    else
      match ValidateScopeType(vocab, sts[0].scopeType)
      case Err(e) => Err(e)
      case Ok(scopeType) =>
        match ValidateScopeIds(vocab, typeName, scopeType, user, sts[0].byScopeId)
        case Err(e) => Err(e)
        case Ok(head) =>
          match ValidateScopeTypes(vocab, typeName, user, sts[1..])
          case Err(e) => Err(e)
          case Ok(rest) =>
            ConcatSound(vocab, user, head, rest);
            assert forall i :: 1 <= i < |sts| ==> sts[i] == sts[1..][i - 1];
            Ok(Concat(head, rest))
  }

  /** The outer loop over setting types. */
  function ValidateTypes(vocab: Vocabulary, user: Option<User>, data: seq<TypeEntry>): (r: Result<Collected, ValidationError>)
    ensures r.Ok? <==> forall i :: 0 <= i < |data| ==>
              && data[i].typeName in vocab.types
              && ValidateScopeTypes(vocab, data[i].typeName, user, data[i].byScopeType).Ok?
    ensures r.Ok? ==> Sound(vocab, user, r.value)
    ensures r.Ok? ==> forall i :: 0 <= i < |data| ==> data[i].typeName in vocab.types
    decreases |data|
  {
    if |data| == 0 then Ok(Collected([], []))
    else
      match ValidateType(vocab, data[0].typeName)
      case Err(e) => Err(e)
      case Ok(typeName) =>
        match ValidateScopeTypes(vocab, typeName, user, data[0].byScopeType)
        case Err(e) => Err(e)
        case Ok(head) =>
          match ValidateTypes(vocab, user, data[1..])
          case Err(e) => Err(e)
          case Ok(rest) =>
            ConcatSound(vocab, user, head, rest);
            assert forall i :: 1 <= i < |data| ==> data[i] == data[1..][i - 1];
            Ok(Concat(head, rest))
  }

  /** The ids collected under one scope type, as a set. */
  function IdsIn(scopes: seq<(ScopeType, int)>, scopeType: ScopeType): (ids: set<int>)
    ensures forall id :: id in ids <==> (scopeType, id) in scopes
  {
    set i | 0 <= i < |scopes| && scopes[i].0 == scopeType :: scopes[i].1
  }

  /** The settings dictionary turned into the returned set of tuples. */
  function Tuples(m: map<Key, string>): (r: set<SettingTuple>)
    ensures forall k :: k in m ==> SettingTuple(k.provider, k.typeName, k.scopeType, k.scopeId, m[k]) in r
    ensures forall t :: t in r ==> KeyOf(t) in m && m[KeyOf(t)] == t.value
  {
    set k | k in m :: SettingTuple(k.provider, k.typeName, k.scopeType, k.scopeId, m[k])
  }

  /** No two returned tuples share a key: one tuple per distinct
      `(type, scope_type, scope_id, provider)`. */
  lemma TuplesUnique(m: map<Key, string>, a: SettingTuple, b: SettingTuple)
    requires a in Tuples(m) && b in Tuples(m) && KeyOf(a) == KeyOf(b)
    ensures a == b
  {
  }

  /** `NotificationSettingsSerializer.validate`. An empty payload is
      refused; any failing validator fails the whole call; the project
      ids and the organization ids collected are looked up, projects
      first; the result holds one tuple per key with the last value
      written for it. */
  function Validate(vocab: Vocabulary, data: seq<TypeEntry>, user: Option<User>, team: Option<Team>): (r: Result<set<SettingTuple>, ValidationError>)
    ensures |data| == 0 ==> r == Err(PayloadRequired)
    ensures ValidateTypes(vocab, user, data).Err? ==> r.Err?
    ensures r.Ok? <==>
              && |data| > 0
              && ValidateTypes(vocab, user, data).Ok?
              && var c := ValidateTypes(vocab, user, data).value;
              && ValidateProjects(IdsIn(c.scopes, ProjectScope), user, team).Ok?
              && ValidateOrganizations(IdsIn(c.scopes, OrganizationScope), user, team).Ok?
    ensures r.Ok? && ValidateTypes(vocab, user, data).Ok? ==> TuplesFrom(ValidateTypes(vocab, user, data).value.entries, r.value)
  {
    if |data| == 0 then Err(PayloadRequired)
    else
      match ValidateTypes(vocab, user, data)
      case Err(e) => Err(e)
      case Ok(c) => ValidateCollected(c, user, team)
  }

  /** The second half of `validate`: the collected project ids, then the
      organization ids, are looked up, and the entries become tuples. */
  function ValidateCollected(c: Collected, user: Option<User>, team: Option<Team>): (r: Result<set<SettingTuple>, ValidationError>)
    ensures r.Ok? <==>
              && ValidateProjects(IdsIn(c.scopes, ProjectScope), user, team).Ok?
              && ValidateOrganizations(IdsIn(c.scopes, OrganizationScope), user, team).Ok?
    ensures r.Ok? ==> TuplesFrom(c.entries, r.value)
  {
    match ValidateProjects(IdsIn(c.scopes, ProjectScope), user, team)
    case Err(e) => Err(e)
    case Ok(_) =>
      match ValidateOrganizations(IdsIn(c.scopes, OrganizationScope), user, team)
      case Err(e) => Err(e)
      case Ok(_) =>
        TuplesOfEntries(c.entries);
        Ok(Tuples(LastWins(c.entries)))
  }

  /** `r` holds, for each key written in `entries`, a tuple with the last
      value written for it, and nothing else. */
  ghost predicate TuplesFrom(entries: seq<(Key, string)>, r: set<SettingTuple>)
  {
    && (forall t :: t in r ==> exists i :: LastAt(entries, KeyOf(t), i) && entries[i].1 == t.value)
    && (forall i :: 0 <= i < |entries| ==> exists t :: t in r && KeyOf(t) == entries[i].0)
  }

  lemma TuplesOfEntries(entries: seq<(Key, string)>)
    ensures TuplesFrom(entries, Tuples(LastWins(entries)))
  {
    var m := LastWins(entries);
    var r := Tuples(m);
    forall t | t in r
      ensures exists i :: LastAt(entries, KeyOf(t), i) && entries[i].1 == t.value
    {
      assert KeyOf(t) in m && m[KeyOf(t)] == t.value;
      var i :| LastAt(entries, KeyOf(t), i) && m[KeyOf(t)] == entries[i].1;
    }
    forall i | 0 <= i < |entries|
      ensures exists t :: t in r && KeyOf(t) == entries[i].0
    {
      var k := entries[i].0;
      assert k in m;
      var t := SettingTuple(k.provider, k.typeName, k.scopeType, k.scopeId, m[k]);
      assert t in r && KeyOf(t) == k;
    }
  }

  /** Every returned tuple passed its validators, and with a user given
      every user-scope tuple carries the user's id. */
  lemma ValidateSound(vocab: Vocabulary, data: seq<TypeEntry>, user: Option<User>, team: Option<Team>, t: SettingTuple)
    requires Validate(vocab, data, user, team).Ok? && t in Validate(vocab, data, user, team).value
    ensures t.typeName in vocab.types && t.provider in vocab.providers
    ensures t.value in vocab.values && (t.typeName, t.value) in vocab.allowed
    ensures user.Some? && t.scopeType == UserScope ==> t.scopeId == user.value.id
    ensures t.scopeType == ProjectScope ==> t.scopeId in ValidateProjects(IdsIn(ValidateTypes(vocab, user, data).value.scopes, ProjectScope), user, team).value
    ensures t.scopeType == OrganizationScope ==>
              t.scopeId in ValidateOrganizations(IdsIn(ValidateTypes(vocab, user, data).value.scopes, OrganizationScope), user, team).value
  {
    var c := ValidateTypes(vocab, user, data).value;
    var i :| LastAt(c.entries, KeyOf(t), i) && c.entries[i].1 == t.value;
    assert (c.entries[i].0.scopeType, c.entries[i].0.scopeId) in c.scopes;
    var j :| 0 <= j < |c.scopes| && c.scopes[j] == (t.scopeType, t.scopeId);
    assert user.Some? && c.scopes[j].0 == UserScope ==> c.scopes[j].1 == user.value.id;
  }

  // ---------------------------------------------------------------------
  // Serialization

  /** A stored notification setting, its enumerations already as text. */
  datatype Setting = Setting(targetId: int, typeName: string, scope: string, scopeIdentifier: int, provider: string, value: string)

  type Nested = map<string, map<string, map<int, map<string, string>>>>

  /** The path `data[type][scope][scope_id][provider]`. */
  datatype Path = Path(typeName: string, scope: string, scopeIdentifier: int, provider: string)

  function PathOf(s: Setting): Path
  {
    Path(s.typeName, s.scope, s.scopeIdentifier, s.provider)
  }

  /** Following a path through the nested dictionary. */
  function Lookup(d: Nested, p: Path): Option<string>
  {
    if p.typeName in d && p.scope in d[p.typeName] && p.scopeIdentifier in d[p.typeName][p.scope]
       && p.provider in d[p.typeName][p.scope][p.scopeIdentifier]
    then Some(d[p.typeName][p.scope][p.scopeIdentifier][p.provider])
    else None
  }

  /** One assignment through the `defaultdict`s: missing levels start
      empty. */
  function Assign(d: Nested, s: Setting): (r: Nested)
    ensures Lookup(r, PathOf(s)) == Some(s.value)
    ensures forall p :: p != PathOf(s) ==> Lookup(r, p) == Lookup(d, p)
  {
    var byScope := if s.typeName in d then d[s.typeName] else map[];
    var byId := if s.scope in byScope then byScope[s.scope] else map[];
    var byProvider := if s.scopeIdentifier in byId then byId[s.scopeIdentifier] else map[];
    d[s.typeName := byScope[s.scope := byId[s.scopeIdentifier := byProvider[s.provider := s.value]]]]
  }

  /** `NotificationSettingsSerializer.serialize`: the settings assigned in
      order. */
  function Serialize(settings: seq<Setting>): (r: Nested)
    ensures forall p :: Lookup(r, p).Some? <==> exists i :: 0 <= i < |settings| && PathOf(settings[i]) == p
    ensures |settings| > 0 ==> Lookup(r, PathOf(settings[|settings| - 1])) == Some(settings[|settings| - 1].value)
    decreases |settings|
  {
    if |settings| == 0 then map[]
    else
      var init := settings[..|settings| - 1];
      assert forall i :: 0 <= i < |init| ==> init[i] == settings[i];
      Assign(Serialize(init), settings[|settings| - 1])
  }

  function PathValues(settings: seq<Setting>): (r: seq<(Path, string)>)
    ensures |r| == |settings| && forall i :: 0 <= i < |settings| ==> r[i] == (PathOf(settings[i]), settings[i].value)
  {
    seq(|settings|, i requires 0 <= i < |settings| => (PathOf(settings[i]), settings[i].value))
  }

  /** The serialized map holds a value at a path exactly when some setting
      has that path, and the value is the last such setting's. */
  lemma {:induction false} SerializeLastWins(settings: seq<Setting>, p: Path)
    ensures Lookup(Serialize(settings), p) ==
              (var m := LastWins(PathValues(settings)); if p in m then Some(m[p]) else None)
    decreases |settings|
  {
    if |settings| > 0 {
      var init := settings[..|settings| - 1];
      SerializeLastWins(init, p);
      assert PathValues(init) == PathValues(settings)[..|settings| - 1];
    }
  }

  // ---------------------------------------------------------------------
  // Grouping by target

  /** A user or team that may own settings. */
  datatype Target = Target(actorId: int, id: int)

  /** `targets[i]` is the last target listed for actor `a`. */
  predicate LastOfActor(targets: seq<Target>, a: int, i: int)
  {
    0 <= i < |targets| && targets[i].actorId == a && forall j :: i < j < |targets| ==> targets[j].actorId != a
  }

  /** The `(actor_id, target)` pairs the comprehension iterates. */
  function ActorPairs(targets: seq<Target>): (ps: seq<(int, Target)>)
    ensures |ps| == |targets|
    ensures forall i :: 0 <= i < |ps| ==> ps[i] == (targets[i].actorId, targets[i])
  {
    seq(|targets|, i requires 0 <= i < |targets| => (targets[i].actorId, targets[i]))
  }

  /** The last pair for an actor is the pair of its last target. */
  lemma ActorPairsLast(targets: seq<Target>, a: int, i: int)
    ensures LastAt(ActorPairs(targets), a, i) <==> LastOfActor(targets, a, i)
  {
    var ps := ActorPairs(targets);
    assert forall j :: 0 <= j < |ps| ==> ps[j].0 == targets[j].actorId;
  }

  /** `actor_mapping`: targets by actor id, the last one listed winning. */
  function ActorMapping(targets: seq<Target>): (m: map<int, Target>)
    ensures forall a :: a in m ==> m[a].actorId == a
    ensures forall i :: 0 <= i < |targets| ==> targets[i].actorId in m
    ensures forall a :: a in m <==> exists i :: 0 <= i < |targets| && targets[i].actorId == a
    ensures forall a :: a in m ==> exists i :: LastOfActor(targets, a, i) && m[a] == targets[i]
  {
    var ps := ActorPairs(targets);
    var m := LastWins(ps);
    forall a | a in m
      ensures exists i :: LastOfActor(targets, a, i) && m[a] == targets[i]
    {
      var i :| LastAt(ps, a, i) && m[a] == ps[i].1;
      ActorPairsLast(targets, a, i);
    }
    forall a | exists i :: 0 <= i < |targets| && targets[i].actorId == a
      ensures a in m
    {
      var i :| 0 <= i < |targets| && targets[i].actorId == a;
      assert ps[i].0 == a;
    }
    m
  }

  /** `actor_mapping.get(setting.target_id)`. */
  function TargetOf(actors: map<int, Target>, s: Setting): Option<Target>
  {
    if s.targetId in actors then Some(actors[s.targetId]) else None
  }

  /** The settings, in order, that belong to one target. */
  function SettingsOf(actors: map<int, Target>, settings: seq<Setting>, target: Option<Target>): (r: seq<Setting>)
    ensures forall i :: 0 <= i < |r| ==> TargetOf(actors, r[i]) == target
    ensures forall i :: 0 <= i < |settings| && TargetOf(actors, settings[i]) == target ==> settings[i] in r
    decreases |settings|
  {
    if |settings| == 0 then []
    else
      var init := SettingsOf(actors, settings[..|settings| - 1], target);
      var last := settings[|settings| - 1];
      assert forall i :: 0 <= i < |settings| - 1 ==> settings[i] == settings[..|settings| - 1][i];
      if TargetOf(actors, last) == target then init + [last] else init
  }

  /** The loop of `get_attrs`: each setting appended to its target's
      list. */
  function Group(actors: map<int, Target>, settings: seq<Setting>): (r: map<Option<Target>, seq<Setting>>)
    ensures forall t :: t in r ==> forall i :: 0 <= i < |r[t]| ==> TargetOf(actors, r[t][i]) == t
    ensures forall t :: t in r ==> |r[t]| > 0
    decreases |settings|
  {
    if |settings| == 0 then map[]
    else
      var prev := Group(actors, settings[..|settings| - 1]);
      var last := settings[|settings| - 1];
      var key := TargetOf(actors, last);
      prev[key := (if key in prev then prev[key] else []) + [last]]
  }

  /** `get_attrs` over the settings the query returned: the targets with at
      least one setting, each with its own settings in order. */
  function GetAttrs(targets: seq<Target>, settings: seq<Setting>): (r: map<Option<Target>, seq<Setting>>)
    ensures forall t :: t in r <==> exists i :: 0 <= i < |settings| && TargetOf(ActorMapping(targets), settings[i]) == t
    ensures forall t :: t in r ==> r[t] == SettingsOf(ActorMapping(targets), settings, t)
  {
    GroupIsFilter(ActorMapping(targets), settings);
    Group(ActorMapping(targets), settings)
  }

  /** Grouping by appending agrees with filtering per target. */
  lemma {:induction false} GroupIsFilter(actors: map<int, Target>, settings: seq<Setting>)
    ensures forall t :: t in Group(actors, settings) <==> exists i :: 0 <= i < |settings| && TargetOf(actors, settings[i]) == t
    ensures forall t :: t in Group(actors, settings) ==> Group(actors, settings)[t] == SettingsOf(actors, settings, t)
    ensures forall t :: t !in Group(actors, settings) ==> SettingsOf(actors, settings, t) == []
    decreases |settings|
  {
    if |settings| > 0 {
      var init := settings[..|settings| - 1];
      GroupIsFilter(actors, init);
      assert forall i :: 0 <= i < |init| ==> init[i] == settings[i];
    }
  }
}

=== FILE: notification_validators.dfy ===
/** Parameter validation for notification settings
    (src/sentry/api/validators/notifications.py). The enumerations a text
    may name (setting types, scope types, providers, option values) and the
    per-type value check are not part of this model: they come in as a
    `Vocabulary`. Users and teams are reduced to the ids they expose. */
module NotificationValidators {
  import opened Wrappers
  import opened Text

  datatype ScopeType = UserScope | OrganizationScope | ProjectScope | TeamScope

  /** What the enumerations accept. `scopeTypeOf` is the scope-type
      enumeration's constructor from text, defined on the names it knows;
      `allowed` holds the `(type, value)` pairs the per-type value check
      accepts. */
  datatype Vocabulary = Vocabulary(
    types: set<string>,
    scopeTypeOf: map<string, ScopeType>,
    providers: set<string>,
    values: set<string>,
    allowed: set<(string, string)>)

  datatype Organization = Organization(id: int)
  datatype Project = Project(id: int)

  /** The requesting user: its id, and the organizations and projects it
      can see. */
  datatype User = User(id: int, organizations: set<Organization>, projects: set<Project>)

  /** A team: its organization and its projects. */
  datatype Team = Team(organization: Organization, projects: set<Project>)

  /** A scope id as it arrives: a number, or text to be parsed. */
  datatype ScopeId = IntId(n: int) | TextId(text: string)

  datatype ValidationError =
    | PayloadRequired
    | UnknownType(typeName: string)
    | UnknownScopeType(scopeTypeName: string)
    | InvalidId(scopeId: ScopeId)
    | UnknownProvider(provider: string)
    | UnknownValue(value: string)
    | InvalidValue(typeName: string, value: string)
    | InvalidOrganizationIds(missingOrganizations: set<int>)
    | InvalidProjectIds(missingProjects: set<int>)
    | NoUserOrTeam   // a plain exception, not a parameter error

  /** `intersect_dict_set`: the entries of `d` whose key is in `s`,
      values untouched. */
  function IntersectDictSet<V>(d: map<int, V>, s: set<int>): (r: map<int, V>)
    ensures r.Keys == d.Keys * s
    ensures forall k :: k in r ==> r[k] == d[k]
  {
    map k | k in d && k in s :: d[k]
  }

  /** The organizations the user, else the team, can see, by id. */
  function OrganizationsById(user: Option<User>, team: Option<Team>): (r: Option<map<int, Organization>>)
    ensures r.None? <==> user.None? && team.None?
    ensures r.Some? ==> forall i :: i in r.value ==> r.value[i].id == i
  {
    if user.Some? then Some(map o | o in user.value.organizations :: o.id := o)
    else if team.Some? then Some(map[team.value.organization.id := team.value.organization])
    else None
  }

  /** The projects the user, else the team, can see, by id. */
  function ProjectsById(user: Option<User>, team: Option<Team>): (r: Option<map<int, Project>>)
    ensures r.None? <==> user.None? && team.None?
    ensures r.Some? ==> forall i :: i in r.value ==> r.value[i].id == i
  {
    if user.Some? then Some(map p | p in user.value.projects :: p.id := p)
    else if team.Some? then Some(map p | p in team.value.projects :: p.id := p)
    else None
  }

  /** `validate_organizations`: nothing asked for needs nobody; otherwise
      every requested id must be visible, and exactly the requested ones
      come back. */
  function ValidateOrganizations(ids: set<int>, user: Option<User>, team: Option<Team>): (r: Result<map<int, Organization>, ValidationError>)
    ensures ids == {} ==> r == Ok(map[])
    ensures r.Ok? <==> ids == {} || (OrganizationsById(user, team).Some? && ids <= OrganizationsById(user, team).value.Keys)
    ensures ids != {} && user.None? && team.None? ==> r == Err(NoUserOrTeam)
    ensures r.Ok? ==> r.value.Keys == ids && forall i :: i in r.value ==> r.value[i].id == i
    ensures r.Err? && r.error != NoUserOrTeam ==>
              var available := OrganizationsById(user, team).value;
              r.error == InvalidOrganizationIds(ids - available.Keys) && ids - available.Keys != {}
  {
    if ids == {} then Ok(map[])
    else
      var available :- OrganizationsById(user, team).ToResult(NoUserOrTeam);
      var missing := ids - available.Keys;
      if missing != {} then Err(InvalidOrganizationIds(missing))
      else
        assert forall i :: i in ids ==> i !in missing;
        Ok(IntersectDictSet(available, ids))
  }

  /** `validate_projects`, the same rule over projects. */
  function ValidateProjects(ids: set<int>, user: Option<User>, team: Option<Team>): (r: Result<map<int, Project>, ValidationError>)
    ensures ids == {} ==> r == Ok(map[])
    ensures r.Ok? <==> ids == {} || (ProjectsById(user, team).Some? && ids <= ProjectsById(user, team).value.Keys)
    ensures ids != {} && user.None? && team.None? ==> r == Err(NoUserOrTeam)
    ensures r.Ok? ==> r.value.Keys == ids && forall i :: i in r.value ==> r.value[i].id == i
    ensures r.Err? && r.error != NoUserOrTeam ==>
              var available := ProjectsById(user, team).value;
              r.error == InvalidProjectIds(ids - available.Keys) && ids - available.Keys != {}
  {
    if ids == {} then Ok(map[])
    else
      var available :- ProjectsById(user, team).ToResult(NoUserOrTeam);
      var missing := ids - available.Keys;
      if missing != {} then Err(InvalidProjectIds(missing))
      else
        assert forall i :: i in ids ==> i !in missing;
        Ok(IntersectDictSet(available, ids))
  }

  /** A request succeeds exactly when it is empty, or an actor is given
      and sees every requested organization. */
  lemma ValidateOrganizationsSucceeds(ids: set<int>, user: Option<User>, team: Option<Team>)
    ensures ValidateOrganizations(ids, user, team).Ok? <==>
              ids == {} || (OrganizationsById(user, team).Some? && ids <= OrganizationsById(user, team).value.Keys)
  {
  }

  /** A request succeeds exactly when it is empty, or an actor is given
      and sees every requested project. */
  lemma ValidateProjectsSucceeds(ids: set<int>, user: Option<User>, team: Option<Team>)
    ensures ValidateProjects(ids, user, team).Ok? <==>
              ids == {} || (ProjectsById(user, team).Some? && ids <= ProjectsById(user, team).value.Keys)
  {
  }

  /** `validate_type`. */
  function ValidateType(vocab: Vocabulary, name: string): (r: Result<string, ValidationError>)
    ensures r.Ok? <==> name in vocab.types
    ensures r.Ok? ==> r.value == name
    ensures r.Err? ==> r.error == UnknownType(name)
  {
    if name in vocab.types then Ok(name) else Err(UnknownType(name))
  }

  /** `validate_provider`. */
  function ValidateProvider(vocab: Vocabulary, name: string): (r: Result<string, ValidationError>)
    ensures r.Ok? <==> name in vocab.providers
    ensures r.Ok? ==> r.value == name
    ensures r.Err? ==> r.error == UnknownProvider(name)
  {
    if name in vocab.providers then Ok(name) else Err(UnknownProvider(name))
  }

  /** `validate_scope_type`. */
  function ValidateScopeType(vocab: Vocabulary, name: string): (r: Result<ScopeType, ValidationError>)
    ensures r.Ok? <==> name in vocab.scopeTypeOf
    ensures r.Ok? ==> r.value == vocab.scopeTypeOf[name]
    ensures r.Err? ==> r.error == UnknownScopeType(name)
  {
    if name in vocab.scopeTypeOf then Ok(vocab.scopeTypeOf[name])
    else Err(UnknownScopeType(name))
  }

  /** `validate_value`: first a known value, then one the type allows. */
  function ValidateValue(vocab: Vocabulary, typeName: string, value: string): (r: Result<string, ValidationError>)
    ensures r.Ok? <==> value in vocab.values && (typeName, value) in vocab.allowed
    ensures r.Ok? ==> r.value == value
    ensures value !in vocab.values ==> r == Err(UnknownValue(value))
  {
    if value !in vocab.values then Err(UnknownValue(value))
    else if (typeName, value) !in vocab.allowed then Err(InvalidValue(typeName, value))
    else Ok(value)
  }

  /** An optional argument as Python tests it: absent or empty text is
      "not given". */
  predicate Given(s: Option<string>)
  {
    s.Some? && s.value != ""
  }

  /** `validate_type_option`: no type for absent or empty text. */
  function ValidateTypeOption(vocab: Vocabulary, name: Option<string>): (r: Result<Option<string>, ValidationError>)
    ensures !Given(name) ==> r == Ok(None)
    ensures Given(name) ==> (r.Ok? <==> name.value in vocab.types) && (r.Ok? ==> r.value == name)
  {
    if Given(name) then
      var t :- ValidateType(vocab, name.value);
      Ok(Some(t))
    else Ok(None)
  }

  /** `validate_provider_option`: no provider for absent or empty text. */
  function ValidateProviderOption(vocab: Vocabulary, name: Option<string>): (r: Result<Option<string>, ValidationError>)
    ensures !Given(name) ==> r == Ok(None)
    ensures Given(name) ==> (r.Ok? <==> name.value in vocab.providers) && (r.Ok? ==> r.value == name)
  {
    if Given(name) then
      var p :- ValidateProvider(vocab, name.value);
      Ok(Some(p))
    else Ok(None)
  }

  /** `int(scope_id)` on a number or on a decimal literal. */
  function ScopeIdValue(id: ScopeId): (r: Option<int>)
    ensures id.IntId? ==> r == Some(id.n)
    ensures id.TextId? ==> r == ParseInt(id.text)
  {
    match id
    case IntId(n) => Some(n)
    case TextId(text) => ParseInt(text)
  }

  /** `validate_scope`: a user scope with a user given is always that
      user's id, whatever id was passed; any other scope id must parse. */
  function ValidateScope(id: ScopeId, scopeType: ScopeType, user: Option<User>): (r: Result<int, ValidationError>)
    ensures user.Some? && scopeType == UserScope ==> r == Ok(user.value.id)
    ensures !(user.Some? && scopeType == UserScope) ==>
              (r.Ok? <==> ScopeIdValue(id).Some?) && (r.Ok? ==> r.value == ScopeIdValue(id).value)
  {
    if user.Some? && scopeType == UserScope then Ok(user.value.id)
    else ScopeIdValue(id).ToResult(InvalidId(id))
  }

  /** The text of a number is accepted back as that number, so ids the
      serializer writes validate to themselves. */
  lemma ValidateScopeText(n: int, scopeType: ScopeType, user: Option<User>)
    requires !(user.Some? && scopeType == UserScope)
    ensures ValidateScope(TextId(IntText(n)), scopeType, user) == Ok(n)
  {
    ParseIntText(n);
  }
}

=== FILE: text.dfy ===
/** String helpers the Python code gets from its standard library:
    `str.split(sep)`, `sep.join(parts)`, the substring test `a in b`,
    `int(text)`, `strip()` and `str(n)`. */
module Text {
  import opened Wrappers

  /** `s.split(sep)` for a one-character separator: always at least one
      part, and an empty part on either side of a leading or trailing
      separator. */
  function Split(s: string, sep: char): (parts: seq<string>)
    ensures |parts| >= 1
    ensures forall i :: 0 <= i < |parts| ==> sep !in parts[i]
    decreases |s|
  {
    if |s| == 0 then [""]
    else if s[0] == sep then [""] + Split(s[1..], sep)
    else
      var rest := Split(s[1..], sep);
      [[s[0]] + rest[0]] + rest[1..]
  }

  /** `sep.join(parts)`. */
  function Join(parts: seq<string>, sep: string): string
  {
    if |parts| == 0 then ""
    else if |parts| == 1 then parts[0]
    else parts[0] + sep + Join(parts[1..], sep)
  }

  /** Joining the parts of a split with the same separator gives back the
      original text. */
  lemma {:induction false} JoinSplit(s: string, sep: char)
    ensures Join(Split(s, sep), [sep]) == s
    decreases |s|
  {
    if |s| == 0 {
    } else if s[0] == sep {
      JoinSplit(s[1..], sep);
      assert s == [sep] + s[1..];
    } else {
      var rest := Split(s[1..], sep);
      JoinSplit(s[1..], sep);
      if |rest| == 1 {
        assert s == [s[0]] + s[1..];
      } else {
        assert Join(rest, [sep]) == rest[0] + [sep] + Join(rest[1..], [sep]);
        assert s == [s[0]] + s[1..];
      }
    }
  }

  /** The first part of a split is the text before the first separator. */
  lemma {:induction false} SplitFirst(s: string, sep: char)
    ensures Split(s, sep)[0] <= s
    ensures |Split(s, sep)[0]| < |s| ==> s[|Split(s, sep)[0]|] == sep
    decreases |s|
  {
    if |s| > 0 && s[0] != sep {
      SplitFirst(s[1..], sep);
    }
  }

  /** Python's `needle in haystack` on two strings. */
  predicate IsSubstring(needle: string, haystack: string)
    decreases |haystack|
  {
    needle <= haystack || (|haystack| > 0 && IsSubstring(needle, haystack[1..]))
  }

  predicate IsDigit(c: char) { '0' <= c <= '9' }

  function DigitValue(c: char): (d: nat)
    requires IsDigit(c)
    ensures d < 10
  {
    (c as int) - ('0' as int)
  }

  function DigitChar(d: nat): (c: char)
    requires d < 10
    ensures IsDigit(c) && DigitValue(c) == d
  {
    (('0' as int) + d) as char
  }

  /** The value of a non-empty run of decimal digits. */
  function DigitsValue(s: string): nat
    requires forall i :: 0 <= i < |s| ==> IsDigit(s[i])
  {
    if |s| == 0 then 0
    else DigitsValue(s[..|s| - 1]) * 10 + DigitValue(s[|s| - 1])
  }

  predicate AllDigits(s: string)
  {
    |s| > 0 && forall i :: 0 <= i < |s| ==> IsDigit(s[i])
  }

  /** `c.isspace()`: the characters Python's `str.strip()` and `int()`
      treat as whitespace. */
  predicate IsSpace(c: char)
  {
    || c == ' ' || '\t' <= c <= '\r' || '\U{1C}' <= c <= '\U{1F}'
    || c == '\U{85}' || c == '\U{A0}' || c == '\U{1680}'
    || '\U{2000}' <= c <= '\U{200A}' || c == '\U{2028}' || c == '\U{2029}'
    || c == '\U{202F}' || c == '\U{205F}' || c == '\U{3000}'
  }

  predicate AllSpaces(s: string)
  {
    forall i :: 0 <= i < |s| ==> IsSpace(s[i])
  }

  /** `s.lstrip()`: the suffix left after the leading whitespace. */
  function TrimStart(s: string): (r: string)
    ensures |r| <= |s|
    ensures |r| > 0 ==> !IsSpace(r[0])
    decreases |s|
  {
    if |s| > 0 && IsSpace(s[0]) then TrimStart(s[1..]) else s
  }

  /** `s.rstrip()`: the prefix left before the trailing whitespace. */
  function TrimEnd(s: string): (r: string)
    ensures |r| <= |s|
    ensures |r| > 0 ==> !IsSpace(r[|r| - 1])
    decreases |s|
  {
    if |s| > 0 && IsSpace(s[|s| - 1]) then TrimEnd(s[..|s| - 1]) else s
  }

  /** `lstrip` removes exactly a run of whitespace from the front. */
  lemma {:induction false} TrimStartSound(s: string)
    ensures TrimStart(s) == s[|s| - |TrimStart(s)|..]
    ensures AllSpaces(s[..|s| - |TrimStart(s)|])
    decreases |s|
  {
    if |s| > 0 && IsSpace(s[0]) {
      TrimStartSound(s[1..]);
      var n := |s| - |TrimStart(s)|;
      assert s[1..][|s| - 1 - |TrimStart(s)|..] == s[n..];
      forall i | 0 <= i < n
        ensures IsSpace(s[..n][i])
      {
        if i > 0 {
          assert s[..n][i] == s[1..][..n - 1][i - 1];
        }
      }
    }
  }

  /** `s.strip()`. */
  function Strip(s: string): string
  {
    TrimEnd(TrimStart(s))
  }

  /** Decimal digits with single underscores between them, the digit part
      Python's `int()` accepts. */
  predicate DigitGroups(s: string)
  {
    && |s| > 0 && IsDigit(s[0]) && IsDigit(s[|s| - 1])
    && (forall i :: 0 <= i < |s| ==> IsDigit(s[i]) || s[i] == '_')
    && (forall i :: 0 <= i < |s| - 1 ==> !DoubleUnderscoreAt(s, i))
  }

  predicate DoubleUnderscoreAt(s: string, i: nat)
    requires i + 1 < |s|
  {
    s[i] == '_' && s[i + 1] == '_'
  }

  /** The digits of `s` with the underscores taken out. */
  function Digits(s: string): (r: string)
    ensures (forall i :: 0 <= i < |s| ==> IsDigit(s[i]) || s[i] == '_') ==>
              forall i :: 0 <= i < |r| ==> IsDigit(r[i])
  {
    if |s| == 0 then ""
    else (if s[0] == '_' then "" else [s[0]]) + Digits(s[1..])
  }

  /** `int(text)` on a string: surrounding whitespace is ignored, then an
      optional sign and decimal digits, single underscores allowed between
      digits; `None` where Python raises `ValueError`. */
  function ParseInt(s: string): (r: Option<int>)
    ensures var t := Strip(s);
            r.Some? <==> (DigitGroups(t) || (|t| > 1 && t[0] in "+-" && DigitGroups(t[1..])))
    ensures var t := Strip(s);
            r.Some? && AllDigits(t) ==> r.value == DigitsValue(t)
  {
    var t := Strip(s);
    if DigitGroups(t) then
      DigitsOfDigits(t);
      Some(DigitsValue(Digits(t)))
    else if |t| > 1 && t[0] == '-' && DigitGroups(t[1..]) then Some(0 - DigitsValue(Digits(t[1..])))
    else if |t| > 1 && t[0] == '+' && DigitGroups(t[1..]) then Some(DigitsValue(Digits(t[1..])))
    else None
  }

  /** Leading whitespace is dropped by `lstrip`. */
  lemma {:induction false} TrimStartSpaces(ws: string, x: string)
    requires AllSpaces(ws)
    ensures TrimStart(ws + x) == TrimStart(x)
    decreases |ws|
  {
    if |ws| > 0 {
      assert (ws + x)[0] == ws[0];
      assert IsSpace(ws[0]);
      assert (ws + x)[1..] == ws[1..] + x;
      assert TrimStart(ws + x) == TrimStart(ws[1..] + x);
      assert AllSpaces(ws[1..]) by {
        forall i | 0 <= i < |ws[1..]|
          ensures IsSpace(ws[1..][i])
        {
          assert ws[1..][i] == ws[i + 1];
        }
      }
      TrimStartSpaces(ws[1..], x);
    } else {
      assert ws + x == x;
    }
  }

  /** Trailing whitespace is dropped by `rstrip`. */
  lemma {:induction false} TrimEndSpaces(x: string, ws: string)
    requires AllSpaces(ws)
    ensures TrimEnd(x + ws) == TrimEnd(x)
    decreases |ws|
  {
    if |ws| > 0 {
      var u := x + ws;
      assert u[|u| - 1] == ws[|ws| - 1];
      assert IsSpace(ws[|ws| - 1]);
      assert u[..|u| - 1] == x + ws[..|ws| - 1];
      assert TrimEnd(u) == TrimEnd(x + ws[..|ws| - 1]);
      var w := ws[..|ws| - 1];
      assert AllSpaces(w) by {
        forall i | 0 <= i < |w|
          ensures IsSpace(w[i])
        {
          assert w[i] == ws[i];
        }
      }
      TrimEndSpaces(x, ws[..|ws| - 1]);
    } else {
      assert x + ws == x;
    }
  }

  /** Text after a non-space character passes through `lstrip` intact. */
  lemma {:induction false} TrimStartAppend(s: string, w: string)
    requires TrimStart(s) != ""
    ensures TrimStart(s + w) == TrimStart(s) + w
    decreases |s|
  {
    assert (s + w)[0] == s[0];
    if IsSpace(s[0]) {
      assert (s + w)[1..] == s[1..] + w;
      TrimStartAppend(s[1..], w);
    }
  }

  /** A text that is only whitespace strips to nothing. */
  lemma AllSpacesStrip(s: string)
    requires AllSpaces(s)
    ensures TrimStart(s) == ""
  {
    TrimStartSpaces(s, "");
    assert s + "" == s;
  }

  /** Whitespace around the text is what `strip` removes. */
  lemma StripPadded(ws: string, s: string, ws2: string)
    requires AllSpaces(ws) && AllSpaces(ws2)
    ensures Strip(ws + s + ws2) == Strip(s)
  {
    assert ws + s + ws2 == ws + (s + ws2);
    TrimStartSpaces(ws, s + ws2);
    if TrimStart(s) != "" {
      TrimStartAppend(s, ws2);
      TrimEndSpaces(TrimStart(s), ws2);
    } else {
      TrimStartSound(s);
      assert s[..|s|] == s;
      TrimStartSpaces(s, ws2);
      AllSpacesStrip(ws2);
    }
  }

  /** Whitespace around the text does not change what `int()` reads. */
  lemma ParseIntPadded(ws: string, s: string, ws2: string)
    requires AllSpaces(ws) && AllSpaces(ws2)
    ensures ParseInt(ws + s + ws2) == ParseInt(s)
  {
    StripPadded(ws, s, ws2);
  }

  /** A text with no whitespace at either end is its own `strip`. */
  lemma StripUnpadded(s: string)
    requires |s| > 0 && !IsSpace(s[0]) && !IsSpace(s[|s| - 1])
    ensures Strip(s) == s
  {
  }

  lemma ParseIntExampleGrouped(s: string)
    requires s == " 1_000\n"
    ensures ParseInt(s) == Some(1000)
  {
    assert s == " " + "1_000" + "\n";
    ParseIntPadded(" ", "1_000", "\n");
    ParseIntThousand();
  }

  lemma ParseIntThousand()
    ensures ParseInt("1_000") == Some(1000)
  {
    DigitNotSpace('1');
    DigitNotSpace('0');
    StripUnpadded("1_000");
    assert DigitGroups("1_000");
    DigitsThousand("1_000", "1000");
  }

  lemma DigitsThousand(s: string, d: string)
    requires s == "1_000" && d == "1000"
    ensures Digits(s) == d
    ensures DigitsValue(d) == 1000
  {
    DigitsThousandText(s);
    DigitsValueThousand(d);
  }

  lemma DigitsThousandText(s: string)
    requires s == "1_000"
    ensures Digits(s) == "1000"
  {
    var t := s[1..];
    var u := t[1..];
    assert s[0] == '1' && t[0] == '_' && u == "000";
    DigitsOfDigits(u);
    assert Digits(t) == Digits(u);
    assert Digits(s) == "1" + u;
  }

  lemma DigitsValueThousand(d: string)
    requires d == "1000"
    ensures DigitsValue(d) == 1000
  {
    var d3 := d[..3];
    var d2 := d3[..2];
    var d1 := d2[..1];
    assert d3 == "100" && d2 == "10" && d1 == "1";
    assert DigitsValue(d1) == 1;
    assert DigitsValue(d2) == 10;
    assert DigitsValue(d3) == 100;
  }

  lemma ParseIntExampleRejected()
    ensures ParseInt("1__0") == None
    ensures ParseInt("_1") == None
    ensures ParseInt("- 1") == None
  {
    StripUnpadded("1__0");
    assert !DigitGroups("1__0") by {
      assert DoubleUnderscoreAt("1__0", 1);
    }
    StripUnpadded("_1");
    StripUnpadded("- 1");
    assert "- 1"[1..] == " 1";
  }

  /** Python's reading of a few texts: padding and single underscores are
      accepted, as are leading zeros; a doubled or leading underscore, a
      space after the sign and blank text are not. */
  lemma ParseIntExamples()
    ensures ParseInt(" 1_000\n") == Some(1000)
    ensures ParseInt("-07") == Some(-7)
    ensures ParseInt("1__0") == None
    ensures ParseInt("_1") == None
    ensures ParseInt("- 1") == None
    ensures ParseInt(" ") == None
  {
    ParseIntExampleGrouped(" 1_000\n");
    ParseIntExampleRejected();
    ParseIntExampleSigned();
    ParseIntExampleBlank();
  }

  lemma ParseIntExampleSigned()
    ensures ParseInt("-07") == Some(-7)
  {
    assert DigitsValue("07") == 7 by {
      assert "07"[..1] == "0";
    }
    assert "-07"[1..] == "07";
    ParseIntSigned("-07");
  }

  lemma ParseIntExampleBlank()
    ensures ParseInt(" ") == None
  {
    AllSpacesStrip(" ");
  }

  /** `str(n)` for a natural number. */
  function NatText(n: nat): (s: string)
    ensures AllDigits(s) && |s| >= 1
  {
    if n < 10 then [DigitChar(n)] else NatText(n / 10) + [DigitChar(n % 10)]
  }

  /** `str(i)` for any integer. */
  function IntText(i: int): string
  {
    if i < 0 then "-" + NatText(-i) else NatText(i)
  }

  lemma {:induction false} NatTextValue(n: nat)
    ensures DigitsValue(NatText(n)) == n
  {
    if n >= 10 {
      var s := NatText(n);
      NatTextValue(n / 10);
      assert s[..|s| - 1] == NatText(n / 10);
    }
  }

  /** Reading back the decimal text of an integer gives the integer. */
  lemma ParseIntText(i: int)
    ensures ParseInt(IntText(i)) == Some(i)
  {
    if i < 0 {
      ParseIntNegativeText(i);
    } else {
      NatTextValue(i);
      ParseIntDigits(NatText(i));
    }
  }

  lemma ParseIntNegativeText(i: int)
    requires i < 0
    ensures ParseInt(IntText(i)) == Some(i)
  {
    NegativeText(i);
    NatTextValue(-i);
    ParseIntNegative(IntText(i), -i);
  }

  /** A minus sign before digits worth `n` reads as `-n`. */
  lemma ParseIntNegative(t: string, n: nat)
    requires |t| > 1 && t[0] == '-' && AllDigits(t[1..]) && DigitsValue(t[1..]) == n
    ensures ParseInt(t) == Some(-(n as int))
  {
    ParseIntSigned(t);
  }

  /** The text of a negative integer is a minus sign before the digits of
      its magnitude. */
  lemma NegativeText(i: int)
    requires i < 0
    ensures |IntText(i)| > 1 && IntText(i)[0] == '-' && IntText(i)[1..] == NatText(-i)
  {
  }

  /** A digit is not whitespace. */
  lemma DigitNotSpace(c: char)
    requires IsDigit(c)
    ensures !IsSpace(c)
  {
  }

  /** A run of digits reads as its decimal value. */
  lemma ParseIntDigits(s: string)
    requires AllDigits(s)
    ensures ParseInt(s) == Some(DigitsValue(s))
  {
    DigitNotSpace(s[0]);
    DigitNotSpace(s[|s| - 1]);
    StripUnpadded(s);
    DigitGroupsOfDigits(s);
  }

  /** A sign followed by a run of digits reads as the signed value. */
  lemma ParseIntSigned(t: string)
    requires |t| > 1 && (t[0] == '-' || t[0] == '+') && AllDigits(t[1..])
    ensures ParseInt(t) == Some(if t[0] == '-' then 0 - DigitsValue(t[1..]) else DigitsValue(t[1..]))
  {
    DigitNotSpace(t[|t| - 1]);
    assert t[|t| - 1] == t[1..][|t| - 2];
    StripUnpadded(t);
    DigitGroupsOfDigits(t[1..]);
    ParseIntUnpadded(t);
  }

  /** A run of digits is a digit group with nothing to take out. */
  lemma DigitGroupsOfDigits(s: string)
    requires AllDigits(s)
    ensures DigitGroups(s) && Digits(s) == s
  {
    DigitsOfDigits(s);
  }

  /** On signed text with no surrounding whitespace `int()` reads the sign
      and the digits after it. */
  lemma ParseIntUnpadded(t: string)
    requires Strip(t) == t
    requires |t| > 1 && (t[0] == '-' || t[0] == '+') && DigitGroups(t[1..])
    ensures ParseInt(t) == Some(if t[0] == '-' then 0 - DigitsValue(Digits(t[1..])) else DigitsValue(Digits(t[1..])))
  {
    assert !IsDigit(t[0]);
  }

  /** Without underscores there is nothing to take out. */
  lemma {:induction false} DigitsOfDigits(s: string)
    ensures (forall i :: 0 <= i < |s| ==> IsDigit(s[i])) ==> Digits(s) == s
  {
    if |s| > 0 && forall i :: 0 <= i < |s| ==> IsDigit(s[i]) {
      assert forall i :: 0 <= i < |s[1..]| ==> s[1..][i] == s[i + 1];
      DigitsOfDigits(s[1..]);
      assert s == [s[0]] + s[1..];
    }
  }

}

=== FILE: usage_stats.dfy ===
/** Usage statistics of an organization
    (src/sentry/api/endpoints/organization_stats_v2.py): outcome rows are
    sorted into per-category time series of buckets aligned to the rollup,
    each bucket keeping one measure per outcome slot. Timestamps are
    integer seconds. */
module UsageStats {
  import opened Wrappers
  import opened Text

  /** `int(a / b)` for a positive divisor: the quotient truncated toward
      zero, not floored. */
  function TruncDiv(a: int, b: int): (q: int)
    requires b > 0
    ensures a >= 0 ==> q >= 0
    ensures a <= 0 ==> q <= 0
  {
    if a >= 0 then a / b else -((-a) / b)
  }

  /** The quotient's multiple lies between zero and the dividend, less
      than one divisor away from it; unlike Euclidean division the result
      for a negative dividend is the negated result for its magnitude. */
  lemma TruncDivBounds(a: int, b: int)
    requires b > 0
    ensures a >= 0 ==> 0 <= TruncDiv(a, b) * b <= a < TruncDiv(a, b) * b + b
    ensures a < 0 ==> TruncDiv(a, b) * b - b < a <= TruncDiv(a, b) * b <= 0
    ensures TruncDiv(-a, b) == -TruncDiv(a, b)
  {
    if a < 0 {
      assert TruncDiv(a, b) * b == -(((-a) / b) * b);
    }
  }

  /** `StatMeasure`. */
  datatype StatMeasure = StatMeasure(quantity: int, timesSeen: int)

  const ZeroMeasure := StatMeasure(0, 0)

  /** `MeasureValue`: the measures of one bucket. */
  datatype MeasureValue = MeasureValue(
    accepted: StatMeasure,
    filtered: StatMeasure,
    overQuota: StatMeasure,
    spikeProtection: StatMeasure,
    other: StatMeasure,
    time: int)

  /** `MeasureValue(time)`: every measure zero. */
  function EmptyMeasureValue(time: int): MeasureValue
  {
    MeasureValue(ZeroMeasure, ZeroMeasure, ZeroMeasure, ZeroMeasure, ZeroMeasure, time)
  }

  /** The outcomes the endpoint tells apart; every other outcome code is
      `OtherOutcome`. */
  datatype Outcome = Accepted | Filtered | RateLimited | OtherOutcome

  /** The data categories with a series; `OtherCategory` has none. */
  datatype Category = Error | Transaction | Attachment | OtherCategory

  /** One row of the outcomes query. The reason column may be null. */
  datatype Row = Row(category: Category, time: int, outcome: Outcome, reason: Option<string>, quantity: int, timesSeen: int)

  datatype StatsError =
    | ZeroRollup          // `int(x / 0)`
    | ReasonNotText       // `None in "smart_rate_limit"` raises TypeError
    | UnknownCategory     // `_GETTERS[category]` raises KeyError
    | UnknownTime(t: int) // `self.values[row["time"]]` raises KeyError

  /** The reasons counted as over quota. */
  predicate OverQuotaReason(reason: Option<string>)
  {
    reason == Some("usage_exceeded") || reason == Some("grace_period")
  }

  /** The dropped-outcome slots. */
  datatype DroppedSlot = OverQuota | SpikeProtection | OtherReason

  /** `rate_limited_reason_mapper`, its names as slots. */
  function RateLimitedReasonMapper(reason: Option<string>): (slot: DroppedSlot)
    ensures slot == OverQuota <==> OverQuotaReason(reason)
    ensures slot == SpikeProtection <==> reason == Some("smart_rate_limit")
  {
    if OverQuotaReason(reason) then OverQuota
    else if reason == Some("smart_rate_limit") then SpikeProtection
    else OtherReason
  }

  /** The name `rate_limited_reason_mapper` returns for a slot. */
  function SlotName(slot: DroppedSlot): string
  {
    match slot
    case OverQuota => "overQuota"
    case SpikeProtection => "spikeProtection"
    case OtherReason => "other"
  }

  /** `rate_limited_reason_mapper` with its string result: the two
      over-quota reasons name "overQuota", exactly "smart_rate_limit" names
      "spikeProtection", every other reason (null included) "other". */
  function RateLimitedReasonName(reason: Option<string>): (name: string)
    ensures name == "overQuota" <==> reason == Some("usage_exceeded") || reason == Some("grace_period")
    ensures name == "spikeProtection" <==> reason == Some("smart_rate_limit")
    ensures name == "other" <==> !OverQuotaReason(reason) && reason != Some("smart_rate_limit")
  {
    SlotName(RateLimitedReasonMapper(reason))
  }

  /** A rate-limited row stored into one dropped slot. Over quota keeps the
      row's `times_seen`; the other two slots store the quantity in its
      place. */
  function StoreDropped(mv: MeasureValue, slot: DroppedSlot, row: Row): (r: MeasureValue)
    ensures slot == OverQuota ==> r == mv.(overQuota := StatMeasure(row.quantity, row.timesSeen))
    ensures slot == SpikeProtection ==> r == mv.(spikeProtection := StatMeasure(row.quantity, row.quantity))
    ensures slot == OtherReason ==> r == mv.(other := StatMeasure(row.quantity, row.quantity))
  {
    match slot
    case OverQuota => mv.(overQuota := StatMeasure(row.quantity, row.timesSeen))
    case SpikeProtection => mv.(spikeProtection := StatMeasure(row.quantity, row.quantity))
    case OtherReason => mv.(other := StatMeasure(row.quantity, row.quantity))
  }

  /** `MeasureValue.update` as written: a rate-limited row whose reason is
      any substring of "smart_rate_limit" lands in spike protection, and a
      null reason fails the substring test. */
  function UpdateAsWritten(mv: MeasureValue, row: Row): (r: Result<MeasureValue, StatsError>)
    ensures r.Err? <==> row.outcome == RateLimited && row.reason.None?
    ensures r.Ok? && row.outcome == RateLimited && !OverQuotaReason(row.reason) &&
            IsSubstring(row.reason.value, "smart_rate_limit") ==>
              r.value.spikeProtection == StatMeasure(row.quantity, row.quantity)
  {
    match row.outcome
    case RateLimited =>
      if OverQuotaReason(row.reason) then Ok(StoreDropped(mv, OverQuota, row))
      else if row.reason.None? then Err(ReasonNotText)
      else if IsSubstring(row.reason.value, "smart_rate_limit") then Ok(StoreDropped(mv, SpikeProtection, row))
      else Ok(StoreDropped(mv, OtherReason, row))
    case Accepted => Ok(mv.(accepted := StatMeasure(row.quantity, row.timesSeen)))
    case Filtered => Ok(mv.(filtered := StatMeasure(row.quantity, row.timesSeen)))
    case OtherOutcome => Ok(mv)
  }

  /** `MeasureValue.update` with the reason routed as
      `rate_limited_reason_mapper` names it. Each row overwrites exactly
      one slot; an outcome other than accepted, filtered or rate limited
      changes nothing. */
  function Update(mv: MeasureValue, row: Row): (r: MeasureValue)
    ensures r.time == mv.time
    ensures row.outcome == Accepted ==> r == mv.(accepted := StatMeasure(row.quantity, row.timesSeen))
    ensures row.outcome == Filtered ==> r == mv.(filtered := StatMeasure(row.quantity, row.timesSeen))
    ensures row.outcome == OtherOutcome ==> r == mv
    ensures row.outcome == RateLimited ==>
              && r.accepted == mv.accepted && r.filtered == mv.filtered
              && (r.overQuota != mv.overQuota ==> RateLimitedReasonMapper(row.reason) == OverQuota)
              && (r.spikeProtection != mv.spikeProtection ==> RateLimitedReasonMapper(row.reason) == SpikeProtection)
              && (r.other != mv.other ==> RateLimitedReasonMapper(row.reason) == OtherReason)
    ensures row.outcome == RateLimited && OverQuotaReason(row.reason) ==>
              r == mv.(overQuota := StatMeasure(row.quantity, row.timesSeen))
    ensures row.outcome == RateLimited && row.reason == Some("smart_rate_limit") ==>
              r == mv.(spikeProtection := StatMeasure(row.quantity, row.quantity))
    ensures row.outcome == RateLimited && !OverQuotaReason(row.reason) && row.reason != Some("smart_rate_limit") ==>
              r == mv.(other := StatMeasure(row.quantity, row.quantity))
  {
    match row.outcome
    case RateLimited => StoreDropped(mv, RateLimitedReasonMapper(row.reason), row)
    case Accepted => mv.(accepted := StatMeasure(row.quantity, row.timesSeen))
    case Filtered => mv.(filtered := StatMeasure(row.quantity, row.timesSeen))
    case OtherOutcome => mv
  }

  /** The two agree on every row except a rate-limited one whose reason
      is null or a substring of "smart_rate_limit" other than itself. */
  lemma UpdateAsWrittenAgrees(mv: MeasureValue, row: Row)
    requires row.outcome == RateLimited ==>
               row.reason.Some? &&
               (OverQuotaReason(row.reason) || row.reason.value == "smart_rate_limit"
                || !IsSubstring(row.reason.value, "smart_rate_limit"))
    ensures UpdateAsWritten(mv, row) == Ok(Update(mv, row))
  {
  }

  /** A rate-limited row with reason "rate_limit" is counted as spike
      protection by the code as written, although the reason mapper names
      it "other". */
  lemma SubstringReasonMisrouted()
    ensures var row := Row(Error, 0, RateLimited, Some("rate_limit"), 3, 1);
            var mv := EmptyMeasureValue(0);
            && RateLimitedReasonMapper(row.reason) == OtherReason
            && UpdateAsWritten(mv, row) == Ok(mv.(spikeProtection := StatMeasure(3, 3)))
            && Update(mv, row) == mv.(other := StatMeasure(3, 3))
  {
    assert "rate_limit" <= "smart_rate_limit"[6..];
    assert IsSubstring("rate_limit", "smart_rate_limit"[6..]);
    assert IsSubstring("rate_limit", "smart_rate_limit"[5..]);
    assert IsSubstring("rate_limit", "smart_rate_limit"[4..]);
    assert IsSubstring("rate_limit", "smart_rate_limit"[3..]);
    assert IsSubstring("rate_limit", "smart_rate_limit"[2..]);
    assert IsSubstring("rate_limit", "smart_rate_limit"[1..]);
  }

  /** The serialized form of a measure. */
  datatype Counts = Counts(quantity: int, timesSeen: int)

  datatype SerializedMeasure = SerializedMeasure(
    accepted: Counts,
    filtered: Counts,
    overQuota: Counts,
    spikeProtection: Counts,
    other: Counts,
    time: int)

  /** `MeasureValue.serialize`: only `accepted` reports its own
      `times_seen`; `filtered` and the dropped slots report the quantity in
      its place. */
  function Serialize(mv: MeasureValue): (s: SerializedMeasure)
    ensures s.time == mv.time
    ensures s.accepted == Counts(mv.accepted.quantity, mv.accepted.timesSeen)
    ensures forall c :: c in [s.filtered, s.overQuota, s.spikeProtection, s.other] ==> c.timesSeen == c.quantity
    ensures s.filtered.quantity == mv.filtered.quantity && s.overQuota.quantity == mv.overQuota.quantity
    ensures s.spikeProtection.quantity == mv.spikeProtection.quantity && s.other.quantity == mv.other.quantity
  {
    SerializedMeasure(
      Counts(mv.accepted.quantity, mv.accepted.timesSeen),
      Counts(mv.filtered.quantity, mv.filtered.quantity),
      Counts(mv.overQuota.quantity, mv.overQuota.quantity),
      Counts(mv.spikeProtection.quantity, mv.spikeProtection.quantity),
      Counts(mv.other.quantity, mv.other.quantity),
      mv.time)
  }

  /** Update overwrites: the last row for a slot decides it, whatever came
      before. */
  lemma UpdateOverwrites(mv: MeasureValue, first: Row, second: Row)
    requires first.outcome == second.outcome && first.outcome != OtherOutcome
    requires RateLimitedReasonMapper(first.reason) == RateLimitedReasonMapper(second.reason)
    ensures Update(Update(mv, first), second) == Update(mv, second)
  {
  }

  // ---------------------------------------------------------------------
  // Buckets

  /** The integers from lo up to but excluding hi. */
  function Range(lo: int, hi: int): (r: seq<int>)
    ensures |r| == if lo <= hi then hi - lo else 0
    ensures forall k :: 0 <= k < |r| ==> r[k] == lo + k
    decreases hi - lo
  {
    if lo >= hi then [] else [lo] + Range(lo + 1, hi)
  }

  lemma {:induction false} MulStrictlyMonotone(a: int, b: int, step: int)
    requires step > 0 && a < b
    ensures a * step < b * step
    decreases b - a
  {
    assert (a + 1) * step == a * step + step;
    if a + 1 < b {
      MulStrictlyMonotone(a + 1, b, step);
    }
  }

  /** Euclidean division by a positive divisor does not decrease. */
  lemma DivMonotone(a: int, b: int, step: int)
    requires step > 0 && a <= b
    ensures a / step <= b / step
  {
    if a / step > b / step {
      MulStrictlyMonotone(b / step, a / step, step);
      assert (b / step + 1) * step == (b / step) * step + step;
      if b / step + 1 < a / step {
        MulStrictlyMonotone(b / step + 1, a / step, step);
      }
    }
  }

  lemma TruncDivMonotone(a: int, b: int, step: int)
    requires step > 0 && a <= b
    ensures TruncDiv(a, step) <= TruncDiv(b, step)
  {
    if a >= 0 {
      DivMonotone(a, b, step);
      assert TruncDiv(a, step) == a / step && TruncDiv(b, step) == b / step;
    } else if b < 0 {
      DivMonotone(-b, -a, step);
      assert TruncDiv(a, step) == -((-a) / step) && TruncDiv(b, step) == -((-b) / step);
    } else {
      assert TruncDiv(a, step) == -((-a) / step) <= 0;
      assert TruncDiv(b, step) == b / step >= 0;
    }
  }

  /** `zerofill({}, start, end, rollup)`: the loop walks
      `range(lo, hi, rollup)` from the start truncated to the rollup,
      `lo`, to one rollup past the end truncated likewise, `hi`; so the
      buckets are the multiples of the rollup from the start's to the
      end's, each an empty measure carrying its time. */
  function Zerofill(start: int, end: int, rollup: nat): (r: Result<seq<MeasureValue>, StatsError>)
    ensures r.Err? <==> rollup == 0
    ensures r.Ok? ==> forall k :: 0 <= k < |r.value| ==> r.value[k] == EmptyMeasureValue(r.value[k].time)
  {
    if rollup == 0 then Err(ZeroRollup)
    else
      var buckets := Range(TruncDiv(start, rollup), TruncDiv(end, rollup) + 1);
      Ok(seq(|buckets|, k requires 0 <= k < |buckets| => EmptyMeasureValue(buckets[k] * rollup)))
  }

  /** Every bucket starts on a multiple of the rollup: the k-th is k
      rollups after the truncated start, and the times increase. */
  lemma ZerofillAligned(start: int, end: int, rollup: nat)
    requires rollup > 0
    ensures var vs := Zerofill(start, end, rollup).value;
            && (forall k :: 0 <= k < |vs| ==> vs[k].time == (TruncDiv(start, rollup) + k) * rollup)
            && (forall a, b :: 0 <= a < b < |vs| ==> vs[a].time < vs[b].time)
  {
    var vs := Zerofill(start, end, rollup).value;
    forall a, b | 0 <= a < b < |vs|
      ensures vs[a].time < vs[b].time
    {
      MulStrictlyMonotone(TruncDiv(start, rollup) + a, TruncDiv(start, rollup) + b, rollup);
    }
  }

  /** When the start is not after the end there is a bucket for each, and
      the last is the end's. */
  lemma ZerofillLast(start: int, end: int, rollup: nat)
    requires rollup > 0 && start <= end
    ensures var vs := Zerofill(start, end, rollup).value;
            && |vs| == TruncDiv(end, rollup) - TruncDiv(start, rollup) + 1
            && vs[0].time == TruncDiv(start, rollup) * rollup
            && vs[|vs| - 1].time == TruncDiv(end, rollup) * rollup
  {
    TruncDivMonotone(start, end, rollup);
  }

  /** For timestamps from 1970 on, every second from start to end falls in
      a bucket. */
  lemma ZerofillCovers(start: int, end: int, rollup: nat, t: int)
    requires rollup > 0 && 0 <= start <= t <= end
    ensures var vs := Zerofill(start, end, rollup).value;
            exists k :: 0 <= k < |vs| && vs[k].time <= t < vs[k].time + rollup
  {
    var vs := Zerofill(start, end, rollup).value;
    DivMonotone(start, t, rollup);
    DivMonotone(t, end, rollup);
    var k := t / rollup - start / rollup;
    assert vs[k].time == (t / rollup) * rollup;
  }

  // ---------------------------------------------------------------------
  // Series and the response

  /** `TimeSeriesValues.update`: the bucket whose time is the row's takes
      the row; a row outside the buckets fails. */
  function UpdateSeries(vs: seq<MeasureValue>, row: Row): (r: Result<seq<MeasureValue>, StatsError>)
    ensures r.Err? <==> forall k :: 0 <= k < |vs| ==> vs[k].time != row.time
    ensures r.Ok? ==>
              |r.value| == |vs| &&
              (exists k :: 0 <= k < |vs| && vs[k].time == row.time && r.value == vs[k := Update(vs[k], row)])
  {
    if |vs| == 0 then Err(UnknownTime(row.time))
    else if vs[0].time == row.time then Ok(vs[0 := Update(vs[0], row)])
    else
      var rest :- UpdateSeries(vs[1..], row);
      var k :| 0 <= k < |vs| - 1 && vs[1..][k].time == row.time && rest == vs[1..][k := Update(vs[1..][k], row)];
      assert [vs[0]] + rest == vs[k + 1 := Update(vs[k + 1], row)];
      Ok([vs[0]] + rest)
  }

  /** `StatsResponse`: one series per category. */
  datatype StatsResponse = StatsResponse(errors: seq<MeasureValue>, transactions: seq<MeasureValue>, attachments: seq<MeasureValue>)

  /** `StatsResponse(start, end, rollup)`. */
  function NewResponse(start: int, end: int, rollup: nat): (r: Result<StatsResponse, StatsError>)
    ensures r.Ok? <==> rollup > 0
    ensures r.Ok? ==> r.value.errors == r.value.transactions == r.value.attachments == Zerofill(start, end, rollup).value
  {
    var vs :- Zerofill(start, end, rollup);
    Ok(StatsResponse(vs, vs, vs))
  }

  /** The endpoint's loop body: `response.get(row["category"]).update(row)`.
      Only the row's category series changes. */
  function UpdateResponse(resp: StatsResponse, row: Row): (r: Result<StatsResponse, StatsError>)
    ensures row.category == OtherCategory ==> r == Err(UnknownCategory)
    ensures row.category == Error ==>
              (r.Ok? <==> UpdateSeries(resp.errors, row).Ok?) &&
              (r.Ok? ==> r.value.errors == UpdateSeries(resp.errors, row).value
                         && r.value.transactions == resp.transactions && r.value.attachments == resp.attachments)
    ensures row.category == Transaction ==>
              (r.Ok? <==> UpdateSeries(resp.transactions, row).Ok?) &&
              (r.Ok? ==> r.value.transactions == UpdateSeries(resp.transactions, row).value
                         && r.value.errors == resp.errors && r.value.attachments == resp.attachments)
    ensures row.category == Attachment ==>
              (r.Ok? <==> UpdateSeries(resp.attachments, row).Ok?) &&
              (r.Ok? ==> r.value.attachments == UpdateSeries(resp.attachments, row).value
                         && r.value.errors == resp.errors && r.value.transactions == resp.transactions)
  {
    match row.category
    case Error =>
      var s :- UpdateSeries(resp.errors, row);
      Ok(resp.(errors := s))
    case Transaction =>
      var s :- UpdateSeries(resp.transactions, row);
      Ok(resp.(transactions := s))
    case Attachment =>
      var s :- UpdateSeries(resp.attachments, row);
      Ok(resp.(attachments := s))
    case OtherCategory => Err(UnknownCategory)
  }

  /** All rows in order; the first failing one ends the request. */
  function UpdateAll(resp: StatsResponse, rows: seq<Row>): (r: Result<StatsResponse, StatsError>)
    ensures r.Ok? <==> forall i :: 0 <= i < |rows| ==> rows[i].time in Times(SeriesOf(resp, rows[i].category))
    ensures r.Ok? ==> SameTimes(r.value, resp)
    decreases |rows|
  {
    if |rows| == 0 then Ok(resp)
    else
      UpdateResponseFits(resp, rows[0]);
      assert forall i :: 1 <= i < |rows| ==> rows[i] == rows[1..][i - 1];
      var next :- UpdateResponse(resp, rows[0]);
      SameTimesSeries(next, resp);
      UpdateAll(next, rows[1..])
  }

  /** The bucket times of a series. */
  function Times(vs: seq<MeasureValue>): (ts: seq<int>)
    ensures |ts| == |vs| && forall k :: 0 <= k < |vs| ==> ts[k] == vs[k].time
  {
    seq(|vs|, k requires 0 <= k < |vs| => vs[k].time)
  }

  /** The series a row of a category updates; a category without a series
      has no buckets. */
  function SeriesOf(resp: StatsResponse, c: Category): seq<MeasureValue>
  {
    match c
    case Error => resp.errors
    case Transaction => resp.transactions
    case Attachment => resp.attachments
    case OtherCategory => []
  }

  /** Two responses with the same buckets in every series. */
  predicate SameTimes(a: StatsResponse, b: StatsResponse)
  {
    Times(a.errors) == Times(b.errors) && Times(a.transactions) == Times(b.transactions)
    && Times(a.attachments) == Times(b.attachments)
  }

  /** A row is taken exactly when its category has a series with a bucket
      at its time, and taking it keeps every bucket where it was. */
  lemma UpdateResponseFits(resp: StatsResponse, row: Row)
    ensures UpdateResponse(resp, row).Ok? <==> row.time in Times(SeriesOf(resp, row.category))
    ensures UpdateResponse(resp, row).Ok? ==> SameTimes(UpdateResponse(resp, row).value, resp)
  {
    match row.category {
      case Error => UpdateSeriesTimes(resp.errors, row);
      case Transaction => UpdateSeriesTimes(resp.transactions, row);
      case Attachment => UpdateSeriesTimes(resp.attachments, row);
      case OtherCategory =>
    }
  }

  /** Responses with the same buckets offer every category the same
      times. */
  lemma SameTimesSeries(a: StatsResponse, b: StatsResponse)
    requires SameTimes(a, b)
    ensures forall c :: Times(SeriesOf(a, c)) == Times(SeriesOf(b, c))
  {
    forall c
      ensures Times(SeriesOf(a, c)) == Times(SeriesOf(b, c))
    {
      match c {
        case Error =>
        case Transaction =>
        case Attachment =>
        case OtherCategory =>
      }
    }
  }

  /** A series takes a row exactly when it has a bucket at the row's time,
      and keeps its bucket times. */
  lemma UpdateSeriesTimes(vs: seq<MeasureValue>, row: Row)
    ensures UpdateSeries(vs, row).Ok? <==> row.time in Times(vs)
    ensures UpdateSeries(vs, row).Ok? ==> Times(UpdateSeries(vs, row).value) == Times(vs)
  {
    if row.time in Times(vs) {
      var k :| 0 <= k < |vs| && Times(vs)[k] == row.time;
      assert vs[k].time == row.time;
    }
    if UpdateSeries(vs, row).Ok? {
      var k :| 0 <= k < |vs| && vs[k].time == row.time && UpdateSeries(vs, row).value == vs[k := Update(vs[k], row)];
      assert Times(vs)[k] == row.time;
    }
  }

  function SerializeSeries(vs: seq<MeasureValue>): (s: seq<SerializedMeasure>)
    ensures |s| == |vs| && forall k :: 0 <= k < |vs| ==> s[k] == Serialize(vs[k])
  {
    if |vs| == 0 then [] else [Serialize(vs[0])] + SerializeSeries(vs[1..])
  }

  /** `StatsResponse.build_fields`: exactly the three category names, each
      with its serialized series. */
  function BuildFields(resp: StatsResponse): (fields: map<string, seq<SerializedMeasure>>)
    ensures fields.Keys == {"statsErrors", "statsTransactions", "statsAttachments"}
    ensures fields["statsErrors"] == SerializeSeries(resp.errors)
    ensures fields["statsTransactions"] == SerializeSeries(resp.transactions)
    ensures fields["statsAttachments"] == SerializeSeries(resp.attachments)
  {
    map["statsErrors" := SerializeSeries(resp.errors),
        "statsTransactions" := SerializeSeries(resp.transactions),
        "statsAttachments" := SerializeSeries(resp.attachments)]
  }

  /** One accepted row and one over-quota row of quantity 1 in the same
      bucket: accepted and over quota report 1, everything else 0. */
  lemma AcceptedAndOverQuotaExample(time: int)
    ensures var mv := Update(Update(EmptyMeasureValue(time), Row(Error, time, Accepted, Some("none"), 1, 1)),
                             Row(Error, time, RateLimited, Some("usage_exceeded"), 1, 1));
            Serialize(mv) == SerializedMeasure(Counts(1, 1), Counts(0, 0), Counts(1, 1), Counts(0, 0), Counts(0, 0), time)
  {
  }
}

=== FILE: wrappers.dfy ===
/** Failure-compatible wrappers shared by every module of the model.
    `Option` stands for Python's `None`-or-value returns, `Result` for a
    return that may instead raise one of the modelled exceptions. */
module Wrappers {

  datatype Option<+T> = None | Some(value: T) {
    predicate IsFailure() { None? }

    function PropagateFailure<U>(): Option<U>
      requires None?
    {
      None
    }

    function Extract(): T
      requires Some?
    {
      value
    }

    /** The value, or the given error where there is none. */
    function ToResult<E>(error: E): Result<T, E> {
      match this
      case Some(v) => Ok(v)
      case None => Err(error)
    }
  }

  datatype Result<+R, +E> = Ok(value: R) | Err(error: E) {
    predicate IsFailure() { Err? }

    function PropagateFailure<U>(): Result<U, E>
      requires Err?
    {
      Err(error)
    }

    function Extract(): R
      requires Ok?
    {
      value
    }
  }
}
